=== FILE: README.md ===
# qasectl core, modelled in Dafny

qasectl is a command-line client for Qase TestOps. It reads test reports in
several formats and turns each test into a common `Result`. The formats are
Allure JSON, JUnit XML, Qase JSON and an Xcode `.xcresult` bundle read through
`xcrun xcresulttool`. It then converts each `Result` into the body of a
"create result" request for version 1 or version 2 of the Qase API. A few
thin services sit next to this pipeline:
- get-or-create an environment or a milestone;
- remove custom fields;
- build a Playwright test filter from a test plan.

This project models these parts as pure Dafny functions over immutable data:
- the four report parsers, including the `.xcresult` JSON decoder and its
  object model;
- both request converters;
- the services listed above;
- the step-level option;
- the token clean-up and the generic `Contains`.

The filesystem, `xcrun`, JSON/XML parsing and the HTTP client are parameters
of these functions (total arrow functions or datatype fields). A Go panic is
an `Err` or a `None`. A client call is recorded in a returned trace, so the
contracts can say which calls a service makes.

Modules, one per source component:

| module | models |
|---|---|
| `Wrappers`, `Text`, `Assignments`, `Results` | `Option`/`Result`; the Go `strings`/`strconv` helpers the source uses; Go map filling; the common result model |
| `Utils`, `Token`, `StepLevels` | `pkg/utils.go`, `internal/token.go`, `internal/parsers/xctest/steplevel.go` |
| `XcDecoder`, `XcModel`, `XcImport` | `internal/xcresult/decoder.go`, `internal/xcresult/model/*.go`, `internal/import.go` |
| `FileSniff`, `XcTest` | `internal/parsers/xctest/xctest.go` (content sniffing and attachment naming; the parser proper) |
| `Allure`, `JUnit`, `QaseReport` | `internal/parsers/allure/allure.go`, `internal/parsers/junit/junit.go`, `internal/parsers/qase/qase.go` |
| `ConverterV1`, `ConverterV2` | `internal/client/converterv1.go`, `internal/client/converterv2.go` |
| `Filter`, `Services` | `internal/service/filter/filter.go`; `internal/service/env/env.go`, `internal/service/milestone/milestone.go`, `internal/service/fields/custom.go` |

## Model

| member | source | states |
|---|---|---|
| Utils.Contains | pkg/utils.go:3-11 | true exactly when some element equals the value |
| Utils.ContainsAppend | pkg/utils.go:3-11 | a value found in a list is still found after more elements are appended |
| Utils.ContainsOrderIndependent | pkg/utils.go:3-11 | membership depends only on which elements are present (as a multiset), not on their order |
| Token.CleanToken | internal/token.go:7-9 | the result is a contiguous piece of the token with no white space at either end |
| Token.CleanTokenRemovesOnlySpace | internal/token.go:7-9 | everything removed from the token is white space, before and after the kept piece |
| Token.CleanTokenKeepsTrimmed | internal/token.go:7-9 | a token without surrounding white space is kept unchanged |
| Token.CleanTokenIdempotent | internal/token.go:7-9 | cleaning twice is cleaning once |
| Token.ApplyToken | internal/token.go:11-17 | updating the config stores the cleaned token and leaves the rest of the config unchanged |
| StepLevels.Ordinal | internal/parsers/xctest/steplevel.go:5-11 | the three levels have the distinct values 0, 1 and 2 |
| StepLevels.ParseStepLevel | internal/parsers/xctest/steplevel.go:13-22 | "all" and "user" select those levels in any letter case; every other input, including "", selects first-level |
| StepLevels.LowerIsFold | internal/parsers/xctest/steplevel.go:14 | comparing the lower-cased input with a lower-case word is a case-insensitive comparison |
| StepLevels.ParseIgnoresCase | internal/parsers/xctest/steplevel.go:13-22 | inputs that differ only in letter case select the same level |
| XcDecoder.ObjectField | internal/xcresult/decoder.go:97 | a field is read as an object only when it is present and is a JSON object; the result is structurally smaller than its parent |
| XcDecoder.StringField | internal/xcresult/decoder.go:97 | a field is read as a string only when it is present and is a JSON string |
| XcDecoder.RequiredObject | internal/xcresult/decoder.go:102 | a required object field decodes exactly when the object field exists |
| XcDecoder.TypeName | internal/xcresult/decoder.go:96-98 | the type name is the `_name` string of the `_type` object, and is an error when either is missing |
| XcDecoder.TypeChain | internal/xcresult/decoder.go:104-113 | the chain starts with the type's own name, fails without one, and stops where `_supertype` is not an object |
| XcDecoder.Types | internal/xcresult/decoder.go:100-116 | the type list starts with the type name and fails when the type name does |
| XcDecoder.TypeChainOfTag | internal/xcresult/decoder.go:100-116 | reading back a nested `_type`/`_supertype` tag built from a list of names gives that list |
| XcDecoder.TypesOfTagged | internal/xcresult/decoder.go:96-116 | an object tagged with a list of names reports that list as its types and its first name as its type name |
| XcDecoder.IsATagged | internal/xcresult/decoder.go:49-51 | a tagged object passes the type check for a name exactly when the name is in its type list |
| XcDecoder.DecodeString | internal/xcresult/decoder.go:88-94 | succeeds exactly when the type name is "String" and `_value` is a string, and returns that string |
| XcDecoder.DecodeDouble | internal/xcresult/decoder.go:74-86 | succeeds exactly when the type name is "Double" and `_value` is a string, and returns that literal |
| XcDecoder.DecodeStringNode | internal/xcresult/decoder.go:88-94 | a string node decodes to the string it was built from |
| XcDecoder.DecodeDoubleNode | internal/xcresult/decoder.go:74-86 | a double node decodes to the literal it was built from |
| XcDecoder.DecodeStringIgnoresSupertypes | internal/xcresult/decoder.go:88-90 | a value whose supertype is "String" but whose own type is not is rejected by the string decoder, even though the generic type check would accept it |
| XcDecoder.ArrayValues | internal/xcresult/decoder.go:63-66 | the items are read only from an object typed "Array" whose `_values` is a JSON array; each item is smaller than the array |
| XcDecoder.ArrayValuesOfNode | internal/xcresult/decoder.go:63-66 | reading the items back from an array node built from items gives those items |
| XcDecoder.DecodeObject | internal/xcresult/decoder.go:46-58 | an object whose type list lacks the expected name is an incorrect-type error; otherwise the type's own decoder decides |
| XcDecoder.DecodeElement | internal/xcresult/decoder.go:66-67 | an array item that is not an object is an error; an object item decodes as `DecodeObject` |
| XcDecoder.DecodeItems | internal/xcresult/decoder.go:66-69 | the items decode exactly when each one does; the decoded list has one value per item, in order |
| XcDecoder.DecodeArray | internal/xcresult/decoder.go:60-72 | an array decodes exactly when it is an "Array" and each item decodes; the result has one value per item, in order |
| XcDecoder.DecodeItemsOfEncoded | internal/xcresult/decoder.go:66-69 | encoding values with an encoder that the decoder inverts, then decoding the items, gives the values back |
| XcDecoder.DecodeArrayOfEncoded | internal/xcresult/decoder.go:60-72 | round trip for whole arrays: decoding an encoded array gives the values back |
| XcModel.RequiredString | internal/xcresult/model/action_abstract_test_summary.go:23-24 | a required string field decodes exactly when it is an object that decodes as a String |
| XcModel.OptionalString | internal/xcresult/model/action_abstract_test_summary.go:26-28 | a missing (or non-object) field is absent; a present one must decode as a String |
| XcModel.OptionalTypeName | internal/xcresult/model/reference.go:18-21 | a missing type-definition field is absent; a present one contributes the String under its `name` |
| XcModel.OptionalDouble | internal/xcresult/model/action_test_summary.go:29-31 | a missing duration is absent; a present one must decode as a Double |
| XcModel.OptionalArray | internal/xcresult/model/action_test_activity_summary.go:41-47 | a missing array field gives an empty list; a present one is decoded as an array |
| XcModel.WithOptional | internal/xcresult/model/action_test_attachment.go:34-37 | adds a field only when a value is given (used to build encoded objects) |
| XcModel.OptionalStringOfNode | internal/xcresult/model/action_abstract_test_summary.go:26-28 | an optional string written as a node (or left out) reads back as itself |
| XcModel.OptionalTypeNameOfNode | internal/xcresult/model/reference.go:18-21 | an optional type name written as a type-definition node (or left out) reads back as itself |
| XcModel.DecodeReference | internal/xcresult/model/reference.go:17-24 | a reference needs an `id` String; its target type is present exactly when `targetType` is |
| XcModel.DecodeReferenceRoundTrip | internal/xcresult/model/reference.go:13-24 | decoding an encoded reference gives it back, and the encoding passes the Reference type check |
| XcModel.DecodeReferenceIgnoresType | internal/xcresult/model/reference.go:17-24 | the reference decoder never looks at the object's own `_type` |
| XcModel.DecodeAbstract | internal/xcresult/model/action_abstract_test_summary.go:22-29 | the common header needs a `name` String; its identifier is present exactly when `identifier` is |
| XcModel.DecodeAbstractOfFields | internal/xcresult/model/action_abstract_test_summary.go:22-29 | fields written from a header read back as that header |
| XcModel.OptionalReference | internal/xcresult/model/action_test_attachment.go:34-37 | a missing reference field is absent; a present one is decoded as a reference, without a type check |
| XcModel.OptionalReferenceOfNode | internal/xcresult/model/action_test_metadata.go:15-18 | an optional reference written as a node (or left out) reads back as itself |
| XcModel.DecodeTestAttachment | internal/xcresult/model/action_test_attachment.go:25-38 | an attachment needs a `name`; its type identifier and payload reference are present exactly when their fields are |
| XcModel.DecodeTestAttachmentRoundTrip | internal/xcresult/model/action_test_attachment.go:15-38 | decoding an encoded attachment gives it back |
| XcModel.DecodeTestAttachmentsRoundTrip | internal/xcresult/model/action_test_activity_summary.go:41-43 | decoding an encoded attachment array gives the attachments back, in order |
| XcModel.ActivityTypeFromString | internal/xcresult/model/action_test_activity_summary.go:50-56 | a declared activity type is kept; every other string becomes "none" |
| XcModel.ActivityTypeRoundTrip | internal/xcresult/model/action_test_activity_summary.go:10-22 | every declared activity type survives a trip through its string |
| XcModel.ActivityTypeFromStringIdempotent | internal/xcresult/model/action_test_activity_summary.go:50-56 | classifying an already classified type changes nothing |
| XcModel.UndeclaredActivityTypesCollapse | internal/xcresult/model/action_test_activity_summary.go:17-22 | the internal and deleted-attachment activity types are not declared here and decode as "none" |
| XcModel.DecodeActivity | internal/xcresult/model/action_test_activity_summary.go:35-48 | an activity needs a `title` and an `activityType`; missing `attachments` or `subactivities` give empty lists, present ones are decoded as arrays |
| XcModel.ActivityItemsAreArrayItems | internal/xcresult/model/action_test_activity_summary.go:45-47 | the recursive decoding of sub-activities is the generic array decoding |
| XcModel.DecodeActivitySubactivities | internal/xcresult/model/action_test_activity_summary.go:45-47 | the sub-activities of a decoded activity are what its `subactivities` array decodes to |
| XcModel.EncodeActivityFields | internal/xcresult/model/action_test_activity_summary.go:35-48 | an encoded activity has the fields and tag the decoder reads |
| XcModel.DecodeEncodedChildren | internal/xcresult/model/action_test_activity_summary.go:45-47 | sub-activities that each round-trip also round-trip as an array |
| XcModel.DecodeActivityRoundTrip | internal/xcresult/model/action_test_activity_summary.go:24-48 | decoding an encoded activity tree gives it back, at every depth |
| XcModel.DecodeTestSummary | internal/xcresult/model/action_test_summary.go:26-40 | a summary needs the header; its duration is present exactly when `duration` is; a missing status is "" |
| XcModel.DecodeTestSummaryRoundTrip | internal/xcresult/model/action_test_summary.go:15-40 | decoding an encoded summary gives it back, whatever its status |
| XcModel.Lookup | internal/xcresult/model/factory.go:8-17 | the package factory knows exactly groups and metadata; the testable-summary factory knows only groups |
| XcModel.LookupIsClosed | internal/xcresult/model/factory.go:8-17 | abstract and identifiable types are unknown to the factories |
| XcModel.DecodeMetadata | internal/xcresult/model/action_test_metadata.go:12-19 | test metadata is its header plus an optional summary reference |
| XcModel.DecodeVarObject | internal/xcresult/decoder.go:36-44 | the node kind is chosen by the FIRST type name only; with the testable factory only groups decode |
| XcModel.DecodeGroup | internal/xcresult/model/action_test_summary_group.go:14-20 | a group is its header plus its subtests, none when `subtests` is missing |
| XcModel.DecodeVarArray | internal/xcresult/decoder.go:22-34 | a variable array is an "Array" whose items each decode as a variable object |
| XcModel.DecodeVarItems | internal/xcresult/decoder.go:28-31 | items decode exactly when each is an object that decodes; the result keeps their order |
| XcModel.DecodeEncodedNodes | internal/xcresult/decoder.go:22-34 | nodes that each round-trip also round-trip as a variable array |
| XcModel.DecodeNodeRoundTrip | internal/xcresult/model/action_test_summary_group.go:5-20 | decoding an encoded group/metadata tree with the package factory gives it back |
| XcModel.DecodeVarObjectUsesFirstName | internal/xcresult/decoder.go:37-40 | a subtype of the group type is refused by the factory even though it passes the generic type check |
| XcModel.TestableFactoryRejectsMetadata | internal/xcresult/model/action_testable_summary.go:20-27 | test metadata directly under a testable summary is an error (the factory returns nil there) |
| XcModel.DecodeTestableSummary | internal/xcresult/model/action_testable_summary.go:16-28 | a testable summary needs its header and a `tests` array of groups |
| XcModel.DecodeTestableSummaryRoundTrip | internal/xcresult/model/action_testable_summary.go:7-28 | a testable summary holding only groups round-trips |
| XcModel.DecodePlanRunSummary | internal/xcresult/model/action_test_plan_run_summary.go:14-17 | a plan run needs its header and a `testableSummaries` array |
| XcModel.DecodeTestableSummariesRoundTrip | internal/xcresult/model/action_test_plan_run_summary.go:16 | an array of testable summaries round-trips |
| XcModel.DecodePlanRunSummaryRoundTrip | internal/xcresult/model/action_test_plan_run_summary.go:5-17 | a plan run round-trips |
| XcModel.DecodePlanRunSummaries | internal/xcresult/model/action_test_plan_run_summaries.go:13-15 | the list of plan runs needs a `summaries` array |
| XcModel.DecodePlanRunSummariesRoundTrip | internal/xcresult/model/action_test_plan_run_summaries.go:5-15 | the list of plan runs round-trips |
| XcModel.DecodeActionResult | internal/xcresult/model/action_result.go:13-21 | without `testsRef` there is no reference; a present one must pass the Reference type check |
| XcModel.TestsRefIsTypeChecked | internal/xcresult/model/action_result.go:19 | the same wrongly typed object is accepted as a payload reference but refused as `testsRef` |
| XcModel.TypeInfoName | internal/xcresult/model/type_info.go:8-20 | a missing `_type` reads as the empty name; JSON that is neither an object nor null fails to unmarshal |
| XcModel.TypeInfoNameAgrees | internal/xcresult/model/type_info.go:8-12 | where both are defined, the loose type-info reading agrees with the decoder's type name |
| XcModel.AssertType | internal/xcresult/model/type_info.go:14-27 | an unmarshal error is returned unchanged; otherwise success exactly when the type name equals the expected one |
| XcModel.AssertTypeIgnoresSupertypes | internal/xcresult/model/type_info.go:22-24 | unlike the decoder's check, the assertion refuses a value whose supertype is the expected type |
| XcModel.AssertTypeWithoutType | internal/xcresult/model/type_info.go:22-24 | an object with no `_type` fails with the quoted empty name in the message |
| XcImport.FirstPayload | internal/import.go:71-75 | the first attachment with the name and a payload; none when there is no such attachment |
| XcImport.ExtractAttachment | internal/import.go:66-78 | there is no data exactly when the activity is not an attachment container or has no matching attachment with a payload; otherwise the tool's answer for that payload comes back as it is: its error, or its output as data, even when empty |
| XcImport.ExtractQaseConfig | internal/import.go:46-64 | never returns a configuration: it stops at the first activity without the attachment, and errors from opening or parsing propagate |
| XcImport.ExtractQaseConfigStep | internal/import.go:46-64 | one step of the walk: an open error is returned, a missing attachment ends it with nothing, a parse error is returned, and an object or null moves on to the next activity |
| XcImport.EmptyPayloadIsParsed | internal/import.go:51-60 | an empty payload is not "no data": it goes to the JSON parser, whose error ends the walk |
| XcImport.ExtractQaseConfigStops | internal/import.go:52-54 | activities after the first one without the attachment are never looked at |
| XcImport.FindCaseId | internal/import.go:37-44 | never finds a case id; it fails exactly when the configuration search fails |
| XcImport.FetchSummary | internal/import.go:91-96 | a tool error is returned unchanged; otherwise the fetched JSON is decoded as a test summary |
| XcImport.FetchAll | internal/import.go:89-98 | fetching succeeds exactly when every reference fetches, one summary per reference, in order; otherwise the error is that of the first reference that fails |
| XcImport.FetchAllAppend | internal/import.go:85-88 | fetching two lists is fetching each in turn |
| XcImport.ExtractIdentifiableObjects | internal/import.go:80-104 | metadata without a summary reference contributes nothing; with one it contributes the fetched summary |
| XcImport.ExtractIsFetchOfLeaves | internal/import.go:80-104 | the whole tree walk equals fetching the summary references of its leaves in depth-first order |
| XcImport.ExtractFromNodesIsFetchOfLeaves | internal/import.go:85-88 | the same, for a list of subtrees |
| XcImport.ExtractAllIsFetchOfLeaves | internal/import.go:122-129 | walking the tests of a plan-run list fetches the summary references of all their leaves, in order, failing at the first fetch that fails |
| XcImport.ActionTests | internal/import.go:109-130 | an action without a tests reference yields nothing; a tool error is returned unchanged; otherwise the decoded plan runs' leaves are fetched in order |
| XcImport.ExtractTests | internal/import.go:106-133 | actions without a tests reference are skipped; a tool error for the first referenced one is returned; no references give no tests |
| XcImport.ExtractTestsCons | internal/import.go:108-130 | one loop iteration: the first action's error, else the rest's error, else the first action's tests before the rest's |
| XcImport.ExtractTestsOfOne | internal/import.go:108-130 | a single action yields what its iteration yields |
| XcImport.ExtractTestsAppend | internal/import.go:108-130 | walking `a + b` walks `a` and then `b`: the first error in action order wins, and on success the tests come in action order |
| FileSniff.SniffRest | internal/parsers/xctest/xctest.go:454-532 | the later cases yield a known extension, and ".json" only for a payload that opens with `{` or `[` and parses |
| FileSniff.DetectFileExtension | internal/parsers/xctest/xctest.go:439-533 | payloads under four bytes get none; ".png" exactly for the PNG magic; ".gif"/".webp" only with their full signatures; ".json" only for parsed JSON |
| FileSniff.AsWrittenAgreesWhereDefined | internal/parsers/xctest/xctest.go:450-452 | where the source's reading does not run past the payload it agrees with the corrected sniffing; it fails exactly on 4-5-byte non-JPEG payloads and 8-11-byte "RIFF" payloads |
| FileSniff.ShortTextPayloadOverruns | internal/parsers/xctest/xctest.go:450 | given a four-byte text payload "abcd" with no spare capacity, the source's GIF test slices past its end; the corrected test gives ".txt" |
| FileSniff.JsonIsNeverText | internal/parsers/xctest/xctest.go:507-512 | a `{`/`[` payload without a HEIC brand is ".json" when it parses and gets no extension otherwise, never ".txt" |
| FileSniff.AttachmentName | internal/parsers/xctest/xctest.go:542-558 | the first ".heic" becomes ".jpeg"; only a name with no dot, or ending in one, gets the sniffed extension appended |
| FileSniff.NamedFilesKeepTheirName | internal/parsers/xctest/xctest.go:550-558 | a name with an extension and no ".heic" is uploaded unchanged |
| FileSniff.OnlyFirstHeicRewritten | internal/parsers/xctest/xctest.go:542 | only the first ".heic" is replaced |
| XcTest.NewParser | internal/parsers/xctest/xctest.go:22-31 | a parser is made exactly for paths ending in ".xcresult", with the parsed step level; others are refused with the path in the message |
| XcTest.GetStatus | internal/parsers/xctest/xctest.go:735-748 | "Failure", "Error" and "Skipped" map to failed, invalid and skipped; every other status is passed |
| XcTest.GetAttachment | internal/parsers/xctest/xctest.go:535-564 | an attachment exists exactly when its payload can be read; it carries the payload as content and the sniffed name |
| XcTest.Collect | internal/parsers/xctest/xctest.go:720-728 | keeps the readable attachments in order: all of them when all are readable, none when none are |
| XcTest.CollectAppend | internal/parsers/xctest/xctest.go:718-730 | collecting two lists is collecting each in turn |
| XcTest.TestLevelAttachments | internal/parsers/xctest/xctest.go:712-733 | the readable attachments of the top-level activities, activity by activity |
| XcTest.LinkFailures | internal/parsers/xctest/xctest.go:617-634 | a step fails exactly when one of its failure ids is in the table; it claims exactly the listed ids found in the table, and takes its comment from such a failure |
| XcTest.IsFailureProcessed | internal/parsers/xctest/xctest.go:428-436 | true exactly for an id in the processed list |
| XcTest.PruningPolicy | internal/parsers/xctest/xctest.go:660-664 | "all" hides nothing; "user" hides internal and deleted-attachment activities at every depth; first-level hides them only at depth 0 |
| XcTest.LinkOf | internal/parsers/xctest/xctest.go:617-634 | an activity's failure link fails exactly when it has a failure id in the table |
| XcTest.VisitActivity | internal/parsers/xctest/xctest.go:575-705 | a `Qase config` carrier is skipped; otherwise an activity is hidden exactly when the policy prunes it; the state only grows |
| XcTest.ShownAttachments | internal/parsers/xctest/xctest.go:636-658 | a shown step lists its own attachments first; what its hidden children passed up is kept only when it has no child steps |
| XcTest.GetSteps | internal/parsers/xctest/xctest.go:566-709 | the walk never produces more steps than activities, and the state only grows |
| XcTest.GetStepsShape | internal/parsers/xctest/xctest.go:566-709 | the step tree has exactly the visible shape the policy defines (shown activities, hidden ones spliced out, failed status where a failure or failed child exists); the failed flag says whether any activity failed |
| XcTest.VisitActivityShape | internal/parsers/xctest/xctest.go:575-705 | the same, for one activity |
| XcTest.GetStepsCaseId | internal/parsers/xctest/xctest.go:607-612 | the first case id found wins: one already set is kept; otherwise the walk ends with the first readable `Qase config` id |
| XcTest.VisitActivityCaseId | internal/parsers/xctest/xctest.go:589-615 | the same, for one activity |
| XcTest.FailureTable | internal/parsers/xctest/xctest.go:374-376 | the table holds exactly the listed failure ids, each mapped to the LAST summary with that id |
| XcTest.FailureIds | internal/parsers/xctest/xctest.go:395 | each failure id once, exactly the listed ones |
| XcTest.UnclaimedAttachments | internal/parsers/xctest/xctest.go:395-418 | when every failure was claimed by a step (or is unknown), no further attachments are added |
| XcTest.UnclaimedOne | internal/parsers/xctest/xctest.go:395-418 | a failure id adds the readable attachments of its summary exactly when it is in the table and no step claimed it |
| XcTest.UnclaimedAppend | internal/parsers/xctest/xctest.go:395-418 | the failure ids contribute in their order: the attachments for `a + b` are those for `a`, then those for `b` |
| XcTest.Messages | internal/parsers/xctest/xctest.go:374-377 | one message per failure summary, in order |
| XcTest.StackTraceIsJoin | internal/parsers/xctest/xctest.go:373-378 | the stack trace is the messages joined by line feeds with a final line feed, and empty without failures |
| XcTest.GetResult | internal/parsers/xctest/xctest.go:317-426 | title, signature, suite path (test-plan suite first), status, duration, device/configuration params; a stack trace exactly when failure summaries exist; start/end times exactly when there are activities; the first `Qase config` case id; the visible step tree; the attachments are those the step walk hands up, then the test-level ones, then those of the unclaimed failures |
| XcTest.NothingHiddenUnderAll | internal/parsers/xctest/xctest.go:566-709 | under the "all" level no activity is hidden, so the walk hands no attachments up |
| XcTest.TestWalkUnderAll | internal/parsers/xctest/xctest.go:383-418 | under the "all" level a result's attachments start with the test-level ones |
| XcTest.GetResults | internal/parsers/xctest/xctest.go:324-425 | one result per test, in order, each from a fresh state |
| XcTest.ClaimedFailuresAddNothing | internal/parsers/xctest/xctest.go:395-399 | failures claimed by steps contribute no attachments at the end |
| XcTest.TestsFromNode | internal/parsers/xctest/xctest.go:272-311 | a node with a summary reference is one test at most (none when its summary cannot be read), with the enclosing suite path; otherwise its tests' paths start with its own name appended |
| XcTest.TestsFromSubtests | internal/parsers/xctest/xctest.go:266-314 | the tests under a node list, every one with a suite path that starts with the list's group path |
| XcTest.Leaves | internal/parsers/xctest/xctest.go:266-315 | the test nodes under a list, depth first, each with a suite path that extends the enclosing one |
| XcTest.LeavesOf | internal/parsers/xctest/xctest.go:303-311 | the same, for one node |
| XcTest.FetchLeaves | internal/parsers/xctest/xctest.go:273-279 | at most one test per leaf; one per leaf when every summary can be read |
| XcTest.FetchLeavesAppend | internal/parsers/xctest/xctest.go:272-312 | fetching two leaf lists is fetching each in turn |
| XcTest.TestsAreFetchedLeaves | internal/parsers/xctest/xctest.go:266-315 | the tests found under a subtest list are exactly the fetched leaves, in depth-first order, with their group paths |
| XcTest.TestsOfNodeAreFetchedLeaves | internal/parsers/xctest/xctest.go:272-311 | the same, for one node |
| Allure.ConvertTestStatus | internal/parsers/allure/allure.go:240-245 | a valid test status (the five of lines 37-43) is kept; any other becomes "invalid" |
| Allure.ConvertStepStatus | internal/parsers/allure/allure.go:247-252 | a valid step status (the four of lines 30-35) is kept; any other becomes "blocked" |
| Allure.StatusCoercionsIdempotent | internal/parsers/allure/allure.go:240-252 | coercing a coerced status changes nothing, and a coerced step status is also a valid test status |
| Allure.ExtractTestOpsId | internal/parsers/allure/allure.go:268-285 | an empty name has no id; any id found is a 64-bit integer |
| Allure.NoSeparator | internal/parsers/allure/allure.go:273-281 | a non-empty name without '-' is trimmed and parsed whole: "123" is the id 123, "test" gives no id |
| Allure.BareNumberIsId | internal/parsers/allure/allure.go:273-281 | a name made only of digits is its own id when it fits in 64 bits |
| Allure.BareWordIsNoId | internal/parsers/allure/allure.go:273-281 | a name without '-' holding a letter, such as "test", gives no id |
| Allure.ExtractTestOpsIdOfTail | internal/parsers/allure/allure.go:273-281 | the id is the part after the LAST '-', trimmed and parsed as a 64-bit integer |
| Allure.TrailingNumberIsId | internal/parsers/allure/allure.go:273-281 | a name ending in "-" and a 64-bit number has that number as its id |
| Allure.NonNumericTailIsNoId | internal/parsers/allure/allure.go:278-284 | a tail after the last '-' containing a letter gives no id |
| Allure.EmptyTailIsNoId | internal/parsers/allure/allure.go:278-284 | a name ending in '-' gives no id |
| Allure.GetTestOpsId | internal/parsers/allure/allure.go:254-266 | no "tms" link gives no id; otherwise the id is read from the FIRST "tms" link only |
| Allure.LaterTmsLinksIgnored | internal/parsers/allure/allure.go:259-263 | links after the first "tms" link never matter, even when that one holds no number |
| Allure.FieldName | internal/parsers/allure/allure.go:188-192 | a label keeps its name, except that a "layer" label with an unknown value is stored as "custom layer" |
| Allure.LabelPairs | internal/parsers/allure/allure.go:153-195 | one field write per label, in order, with the label's value |
| Allure.LabelFields | internal/parsers/allure/allure.go:153-199 | every label's field name is a key holding the value of the last label with that field name; "layer" only ever holds a known layer; a description overwrites any "description" label |
| Allure.UnknownLayerIsCustom | internal/parsers/allure/allure.go:188-194 | an unknown layer is stored under "custom layer" and not under "layer" |
| Allure.SuiteLabel | internal/parsers/allure/allure.go:158-186 | the value of the LAST "suite" or "package" label; none without one |
| Allure.SuitePath | internal/parsers/allure/allure.go:158-186 | the suite path joined with '.' gives back the last suite or package label; no path without one |
| Allure.SuiteOverridesPackage | internal/parsers/allure/allure.go:173-185 | a later suite label overrides any earlier package label |
| Allure.ThreadAsWritten | internal/parsers/allure/allure.go:153-156 | as written, a thread is recorded exactly when some label's VALUE is "thread", and it is always that word |
| Allure.Thread | internal/parsers/allure/allure.go:153-156 | the thread is the value of the last label NAMED "thread"; none without such a label |
| Allure.ThreadReadingsAgreeWithoutThreadLabels | internal/parsers/allure/allure.go:153-156 | without a label named or valued "thread" both readings record no thread |
| Allure.ThreadLabelMisread | internal/parsers/allure/allure.go:154 | a real thread label is lost by the source, and a label whose value is "thread" is taken for one |
| Allure.ConvertAttachments | internal/parsers/allure/allure.go:225-238 | one attachment per input, in order, with name and type kept and the file path joined to the report root |
| Allure.ConvertStep | internal/parsers/allure/allure.go:204-223 | the action is the step name; the status is coerced; the duration is stop minus start; the attachments are the step's converted attachments; one child per child |
| Allure.ConvertStepKeepsOutline | internal/parsers/allure/allure.go:204-223 | conversion keeps every step's name, order and nesting |
| Allure.ConvertStepsKeepOutline | internal/parsers/allure/allure.go:218-220 | the same, for a list of steps |
| Allure.ConvertTest | internal/parsers/allure/allure.go:124-202 | the title is the test name and the status is coerced |
| Allure.ConvertTestContract | internal/parsers/allure/allure.go:124-202 | the message, trace, first-tms id, start/stop/duration, thread, suite path, label fields, params (a later one with the same name wins), steps (same tree) and attachments (the test's attachments converted) of a converted test; step type "text" |
| Allure.KeptTests | internal/parsers/allure/allure.go:90-104 | unreadable files are skipped, so there are never more tests than files |
| Allure.NoneReadableKeepsNothing | internal/parsers/allure/allure.go:98-102 | when no file can be parsed the result is empty, not an error |
| Allure.AllReadableKeepsAll | internal/parsers/allure/allure.go:90-104 | when every file parses, one test per file, in order |
| Allure.KeptTestsAppend | internal/parsers/allure/allure.go:90-104 | filtering two file lists is filtering each in turn |
| Allure.ConvertAll | internal/parsers/allure/allure.go:103 | one result per parsed test |
| Allure.Parse | internal/parsers/allure/allure.go:54-107 | stat and walk errors are wrapped with their messages; a directory's root is itself and a file's root its directory; only "-result.json" files are read |
| JUnit.CaseVerdict | internal/parsers/junit/junit.go:135-154 | skipped beats error beats failure beats passed, as an if-and-only-if for each status; the message comes from the winning element; the stack trace from the error, else the failure, and a skip does not clear it |
| JUnit.SuitePath | internal/parsers/junit/junit.go:108-131 | the report name (when not empty) comes first and the path is never empty |
| JUnit.SuitePathIsSplit | internal/parsers/junit/junit.go:114-131 | after the report name, the suite name split on the separator (the whole name when it has none), which joins back to the suite name |
| JUnit.Signature | internal/parsers/junit/junit.go:133 | the signature starts with the report name, ends with the case name and adds exactly six separator characters |
| JUnit.SignatureRecoverable | internal/parsers/junit/junit.go:133 | when no part contains ':', splitting the signature on ':' recovers the four parts |
| JUnit.PropertyPairs | internal/parsers/junit/junit.go:158-160 | one field write per property, in order |
| JUnit.Outputs | internal/parsers/junit/junit.go:180-200 | a non-empty system-out becomes the first attachment and a non-empty system-err the last; each has non-empty content |
| JUnit.ConvertCase | internal/parsers/junit/junit.go:162-178 | the title is the case name |
| JUnit.ConvertCaseContract | internal/parsers/junit/junit.go:106-202 | the signature, suite path, verdict, duration, properties (a later one with the same name wins) and output attachments of a converted case; no steps; step type "text" |
| JUnit.Cases | internal/parsers/junit/junit.go:106-107 | the cases of all suites in order, as many as there are cases |
| JUnit.CaseAt | internal/parsers/junit/junit.go:106-107 | case j of suite s sits at position (cases of the earlier suites) + j |
| JUnit.ConvertTestSuites | internal/parsers/junit/junit.go:103-207 | one result per testcase of every suite (the position of each is `JUnit.ResultOfCase`) |
| JUnit.ResultOfCase | internal/parsers/junit/junit.go:103-207 | the result at the position of case j of suite s is the conversion of that case within that suite |
| JUnit.ParseEntries | internal/parsers/junit/junit.go:42-59 | the walk succeeds exactly when no entry fails; the error is the first failure's, unchanged |
| JUnit.OneFailureFailsAll | internal/parsers/junit/junit.go:48-52 | one unreadable file fails the whole directory |
| JUnit.DirectoriesAddNothing | internal/parsers/junit/junit.go:47 | directory entries contribute nothing |
| JUnit.Parse | internal/parsers/junit/junit.go:29-70 | a stat error is returned unchanged; a file's parse error is returned unchanged, otherwise its cases; a directory is the walk |
| QaseReport.Ext | internal/parsers/qase/qase.go:61 | the extension is empty or a final '.'-suffix with no further dot or separator |
| QaseReport.JsonExtIffSuffix | internal/parsers/qase/qase.go:61 | a file is read exactly when its name ends in ".json" |
| QaseReport.ExtOfLastDot | internal/parsers/qase/qase.go:61 | the extension is taken from the last dot |
| QaseReport.ConvertAttachment | internal/parsers/qase/qase.go:113-132 | only a path that does not exist is rewritten, to "attachments/<base name>" beside the report; an existing path, another stat error or no path leaves the attachment unchanged |
| QaseReport.ConvertAttachments | internal/parsers/qase/qase.go:113-132 | each attachment is repaired in place; the list keeps its length and order |
| QaseReport.ConvertStep | internal/parsers/qase/qase.go:101-111 | only the step's attachments change; the rest of its execution is kept |
| QaseReport.ConvertAttachmentsAppend | internal/parsers/qase/qase.go:114-129 | repairing two lists is repairing each in turn |
| QaseReport.StepAttachmentsConverted | internal/parsers/qase/qase.go:101-111 | every attachment in a step tree is repaired, at every depth |
| QaseReport.StepsAttachmentsConverted | internal/parsers/qase/qase.go:101-111 | the same, for a list of steps |
| QaseReport.ConvertStepKeepsOutline | internal/parsers/qase/qase.go:101-111 | repairing keeps every step's action, order and nesting |
| QaseReport.ConvertStepsKeepOutline | internal/parsers/qase/qase.go:102-108 | the same, for a list of steps |
| QaseReport.CalculateDurationAsWritten | internal/parsers/qase/qase.go:134-144 | as written, the source crashes exactly when the top-level times are present and an execution time is missing |
| QaseReport.CalculateDuration | internal/parsers/qase/qase.go:134-144 | with all four times present the duration is execution end minus start; otherwise the duration is kept; execution times are always cleared and nothing else changes |
| QaseReport.DurationAgreesWhereDefined | internal/parsers/qase/qase.go:134-144 | wherever the source does not crash it computes the corrected result |
| QaseReport.TopLevelTimesWithoutExecutionTimesCrash | internal/parsers/qase/qase.go:135-136 | top-level times without an execution start crash the source; the corrected version keeps the duration |
| QaseReport.CalculateDurationIdempotent | internal/parsers/qase/qase.go:134-144 | calculating twice is calculating once |
| QaseReport.Repair | internal/parsers/qase/qase.go:92-96 | a parsed result gets its attachments and step attachments repaired and its execution replaced by the calculated one; every other field is kept |
| QaseReport.RepairAgreesWhereDefined | internal/parsers/qase/qase.go:80-97 | the source's `parseFile` crashes exactly on top-level times with a missing execution time, and otherwise computes `Repair` |
| QaseReport.ParseFiles | internal/parsers/qase/qase.go:60-74 | non-".json" and unreadable files are skipped, so there are never more results than files |
| QaseReport.SkippedFileAddsNothing | internal/parsers/qase/qase.go:61-72 | a skipped file contributes nothing |
| QaseReport.KeptFileAddsRepair | internal/parsers/qase/qase.go:60-74 | a decoded ".json" file contributes its repaired result, ahead of the later files' results |
| QaseReport.ParseFilesAppend | internal/parsers/qase/qase.go:60-74 | results follow file order: parsing `a + b` gives the results of `a`, then those of `b` |
| QaseReport.Parse | internal/parsers/qase/qase.go:26-77 | stat and walk errors are wrapped; an empty directory gives no results; attachments are resolved beside the input path |
| ConverterV1.UploadAttachments | internal/client/converterv1.go:86-134 | the upload crashes exactly when some attachment has neither a path nor content; otherwise at most one hash per attachment |
| ConverterV1.AllUploadsKept | internal/client/converterv1.go:108-126 | when every upload succeeds, one hash per attachment, in order |
| ConverterV1.FailedUploadsSkipped | internal/client/converterv1.go:108-124 | failed opens or uploads are skipped without error |
| ConverterV1.UploadAppend | internal/client/converterv1.go:89-131 | uploading two lists is uploading each in turn |
| ConverterV1.SuiteTitle | internal/client/converterv1.go:69-73 | every suite title is followed by a tab, the last one included; empty exactly without titles |
| ConverterV1.SuiteTitleSplits | internal/client/converterv1.go:69-73 | when no title holds a tab, splitting on tabs gives the titles back plus one trailing empty part |
| ConverterV1.SuiteTitleOf | internal/client/converterv1.go:68-76 | a suite title is sent exactly when the suite list is non-nil; an empty list sends "" |
| ConverterV1.Lookup | internal/client/converterv1.go:44-66 | a case field is set exactly when the key is present, with its value |
| ConverterV1.CaseOf | internal/client/converterv1.go:40-76 | the case carries the title, the six optional fields by key, and the suite title |
| ConverterV1.ConvertStep | internal/client/converterv1.go:143-178 | a step keeps its action, status and comment; its attachments are uploaded; one child per child |
| ConverterV1.ConvertStepKeepsOutline | internal/client/converterv1.go:143-178 | conversion keeps every step's action, order and nesting |
| ConverterV1.ConvertStepsKeepOutline | internal/client/converterv1.go:146-156 | the same, for a list of steps |
| ConverterV1.ConvertResult | internal/client/converterv1.go:12-84 | exactly one of case and case id is sent (the id when the result has one); status, comment, stack trace, params and times pass through; never a defect; the step tree is kept |
| ConverterV2.CreateExecution | internal/client/converterv2.go:36-60 | the status is kept; each optional value is sent exactly when the result has it, times converted to seconds |
| ConverterV2.CreateRelations | internal/client/converterv2.go:67-82 | no empty titles are sent, and every non-empty title is sent as often as it occurs |
| ConverterV2.CreateRelationsAppend | internal/client/converterv2.go:69-74 | filtering keeps the order of the titles |
| ConverterV2.CreateRelationsKeepsNonEmpty | internal/client/converterv2.go:69-74 | without empty titles nothing is dropped |
| ConverterV2.RelationsOf | internal/client/converterv2.go:30 | a nil suite list sends no titles |
| ConverterV2.ConvertFields | internal/client/converterv2.go:84-118 | every key goes to exactly one place, its own slot when it is one of the 11 known keys and the additional properties otherwise, with its value |
| ConverterV2.FieldsReassemble | internal/client/converterv2.go:84-118 | putting the two halves back together gives the fields again |
| ConverterV2.StepExecutionOf | internal/client/converterv2.go:138-150 | a step execution keeps status, duration and comment, and uploads its attachments |
| ConverterV2.ConvertStep | internal/client/converterv2.go:128-136 | a step keeps its action and execution; one child per child |
| ConverterV2.ConvertStepKeepsOutline | internal/client/converterv2.go:128-162 | conversion keeps every step's action, order and nesting |
| ConverterV2.ConvertStepsKeepOutline | internal/client/converterv2.go:120-126 | the same, for a list of steps |
| ConverterV2.ConvertResult | internal/client/converterv2.go:9-34 | title, signature, id and message pass through; never a defect; always "classic" steps; the execution, relations and fields as above; the step tree is kept |
| ConverterV2.StepTypeIgnored | internal/client/converterv2.go:29 | results that differ only in their step type convert alike |
| Filter.Decimals | internal/service/filter/filter.go:56 | every id in decimal |
| Filter.PrepareForPlaywright | internal/service/filter/filter.go:50-61 | the pattern is "(Qase ID: " … ")" |
| Filter.AlternativesAreJoin | internal/service/filter/filter.go:52-57 | the alternatives are the decimal ids joined by '\|' |
| Filter.AlternativesRoundTrip | internal/service/filter/filter.go:50-61 | splitting the alternatives on '\|' and parsing each part gives the plan's ids back, in order |
| Filter.SeparatorCount | internal/service/filter/filter.go:52-55 | the pattern holds exactly n-1 separators for n > 0 ids, none for no ids |
| Filter.GetFilteredResults | internal/service/filter/filter.go:26-47 | a plan error is returned unchanged; an empty plan is refused before the framework is checked; success exactly for a non-empty plan with "playwright" |
| Services.FirstWithSlug | internal/service/env/env.go:35-40 | the first environment with the slug, none when no environment has it |
| Services.CreateEnvironmentService | internal/service/env/env.go:29-43 | a lookup error is wrapped; an existing environment with the slug is returned with no create call; otherwise the create answer is returned after exactly one create call |
| Services.CreatesOnlyWhenMissing | internal/service/env/env.go:35-42 | a create call is made exactly when the lookup succeeded and no environment has the slug |
| Services.EnvironmentCreatedOnce | internal/service/env/env.go:35-42 | once the created environment is listed, asking again returns it without creating |
| Services.CreateMilestoneService | internal/service/milestone/milestone.go:30-41 | a search error is wrapped; otherwise the first milestone found is returned, with no title comparison; create is called only when the search finds none |
| Services.MilestoneCreatedOnce | internal/service/milestone/milestone.go:36-38 | once the search finds the created milestone, asking again returns it without creating |
| Services.MilestoneFromSearchOrCreate | internal/service/milestone/milestone.go:30-41 | a successful answer is either one the search returned or the answer of the one create call |
| Services.RemoveCalls | internal/service/fields/custom.go:44-45 | one removal call per field, by id, in order |
| Services.RemoveEach | internal/service/fields/custom.go:44-51 | the loop succeeds exactly when every removal does, and then it has removed every field in order |
| Services.FirstFailureStops | internal/service/fields/custom.go:44-49 | the first failing removal ends the loop with its message; the fields after it are never touched |
| Services.RemoveCustomFields | internal/service/fields/custom.go:25-52 | neither id nor all is refused without calls; a given id is removed alone whatever "all" says; a list error is wrapped; otherwise the loop |
| Services.EmptyListRemovesNothing | internal/service/fields/custom.go:39-51 | an empty list succeeds after the single list call |

## Left out

- File system, `os.Stat`, `filepath.Walk`, `os.ReadFile`, `xcrun xcresulttool`, `json.Unmarshal`, `xml.Unmarshal` and the HTTP clients are left out. They are replaced by parameters (arrow functions or datatype fields): what the walk finds, what a read or parse answers, what the client answers. The model states what the code does with each answer.
- Logging (`slog`, `fmt.Println`) is left out. It has no effect on results.
- The orchestration in `xctest.go` is left out: `Parse`, `readJson`, `readAttachment`, `getTestPlanSumIDs`, `getTestPlanSums`, `getActionTestSummary` and `getXCTests` (xctest.go:49-264). They shell out to `xcrun` and iterate a Go map. The tests are an input to `XcTest.GetResults`, and `XcTest.TestsFromSubtests` models `getXCTestsFromSubtest`.
- `parseTime` and `strconv.ParseFloat` are left out. Times and durations are opaque integers or literals, or oracle answers.
- Floating-point arithmetic is left out:
  - The version-1 `int32`/`int64` casts of times pass the value through unchanged. A millisecond start time is outside the `int32` range, and Go's conversion of such a float is implementation-defined.
  - The version-2 division by 1000.0 is the `seconds` parameter.
- `XcTest.GetResults` iterates the failure table in first-appearance order. Go randomises map iteration, and the model fixes one admissible order.
- The version-2 step-status and steps-type enums are validated inside the generated API library (`NewResultStepStatusFromValue`, `NewResultStepsTypeFromValue`). That library is not part of this model, so the status is passed through.
- The UUIDs that JUnit gives its output attachments are random and are not modelled.
- `ConverterV1.UploadAttachments` leaves out the temporary file written for a content-only attachment and its removal. The crash on an attachment with neither path nor content is modelled as `None`. The step converters take the upload as an `attach` parameter.
- `Allure.ConvertTest` and `JUnit.ConvertCase` keep only small contracts; `Allure.ConvertTestContract` and `JUnit.ConvertCaseContract` state the rest.
- `FileSniff.DetectFileExtensionAsWritten` assumes a payload slice whose capacity equals its length. With spare capacity, Go slicing past the length does not fail. The parser's only caller passes captured tool output, which keeps spare zeroed capacity. The out-of-range read is therefore latent there.
- The path separator for JUnit suite names is a parameter (`filepath.Separator`).
- Three loops store the address of a field of the loop variable: `&v.Value` in the Allure label loop (allure.go:155), `&testCase.Time` in the JUnit case loop (junit.go:167) and `&t.Signature` in `getResults` (xctest.go:343). The model assumes Go 1.22 or later, where each iteration has its own variable.
- The `%q` escaping in error messages is written without escaping. The messages are exact only for names without quotes or control characters.
- Go's JSON case-insensitive key matching is left out.
- The custom-field id's `int32` conversion is left out; ids are unbounded integers.
- `internal/models`, `cmd/` and the `UnmarshalJSON` methods are left out. The name of the `Qase config` attachment file (`QaseConfigFile`) is a parameter of `XcImport`.
- A nil list and an empty list are not distinguished in result lists. The one place among them where the source treats the two differently is kept: a nil suite list in `ConverterV1.SuiteTitleOf`. `ConverterV2.RelationsOf` sends no titles for either. A nil byte slice is distinct from an empty one at import.go:52. Successful tool output is never nil, so `XcImport.ExtractAttachment` keeps an empty payload as data.
- `XcTest.PruningPolicy` follows the code: under first-level, internal activities are hidden only at depth 0.
- `XcImport.ExtractTests`: a decoding panic is modelled as an error result. The model does not separate a panic from a returned error.
- Allure.ConvertTest follows the corrected thread reading (`Allure.Thread`), not the value test at allure.go:154-155. The source's reading is `Allure.ThreadAsWritten`, and the two differ only on the Findings inputs (`Allure.ThreadReadingsAgreeWithoutThreadLabels`).
- Allure.ConvertTestContract states the corrected thread, for the same reason.
- Allure.Parse returns results carrying the corrected thread, through `Allure.ConvertTest`.
- QaseReport.Repair uses the corrected `QaseReport.CalculateDuration`. On a result with top-level times and a missing execution time the source panics at qase.go:136, and the model keeps the result with its duration unchanged. `QaseReport.RepairAgreesWhereDefined` states where the two agree.
- QaseReport.ParseFiles keeps such a result rather than crashing, through `QaseReport.Repair`.
- QaseReport.Parse returns results on such inputs rather than crashing, through `QaseReport.ParseFiles`.

## Findings

| source | as written | input that shows it | evidently intended | confidence | as-written member | corrected member |
|---|---|---|---|---|---|---|
| internal/parsers/xctest/xctest.go:450-452 | the GIF case parses as `(len >= 6 && isGIF87a) \|\| isGIF89a`, and the WEBP case checks for 8 bytes but slices up to 12 | the 4-byte text payload "abcd" slices `data[0:6]` (see `FileSniff.ShortTextPayloadOverruns`); any 8-11 byte payload starting "RIFF" slices `data[8:12]`. Both reads fail only for a slice whose capacity equals its length. The parser's own caller passes tool output with spare zeroed capacity, so this is a latent defect | test the length before either GIF signature, and require 12 bytes for WEBP | not executed | FileSniff.DetectFileExtensionAsWritten | FileSniff.DetectFileExtension |
| internal/parsers/allure/allure.go:154-155 | the thread is taken from a label whose VALUE is "thread" | labels `[{name: "thread", value: "worker-1"}]` record no thread; `[{name: "host", value: "thread"}]` record the thread "thread" (see `Allure.ThreadLabelMisread`) | take the value of the label NAMED "thread" | not executed | Allure.ThreadAsWritten | Allure.Thread |
| internal/parsers/qase/qase.go:135-136 | the guard tests the top-level start/end times but dereferences the execution's start/end times | a result with top-level start and end times and no execution start time dereferences nil (see `QaseReport.TopLevelTimesWithoutExecutionTimesCrash`) | compute the duration only when the top-level guard holds and the execution times it subtracts are present | not executed | QaseReport.CalculateDurationAsWritten | QaseReport.CalculateDuration |

=== FILE: allure.dfy ===
/** internal/parsers/allure/allure.go: converting Allure `*-result.json`
    documents into results. Reading and decoding a file is an oracle, as
    are the path helpers `path.Join` and `filepath.Dir`; Allure's float
    millisecond times are opaque integers. */
module Allure {
  import opened Wrappers
  import opened Text
  import opened Results
  import opened Assignments

  // ------------------------------------------------------------------ data

  datatype AllureAttachment = AllureAttachment(name: string, contentType: string, source: string)

  datatype TestStep = TestStep(
    name: string,
    start: int,
    stop: int,
    status: string,
    attachments: seq<AllureAttachment>,
    steps: seq<TestStep>)

  datatype Label = Label(name: string, value: string)
  datatype Parameter = Parameter(name: string, value: string)
  datatype Link = Link(name: string, linkType: string)

  datatype Test = Test(
    status: string,
    message: Option<string>,
    trace: Option<string>,
    steps: seq<TestStep>,
    attachments: seq<AllureAttachment>,
    links: seq<Link>,
    start: int,
    name: string,
    labels: seq<Label>,
    stop: int,
    description: Option<string>,
    params: seq<Parameter>)

  /** The path helpers: `join` is `path.Join`, `dir` is `filepath.Dir`. */
  datatype Paths = Paths(join: (string, string) -> string, dir: string -> string)

  // -------------------------------------------------------------- statuses

  const TestStatuses: set<string> := {"passed", "failed", "skipped", "blocked", "invalid"}
  const StepStatuses: set<string> := {"passed", "failed", "skipped", "blocked"}
  const LayerValues: set<string> := {"unknown", "e2e", "api", "unit"}

  /** `convertTestResultStatus`: a known test status passes through, any
      other becomes "invalid". */
  function ConvertTestStatus(status: string): (r: string)
    ensures r in TestStatuses && IsResultStatus(r)
    ensures r == status <==> status in TestStatuses
    ensures status !in TestStatuses ==> r == "invalid"
  {
    if status in TestStatuses then status else "invalid"
  }

  /** `convertStepResultStatus`: a known step status passes through, any
      other, "invalid" included, becomes "blocked". */
  function ConvertStepStatus(status: string): (r: string)
    ensures r in StepStatuses
    ensures r == status <==> status in StepStatuses
    ensures status !in StepStatuses ==> r == "blocked"
  {
    if status in StepStatuses then status else "blocked"
  }

  /** Both coercions are idempotent, and a step status is always a valid
      test status. */
  lemma StatusCoercionsIdempotent(s: string)
    ensures ConvertTestStatus(ConvertTestStatus(s)) == ConvertTestStatus(s)
    ensures ConvertStepStatus(ConvertStepStatus(s)) == ConvertStepStatus(s)
    ensures ConvertTestStatus(ConvertStepStatus(s)) == ConvertStepStatus(s)
  {
  }

  // ---------------------------------------------------------- TestOps ids

  /** `extractTestOpsID`: the 64-bit integer after the last '-', spaces
      trimmed; nothing for an empty name or an unparsable tail. */
  function ExtractTestOpsId(name: string): (r: Option<int>)
    ensures name == "" ==> r.None?
    ensures r.Some? ==> IsInt64(r.value)
  {
    if name == "" then None
    else
      var parts := Split(name, '-');
      ParseInt64(TrimSpace(parts[|parts| - 1]))
  }

  /** A name without '-' is parsed whole: "123" is 123, "test" is no id. */
  lemma NoSeparator(name: string)
    requires name != "" && '-' !in name
    ensures ExtractTestOpsId(name) == ParseInt64(TrimSpace(name))
  {
    SplitWithoutSep(name, '-');
  }

  /** A bare number such as "123" is its own id. */
  lemma BareNumberIsId(b: string)
    requires |b| > 0 && forall k | 0 <= k < |b| :: IsDigit(b[k])
    requires DigitsValue(b) <= Int64Max
    ensures ExtractTestOpsId(b) == Some(DigitsValue(b))
  {
    DigitsTail(b);
    NoSeparator(b);
  }

  /** A name without '-' holding a letter, such as "test", gives no id. */
  lemma BareWordIsNoId(b: string, k: nat)
    requires '-' !in b
    requires k < |b| && 'a' <= b[k] <= 'z'
    ensures ExtractTestOpsId(b) == None
  {
    assert !IsSpace(b[k]);
    var j := TrimKeepsNonSpace(b, k);
    NoParseWithLetter(TrimSpace(b), j);
    assert ParseInt64(TrimSpace(b)) == None;
    NoSeparator(b);
  }

  /** Only the text after the last '-' is parsed. */
  lemma ExtractTestOpsIdOfTail(a: string, b: string)
    requires '-' !in b
    ensures ExtractTestOpsId(a + ['-'] + b) == ParseInt64(TrimSpace(b))
  {
    var name := a + ['-'] + b;
    assert |name| > 0;
    LastPartAfterSep(a, b, '-');
    var parts := Split(name, '-');
    assert parts[|parts| - 1] == b;
  }

  /** A trailing run of digits is the id, as in "test-case-12345". */
  lemma TrailingNumberIsId(a: string, b: string)
    requires |b| > 0 && forall k | 0 <= k < |b| :: IsDigit(b[k])
    requires DigitsValue(b) <= Int64Max
    ensures ExtractTestOpsId(a + ['-'] + b) == Some(DigitsValue(b))
  {
    DigitsTail(b);
    ExtractTestOpsIdOfTail(a, b);
  }

  lemma DigitsTail(b: string)
    requires |b| > 0 && forall k | 0 <= k < |b| :: IsDigit(b[k])
    requires DigitsValue(b) <= Int64Max
    ensures '-' !in b && ParseInt64(TrimSpace(b)) == Some(DigitsValue(b))
  {
    DigitsAreTrimmed(b);
    ParseOfDigits(b);
  }

  /** A digit string has no '-' and nothing for trimming to remove. */
  lemma DigitsAreTrimmed(b: string)
    requires |b| > 0 && forall k | 0 <= k < |b| :: IsDigit(b[k])
    ensures '-' !in b && TrimSpace(b) == b
  {
    forall k | 0 <= k < |b| ensures b[k] != '-' {
      assert IsDigit(b[k]);
    }
    assert IsDigit(b[0]) && IsDigit(b[|b| - 1]);
    TrimOfDigits(b);
  }

  /** A tail holding a letter, as in "test-case-abc" or "12345-case",
      gives no id (an empty tail is `EmptyTailIsNoId`). */
  lemma NonNumericTailIsNoId(a: string, b: string, k: nat)
    requires '-' !in b
    requires k < |b| && 'a' <= b[k] <= 'z'
    ensures ExtractTestOpsId(a + ['-'] + b) == None
  {
    ExtractTestOpsIdOfTail(a, b);
    var j := TrimKeepsNonSpace(b, k);
    NoParseWithLetter(TrimSpace(b), j);
  }

  /** Trimming keeps every character that is not white space. */
  lemma TrimKeepsNonSpace(s: string, k: nat) returns (j: nat)
    requires k < |s| && !IsSpace(s[k])
    ensures j < |TrimSpace(s)| && TrimSpace(s)[j] == s[k]
  {
    var l := TrimLeft(s);
    var d := |s| - |l|;
    assert d <= k;
    assert l[k - d] == s[k];
    j := k - d;
    var t := TrimRight(l);
    assert |t| > j;
  }

  /** A letter anywhere stops `strconv.ParseInt`. */
  lemma NoParseWithLetter(s: string, j: nat)
    requires j < |s| && 'a' <= s[j] <= 'z'
    ensures ParseInt64(s) == None
  {
  }

  lemma EmptyTailIsNoId(a: string)
    ensures ExtractTestOpsId(a + ['-']) == None
  {
    var empty: string := [];
    assert a + ['-'] + empty == a + ['-'];
    ExtractTestOpsIdOfTail(a, empty);
    assert |TrimLeft(empty)| == 0;
  }

  /** A string whose first and last characters are not space is its own
      trimmed form. */
  lemma TrimOfDigits(s: string)
    requires |s| > 0 ==> !IsSpace(s[0]) && !IsSpace(s[|s| - 1])
    ensures TrimSpace(s) == s
  {
  }

  /** `getTestOpsID`: only the first link of type "tms" is consulted. */
  function GetTestOpsId(links: seq<Link>): (r: Option<int>)
    ensures (forall i | 0 <= i < |links| :: links[i].linkType != "tms") ==> r.None?
    ensures forall i | 0 <= i < |links| && links[i].linkType == "tms" &&
                       (forall j | 0 <= j < i :: links[j].linkType != "tms") ::
      r == ExtractTestOpsId(links[i].name)
    decreases |links|
  {
    if |links| == 0 then None
    else if links[0].linkType == "tms" then ExtractTestOpsId(links[0].name)
    else
      var r := GetTestOpsId(links[1..]);
      GetTestOpsIdStep(links, r);
      r
  }

  /** What `GetTestOpsId` promises of `r` for `links`. */
  ghost predicate FirstTmsSpec(links: seq<Link>, r: Option<int>) {
    && ((forall i | 0 <= i < |links| :: links[i].linkType != "tms") ==> r.None?)
    && forall i | 0 <= i < |links| && links[i].linkType == "tms" &&
                  (forall j | 0 <= j < i :: links[j].linkType != "tms") ::
         r == ExtractTestOpsId(links[i].name)
  }

  /** A first link that is not "tms" leaves the answer of the rest. */
  lemma GetTestOpsIdStep(links: seq<Link>, r: Option<int>)
    requires |links| > 0 && links[0].linkType != "tms"
    requires FirstTmsSpec(links[1..], r)
    ensures FirstTmsSpec(links, r)
  {
    var rest := links[1..];
    if forall i | 0 <= i < |links| :: links[i].linkType != "tms" {
      forall i | 0 <= i < |rest| ensures rest[i].linkType != "tms" {
        assert rest[i] == links[i + 1];
      }
    }
    forall i | 0 <= i < |links| && links[i].linkType == "tms" &&
               (forall j | 0 <= j < i :: links[j].linkType != "tms")
      ensures r == ExtractTestOpsId(links[i].name)
    {
      assert i > 0;
      assert rest[i - 1] == links[i];
      forall j | 0 <= j < i - 1 ensures rest[j].linkType != "tms" {
        assert rest[j] == links[j + 1];
      }
    }
  }

  /** Links after the first "tms" link never matter, even when that one
      cannot be parsed. */
  lemma {:induction false} LaterTmsLinksIgnored(links: seq<Link>, more: seq<Link>)
    requires exists i | 0 <= i < |links| :: links[i].linkType == "tms"
    ensures GetTestOpsId(links + more) == GetTestOpsId(links)
    decreases |links|
  {
    assert (links + more)[0] == links[0];
    if links[0].linkType != "tms" {
      assert (links + more)[1..] == links[1..] + more;
      var i :| 0 <= i < |links| && links[i].linkType == "tms";
      assert links[1..][i - 1].linkType == "tms";
      LaterTmsLinksIgnored(links[1..], more);
    }
  }

  // ---------------------------------------------------------------- labels

  /** The field a label is stored under: a "layer" label with an unknown
      value goes under "custom layer". */
  function FieldName(l: Label): (r: string)
    ensures r == "layer" ==> l.value in LayerValues
    ensures r != l.name ==> l.name == "layer" && l.value !in LayerValues && r == "custom layer"
  {
    if l.name == "layer" && l.value !in LayerValues then "custom layer" else l.name
  }

  function LabelPairs(labels: seq<Label>): (r: seq<(string, string)>)
    ensures |r| == |labels|
    ensures forall i | 0 <= i < |labels| :: r[i] == (FieldName(labels[i]), labels[i].value)
  {
    seq(|labels|, i requires 0 <= i < |labels| => (FieldName(labels[i]), labels[i].value))
  }

  /** The result's fields: every label's value under its field name, a
      later one overwriting an earlier, then the description. */
  function LabelFields(labels: seq<Label>, description: Option<string>): (r: map<string, string>)
    ensures "layer" in r ==> r["layer"] in LayerValues
    ensures forall i | 0 <= i < |labels| :: FieldName(labels[i]) in r
    ensures forall i | 0 <= i < |labels| && LastWithKey(LabelPairs(labels), FieldName(labels[i]), i)
                                         && (description.None? || FieldName(labels[i]) != "description") ::
      r[FieldName(labels[i])] == labels[i].value
    ensures description.Some? ==> "description" in r && r["description"] == description.value
  {
    var fields := AssignAll(map[], LabelPairs(labels));
    assert "layer" in fields ==> fields["layer"] in LayerValues by {
      if "layer" in fields {
        var pairs := LabelPairs(labels);
        var i :| 0 <= i < |pairs| && pairs[i].0 == "layer";
        var last := LastLayer(pairs, i);
        assert fields["layer"] == pairs[last].1 == labels[last].value;
      }
    }
    match description
    case None => fields
    case Some(d) => fields["description" := d]
  }

  /** Some pair with key "layer" has a last one. */
  lemma LastLayer(pairs: seq<(string, string)>, i: nat) returns (last: nat)
    requires i < |pairs| && pairs[i].0 == "layer"
    ensures i <= last < |pairs| && LastWithKey(pairs, "layer", last)
    decreases |pairs| - i
  {
    if j :| i < j < |pairs| && pairs[j].0 == "layer" {
      last := LastLayer(pairs, j);
    } else {
      last := i;
    }
  }

  /** An unknown layer never reaches the "layer" field. */
  lemma UnknownLayerIsCustom(v: string)
    requires v !in LayerValues
    ensures var r := LabelFields([Label("layer", v)], None);
      "custom layer" in r && r["custom layer"] == v && "layer" !in r
  {
    var pairs := LabelPairs([Label("layer", v)]);
    assert pairs == [("custom layer", v)];
    assert LastWithKey(pairs, "custom layer", 0);
  }

  predicate IsSuiteLabel(l: Label) {
    l.name == "suite" || l.name == "package"
  }

  /** The value of the last "suite" or "package" label. */
  function SuiteLabel(labels: seq<Label>): (r: Option<string>)
    ensures r.None? <==> forall i | 0 <= i < |labels| :: !IsSuiteLabel(labels[i])
    ensures r.Some? ==> exists i | 0 <= i < |labels| ::
      && IsSuiteLabel(labels[i]) && labels[i].value == r.value
      && forall j | i < j < |labels| :: !IsSuiteLabel(labels[j])
    decreases |labels|
  {
    if |labels| == 0 then None
    else
      var last := labels[|labels| - 1];
      var prefix := labels[..|labels| - 1];
      assert forall i | 0 <= i < |prefix| :: prefix[i] == labels[i];
      if IsSuiteLabel(last) then Some(last.value)
      else
        var r := SuiteLabel(prefix);
        SuiteLabelOfPrefix(labels, r);
        r
  }

  /** The last suite label of all but the last label is the last one of
      all the labels when the last label is not a suite label. */
  lemma SuiteLabelOfPrefix(labels: seq<Label>, r: Option<string>)
    requires |labels| > 0 && !IsSuiteLabel(labels[|labels| - 1])
    requires var prefix := labels[..|labels| - 1];
      r.Some? ==> exists i | 0 <= i < |prefix| ::
        && IsSuiteLabel(prefix[i]) && prefix[i].value == r.value
        && forall j | i < j < |prefix| :: !IsSuiteLabel(prefix[j])
    ensures r.Some? ==> exists i | 0 <= i < |labels| ::
      && IsSuiteLabel(labels[i]) && labels[i].value == r.value
      && forall j | i < j < |labels| :: !IsSuiteLabel(labels[j])
  {
    if r.Some? {
      var prefix := labels[..|labels| - 1];
      var i :| 0 <= i < |prefix| && IsSuiteLabel(prefix[i]) && prefix[i].value == r.value
        && forall j | i < j < |prefix| :: !IsSuiteLabel(prefix[j]);
      forall j | i < j < |labels| ensures !IsSuiteLabel(labels[j]) {
        if j < |prefix| {
          assert labels[j] == prefix[j];
        }
      }
      assert labels[i] == prefix[i];
    }
  }

  /** The suite path: the last suite or package label split on '.'; none
      without such a label. */
  function SuitePath(labels: seq<Label>): (r: Relation)
    ensures r.suite.None? <==> SuiteLabel(labels).None?
    ensures r.suite.Some? ==> Join(r.suite.value, ".") == SuiteLabel(labels).value
  {
    match SuiteLabel(labels)
    case None => Relation(None)
    case Some(v) =>
      JoinSplit(v, '.');
      Relation(Some(Split(v, '.')))
  }

  /** A later suite label overrides an earlier package label. */
  lemma SuiteOverridesPackage(labels: seq<Label>, v: string)
    ensures SuitePath(labels + [Label("suite", v)]).suite == Some(Split(v, '.'))
  {
    var ls := labels + [Label("suite", v)];
    assert ls[..|ls| - 1] == labels;
  }

  /** The thread a result runs on, as the source computes it: the value of
      a label whose VALUE is "thread", that is the word "thread" itself. */
  function ThreadAsWritten(labels: seq<Label>): (r: Option<string>)
    ensures r.Some? <==> exists i | 0 <= i < |labels| :: labels[i].value == "thread"
    ensures r.Some? ==> r.value == "thread"
    decreases |labels|
  {
    if |labels| == 0 then None
    else if labels[|labels| - 1].value == "thread" then Some("thread")
    else
      var prefix := labels[..|labels| - 1];
      assert forall i | 0 <= i < |prefix| :: prefix[i] == labels[i];
      ThreadAsWritten(prefix)
  }

  /** The thread a result runs on: the value of the last label NAMED
      "thread". */
  function Thread(labels: seq<Label>): (r: Option<string>)
    ensures r.None? <==> forall i | 0 <= i < |labels| :: labels[i].name != "thread"
    ensures r.Some? ==> exists i | 0 <= i < |labels| ::
      && labels[i].name == "thread" && labels[i].value == r.value
      && forall j | i < j < |labels| :: labels[j].name != "thread"
    decreases |labels|
  {
    if |labels| == 0 then None
    else if labels[|labels| - 1].name == "thread" then
      var r := Some(labels[|labels| - 1].value);
      assert ThreadSpec(labels, r) by {
        assert labels[|labels| - 1].name == "thread";
      }
      r
    else
      var r := Thread(labels[..|labels| - 1]);
      ThreadStep(labels, r);
      r
  }

  /** What `Thread` promises of `r` for `labels`. */
  ghost predicate ThreadSpec(labels: seq<Label>, r: Option<string>) {
    && (r.None? <==> forall i | 0 <= i < |labels| :: labels[i].name != "thread")
    && (r.Some? ==> exists i | 0 <= i < |labels| ::
      && labels[i].name == "thread" && labels[i].value == r.value
      && forall j | i < j < |labels| :: labels[j].name != "thread")
  }

  /** A last label not named "thread" leaves the answer of the rest. */
  lemma ThreadStep(labels: seq<Label>, r: Option<string>)
    requires |labels| > 0 && labels[|labels| - 1].name != "thread"
    requires ThreadSpec(labels[..|labels| - 1], r)
    ensures ThreadSpec(labels, r)
  {
    var prefix := labels[..|labels| - 1];
    if r.None? {
      forall i | 0 <= i < |labels| ensures labels[i].name != "thread" {
        if i < |prefix| {
          assert labels[i] == prefix[i];
        }
      }
    } else {
      var i :| 0 <= i < |prefix| && prefix[i].name == "thread" && prefix[i].value == r.value
        && forall j | i < j < |prefix| :: prefix[j].name != "thread";
      assert labels[i] == prefix[i];
      forall j | i < j < |labels| ensures labels[j].name != "thread" {
        if j < |prefix| {
          assert labels[j] == prefix[j];
        }
      }
    }
  }

  /** A thread label is lost by the source's test and a label merely
      valued "thread" is taken for one. */
  lemma ThreadLabelMisread()
    ensures ThreadAsWritten([Label("thread", "worker-1")]) == None
    ensures Thread([Label("thread", "worker-1")]) == Some("worker-1")
    ensures ThreadAsWritten([Label("host", "thread")]) == Some("thread")
    ensures Thread([Label("host", "thread")]) == None
  {
    assert [Label("thread", "worker-1")][..0] == [];
    assert [Label("host", "thread")][..0] == [];
  }

  /** Without any label named or valued "thread", both readings record no
      thread, so they differ only on the Findings inputs. */
  lemma ThreadReadingsAgreeWithoutThreadLabels(labels: seq<Label>)
    requires forall i | 0 <= i < |labels| :: labels[i].name != "thread" && labels[i].value != "thread"
    ensures ThreadAsWritten(labels) == Thread(labels) == None
  {
  }

  // ----------------------------------------------------------- conversion

  /** `convertAttachments`: each attachment becomes a file reference under
      the report's root, in order. */
  function ConvertAttachments(paths: Paths, root: string, atts: seq<AllureAttachment>): (r: seq<Attachment>)
    ensures |r| == |atts|
    ensures forall i | 0 <= i < |atts| ::
      && r[i].name == atts[i].name && r[i].contentType == atts[i].contentType
      && r[i].filePath == Some(paths.join(root, atts[i].source)) && r[i].content.None?
  {
    seq(|atts|, i requires 0 <= i < |atts| =>
      Attachment(atts[i].name, Some(paths.join(root, atts[i].source)), atts[i].contentType, None))
  }

  /** `convertStep`. */
  function ConvertStep(paths: Paths, root: string, s: TestStep): (r: Step)
    ensures r.action == s.name && |r.steps| == |s.steps|
    ensures r.execution.status == ConvertStepStatus(s.status)
    ensures r.execution.duration == Some(s.stop - s.start)
    ensures r.execution.attachments == ConvertAttachments(paths, root, s.attachments)
    decreases s, 1
  {
    Step(s.name,
         StepExecution(None, None, ConvertStepStatus(s.status), Some(s.stop - s.start), "",
                       ConvertAttachments(paths, root, s.attachments)),
         ConvertSteps(paths, root, s.steps))
  }

  function ConvertSteps(paths: Paths, root: string, ss: seq<TestStep>): (r: seq<Step>)
    ensures |r| == |ss|
    decreases ss, 0
  {
    seq(|ss|, i requires 0 <= i < |ss| => ConvertStep(paths, root, ss[i]))
  }

  /** An Allure step tree reduced to its names. */
  function AllureOutline(s: TestStep): Outline
    decreases s, 1
  {
    Outline(s.name, AllureOutlines(s.steps))
  }

  function AllureOutlines(ss: seq<TestStep>): seq<Outline>
    decreases ss, 0
  {
    seq(|ss|, i requires 0 <= i < |ss| => AllureOutline(ss[i]))
  }

  /** Step conversion keeps the tree's shape, order and names. */
  lemma {:induction false} ConvertStepKeepsOutline(paths: Paths, root: string, s: TestStep)
    ensures StepOutline(ConvertStep(paths, root, s)) == AllureOutline(s)
    decreases s, 1
  {
    ConvertStepsKeepOutline(paths, root, s.steps);
  }

  lemma {:induction false} ConvertStepsKeepOutline(paths: Paths, root: string, ss: seq<TestStep>)
    ensures StepOutlines(ConvertSteps(paths, root, ss)) == AllureOutlines(ss)
    decreases ss, 0
  {
    forall i | 0 <= i < |ss|
      ensures StepOutlines(ConvertSteps(paths, root, ss))[i] == AllureOutlines(ss)[i]
    {
      ConvertStepKeepsOutline(paths, root, ss[i]);
    }
  }

  function ParamPairs(params: seq<Parameter>): seq<(string, string)> {
    seq(|params|, i requires 0 <= i < |params| => (params[i].name, params[i].value))
  }

  /** `convertTest`, with the thread taken from the label named "thread";
      what the result holds is stated by `ConvertTestContract`. */
  function ConvertTest(paths: Paths, root: string, t: Test): (r: TestResult)
    ensures r.title == t.name && r.execution.status == ConvertTestStatus(t.status)
  {
    TestResult(
      t.name,
      None,
      GetTestOpsId(t.links),
      Execution(Some(t.start), Some(t.stop), ConvertTestStatus(t.status), Some(t.stop - t.start), t.trace, Thread(t.labels)),
      LabelFields(t.labels, t.description),
      ConvertAttachments(paths, root, t.attachments),
      ConvertSteps(paths, root, t.steps),
      "text",
      AssignAll(map[], ParamPairs(t.params)),
      [],
      SuitePath(t.labels),
      false,
      t.message,
      None, None, None)
  }

  /** What a converted result holds. */
  lemma ConvertTestContract(paths: Paths, root: string, t: Test)
    ensures var r := ConvertTest(paths, root, t);
      && r.message == t.message
      && r.testOpsId == GetTestOpsId(t.links)
      && r.execution.stackTrace == t.trace
      && r.execution.thread == Thread(t.labels)
      && r.execution.startTime == Some(t.start) && r.execution.endTime == Some(t.stop)
      && r.execution.duration == Some(t.stop - t.start)
      && r.relations == SuitePath(t.labels)
      && r.fields == LabelFields(t.labels, t.description)
      && r.params == AssignAll(map[], ParamPairs(t.params))
      && |r.steps| == |t.steps| && r.attachments == ConvertAttachments(paths, root, t.attachments)
      && StepOutlines(r.steps) == AllureOutlines(t.steps)
      && r.stepType == "text" && !r.muted && r.paramGroups == []
  {
    ConvertStepsKeepOutline(paths, root, t.steps);
  }

  // ----------------------------------------------------------------- parse

  /** What `os.Stat` and `filepath.Walk` find at the input path: a single
      file, or a directory with the non-directory paths under it whose name
      contains "-result.json" (or the walk's error). */
  datatype Input = StatFailed(err: string) | File(path: string) | Directory(path: string, walk: Result<seq<string>>)

  predicate IsResultFile(path: string) {
    IndexOf(path, "-result.json").Some?
  }

  /** A file is kept when it is named like a result and it can be read. */
  predicate Readable(read: string -> Option<Test>, file: string) {
    IsResultFile(file) && read(file).Some?
  }

  /** The documents the loop of `Parse` converts: files not named like
      results are skipped, and so are files that cannot be read or
      decoded. */
  function KeptTests(read: string -> Option<Test>, files: seq<string>): (r: seq<Test>)
    ensures |r| <= |files|
    decreases |files|
  {
    if |files| == 0 then []
    else
      var rest := KeptTests(read, files[1..]);
      if Readable(read, files[0]) then [read(files[0]).value] + rest else rest
  }

  /** Nothing readable, nothing kept. */
  lemma {:induction false} NoneReadableKeepsNothing(read: string -> Option<Test>, files: seq<string>)
    requires forall k | 0 <= k < |files| :: !Readable(read, files[k])
    ensures KeptTests(read, files) == []
    decreases |files|
  {
    if |files| > 0 {
      assert forall k | 1 <= k < |files| :: files[k] == files[1..][k - 1];
      NoneReadableKeepsNothing(read, files[1..]);
    }
  }

  /** Every file readable: every document is kept, in order. */
  lemma {:induction false} AllReadableKeepsAll(read: string -> Option<Test>, files: seq<string>)
    requires forall k | 0 <= k < |files| :: Readable(read, files[k])
    ensures var r := KeptTests(read, files);
      |r| == |files| && forall k | 0 <= k < |files| :: Some(r[k]) == read(files[k])
    decreases |files|
  {
    if |files| > 0 {
      var tail := files[1..];
      assert forall k | 1 <= k < |files| :: files[k] == tail[k - 1];
      AllReadableKeepsAll(read, tail);
    }
  }

  /** Two batches of files keep what each batch keeps. */
  lemma {:induction false} KeptTestsAppend(read: string -> Option<Test>, a: seq<string>, b: seq<string>)
    ensures KeptTests(read, a + b) == KeptTests(read, a) + KeptTests(read, b)
    decreases |a|
  {
    if |a| == 0 {
      assert a + b == b;
    } else {
      assert (a + b)[0] == a[0];
      assert (a + b)[1..] == a[1..] + b;
      KeptTestsAppend(read, a[1..], b);
    }
  }

  /** Converts each kept document, in order. */
  function ConvertAll(paths: Paths, root: string, ts: seq<Test>): (r: seq<TestResult>)
    ensures |r| == |ts|
  {
    seq(|ts|, i requires 0 <= i < |ts| => ConvertTest(paths, root, ts[i]))
  }

  /** `Parse`. A nil and an empty result list are both the empty sequence. */
  function Parse(paths: Paths, read: string -> Option<Test>, input: Input): (r: Result<seq<TestResult>>)
    ensures input.StatFailed? ==> r == Err("failed to get file info: " + input.err)
    ensures input.Directory? && input.walk.Err? ==> r == Err("failed to walk path: " + input.walk.msg)
    ensures input.File? && !IsResultFile(input.path) ==> r == Ok([])
    ensures input.Directory? && input.walk == Ok([]) ==> r == Ok([])
    ensures input.File? ==> r == Ok(ConvertAll(paths, paths.dir(input.path), KeptTests(read, [input.path])))
    ensures input.Directory? && input.walk.Ok? ==> r == Ok(ConvertAll(paths, input.path, KeptTests(read, input.walk.value)))
  {
    match input
    case StatFailed(e) => Err("failed to get file info: " + e)
    case File(p) => Ok(ConvertAll(paths, paths.dir(p), KeptTests(read, [p])))
    case Directory(p, walk) =>
      match walk
      case Err(e) => Err("failed to walk path: " + e)
      case Ok(files) => Ok(ConvertAll(paths, p, KeptTests(read, files)))
  }
}

=== FILE: assign.dfy ===
/** Filling a Go map in a loop (`m[k] = v` for each pair in turn), the way
    the decoders build fields and parameters: a later pair with the same key
    overwrites an earlier one. */
module Assignments {

  /** `pairs[i]` is the last pair with key `k`. */
  predicate LastWithKey<K(==), V>(pairs: seq<(K, V)>, k: K, i: int) {
    0 <= i < |pairs| && pairs[i].0 == k && forall j | i < j < |pairs| :: pairs[j].0 != k
  }

  /** `m` after assigning every pair in order. */
  function AssignAll<K(==,!new), V>(m: map<K, V>, pairs: seq<(K, V)>): (r: map<K, V>)
    ensures forall k :: k in r <==> k in m || exists i | 0 <= i < |pairs| :: pairs[i].0 == k
    ensures forall i | 0 <= i < |pairs| :: LastWithKey(pairs, pairs[i].0, i) ==> r[pairs[i].0] == pairs[i].1
    ensures forall k | k in m && (forall i | 0 <= i < |pairs| :: pairs[i].0 != k) :: r[k] == m[k]
    decreases |pairs|
  {
    if |pairs| == 0 then m
    else
      var prefix := pairs[..|pairs| - 1];
      var last := pairs[|pairs| - 1];
      var t := AssignAll(m, prefix);
      AssignLast(m, prefix, last, t);
      assert prefix + [last] == pairs;
      t[last.0 := last.1]
  }

  /** One more assignment keeps the three facts `AssignAll` promises. */
  lemma AssignLast<K(!new), V>(m: map<K, V>, prefix: seq<(K, V)>, last: (K, V), t: map<K, V>)
    requires forall k :: k in t <==> k in m || exists i | 0 <= i < |prefix| :: prefix[i].0 == k
    requires forall i | 0 <= i < |prefix| :: LastWithKey(prefix, prefix[i].0, i) ==> t[prefix[i].0] == prefix[i].1
    requires forall k | k in m && (forall i | 0 <= i < |prefix| :: prefix[i].0 != k) :: t[k] == m[k]
    ensures var pairs := prefix + [last]; var r := t[last.0 := last.1];
      && (forall k :: k in r <==> k in m || exists i | 0 <= i < |pairs| :: pairs[i].0 == k)
      && (forall i | 0 <= i < |pairs| :: LastWithKey(pairs, pairs[i].0, i) ==> r[pairs[i].0] == pairs[i].1)
      && (forall k | k in m && (forall i | 0 <= i < |pairs| :: pairs[i].0 != k) :: r[k] == m[k])
  {
    var pairs := prefix + [last];
    var r := t[last.0 := last.1];
    assert forall i | 0 <= i < |prefix| :: pairs[i] == prefix[i];
    assert pairs[|prefix|] == last;
    forall k ensures k in r <==> k in m || exists i | 0 <= i < |pairs| :: pairs[i].0 == k {
      if k == last.0 {
        assert pairs[|prefix|].0 == k;
      } else if exists i | 0 <= i < |pairs| :: pairs[i].0 == k {
        var i :| 0 <= i < |pairs| && pairs[i].0 == k;
        assert prefix[i].0 == k;
      }
    }
    forall i | 0 <= i < |pairs| && LastWithKey(pairs, pairs[i].0, i)
      ensures r[pairs[i].0] == pairs[i].1
    {
      if i < |prefix| {
        var k := prefix[i].0;
        assert pairs[|prefix|].0 != k;
        assert LastWithKey(prefix, k, i) by {
          forall j | i < j < |prefix| ensures prefix[j].0 != k {
            assert pairs[j] == prefix[j];
          }
        }
      }
    }
    forall k | k in m && (forall i | 0 <= i < |pairs| :: pairs[i].0 != k)
      ensures r[k] == m[k]
    {
      assert pairs[|prefix|].0 != k;
      assert forall i | 0 <= i < |prefix| :: prefix[i].0 != k by {
        forall i | 0 <= i < |prefix| ensures prefix[i].0 != k {
          assert pairs[i] == prefix[i];
        }
      }
    }
  }

  /** Assigning more pairs afterwards is assigning the concatenation. */
  lemma {:induction false} AssignAllAppend<K(!new), V>(m: map<K, V>, a: seq<(K, V)>, b: seq<(K, V)>)
    ensures AssignAll(AssignAll(m, a), b) == AssignAll(m, a + b)
    decreases |b|
  {
    if |b| > 0 {
      var prefix := b[..|b| - 1];
      AssignAllAppend(m, a, prefix);
      assert (a + b)[..|a + b| - 1] == a + prefix;
      assert (a + b)[|a + b| - 1] == b[|b| - 1];
    } else {
      assert a + b == a;
    }
  }
}

=== FILE: converterv1.dfy ===
/** internal/client/converterv1.go: turning a result into the body of a
    version-1 API "create result" request. Opening and uploading a file is
    an oracle; the step converters take the attachment upload as a
    parameter so that `UploadAttachments` models it once. */
module ConverterV1 {
  import opened Wrappers
  import opened Text
  import opened Results

  // ------------------------------------------------------------ uploading

  /** The world `convertAttachments` talks to: the working directory, path
      joining, and opening-and-uploading the file at a path, which yields
      its hash or fails. */
  datatype Uploader = Uploader(cwd: string, join: (string, string) -> string, upload: string -> Option<string>)

  /** An attachment with neither a path nor content: writing its content
      dereferences nil, which crashes the program. */
  predicate Crashes(a: Attachment) {
    a.filePath.None? && a.content.None?
  }

  /** The file uploaded for an attachment: its own path, or the file its
      content is written to in the working directory. */
  function UploadPath(up: Uploader, a: Attachment): string {
    match a.filePath
    case Some(p) => p
    case None => up.join(up.cwd, a.name)
  }

  /** `convertAttachments`: one hash per attachment whose file opens and
      uploads, in input order; an attachment that fails is skipped.
      `None` is the crash. */
  function UploadAttachments(up: Uploader, atts: seq<Attachment>): (r: Option<seq<string>>)
    ensures r.None? <==> exists i | 0 <= i < |atts| :: Crashes(atts[i])
    ensures r.Some? ==> |r.value| <= |atts|
    decreases |atts|
  {
    if |atts| == 0 then Some([])
    else
      var a := atts[0];
      assert forall i | 1 <= i < |atts| :: atts[i] == atts[1..][i - 1];
      if Crashes(a) then None
      else
        match UploadAttachments(up, atts[1..])
        case None => None
        case Some(rest) =>
          match up.upload(UploadPath(up, a))
          case None => Some(rest)
          case Some(h) => Some([h] + rest)
  }

  /** Every upload succeeds: one hash per attachment, in order. */
  lemma {:induction false} AllUploadsKept(up: Uploader, atts: seq<Attachment>)
    requires forall i | 0 <= i < |atts| :: !Crashes(atts[i]) && up.upload(UploadPath(up, atts[i])).Some?
    ensures var r := UploadAttachments(up, atts);
      r.Some? && |r.value| == |atts|
      && forall i | 0 <= i < |atts| :: Some(r.value[i]) == up.upload(UploadPath(up, atts[i]))
    decreases |atts|
  {
    if |atts| > 0 {
      assert forall i | 1 <= i < |atts| :: atts[i] == atts[1..][i - 1];
      AllUploadsKept(up, atts[1..]);
    }
  }

  /** Every upload fails: no hash at all, and no crash. */
  lemma {:induction false} FailedUploadsSkipped(up: Uploader, atts: seq<Attachment>)
    requires forall i | 0 <= i < |atts| :: !Crashes(atts[i]) && up.upload(UploadPath(up, atts[i])).None?
    ensures UploadAttachments(up, atts) == Some([])
    decreases |atts|
  {
    if |atts| > 0 {
      assert forall i | 1 <= i < |atts| :: atts[i] == atts[1..][i - 1];
      FailedUploadsSkipped(up, atts[1..]);
    }
  }

  /** Uploading two lists is uploading each in turn. */
  lemma {:induction false} UploadAppend(up: Uploader, a: seq<Attachment>, b: seq<Attachment>)
    requires UploadAttachments(up, a).Some? && UploadAttachments(up, b).Some?
    ensures UploadAttachments(up, a + b) == Some(UploadAttachments(up, a).value + UploadAttachments(up, b).value)
    decreases |a|
  {
    if |a| == 0 {
      assert a + b == b;
      assert [] + UploadAttachments(up, b).value == UploadAttachments(up, b).value;
    } else {
      assert (a + b)[0] == a[0];
      assert (a + b)[1..] == a[1..] + b;
      assert UploadAttachments(up, a[1..]).Some?;
      UploadAppend(up, a[1..], b);
      var x := UploadAttachments(up, a[1..]).value;
      var y := UploadAttachments(up, b).value;
      match up.upload(UploadPath(up, a[0]))
      case None =>
      case Some(h) => assert [h] + (x + y) == ([h] + x) + y;
    }
  }

  // ---------------------------------------------------------------- model

  datatype CaseModel = CaseModel(
    title: string,
    description: Option<string>,
    severity: Option<string>,
    priority: Option<string>,
    layer: Option<string>,
    preconditions: Option<string>,
    postconditions: Option<string>,
    suiteTitle: Option<string>)

  datatype StepModel = StepModel(
    status: string,
    comment: string,
    attachments: seq<string>,
    steps: seq<StepModel>,
    action: string)

  datatype ResultCreate = ResultCreate(
    status: string,
    comment: Option<string>,
    defect: bool,
    stacktrace: Option<string>,
    param: map<string, string>,
    steps: seq<StepModel>,
    attachments: seq<string>,
    startTime: Option<int>,
    time: Option<int>,
    timeMs: Option<int>,
    testCase: Option<CaseModel>,
    caseId: Option<int>)

  // ----------------------------------------------------------- suite title

  /** Every suite title followed by a tab, the last one included. */
  function SuiteTitle(titles: seq<string>): (r: string)
    ensures |titles| > 0 ==> HasSuffix(r, "\t")
    ensures |titles| == 0 <==> r == ""
    decreases |titles|
  {
    if |titles| == 0 then "" else titles[0] + "\t" + SuiteTitle(titles[1..])
  }

  /** Splitting the suite title on tabs gives the titles back, with one
      empty part after the trailing tab, when no title holds a tab. */
  lemma {:induction false} SuiteTitleSplits(titles: seq<string>)
    requires forall i | 0 <= i < |titles| :: '\t' !in titles[i]
    ensures Split(SuiteTitle(titles), '\t') == titles + [""]
    decreases |titles|
  {
    if |titles| > 0 {
      assert forall i | 1 <= i < |titles| :: titles[i] == titles[1..][i - 1];
      SuiteTitleSplits(titles[1..]);
      assert titles[0] + "\t" + SuiteTitle(titles[1..]) == titles[0] + ['\t'] + SuiteTitle(titles[1..]);
      SplitBefore(titles[0], SuiteTitle(titles[1..]), '\t');
      assert [titles[0]] + (titles[1..] + [""]) == titles + [""];
    }
  }

  /** The case's suite title: present exactly when the suite list is
      (a nil list gives none, an empty one gives ""). */
  function SuiteTitleOf(rel: Relation): (r: Option<string>)
    ensures r.Some? <==> rel.suite.Some?
    ensures rel.suite == Some([]) ==> r == Some("")
  {
    match rel.suite
    case None => None
    case Some(ts) => Some(SuiteTitle(ts))
  }

  // --------------------------------------------------------------- result

  function Lookup(fields: map<string, string>, k: string): (r: Option<string>)
    ensures r.Some? <==> k in fields
    ensures r.Some? ==> r.value == fields[k]
  {
    if k in fields then Some(fields[k]) else None
  }

  /** The test case sent along when the result is not linked to one. */
  function CaseOf(result: TestResult): (c: CaseModel)
    ensures c.title == result.title
    ensures c.description == Lookup(result.fields, "description")
    ensures c.severity == Lookup(result.fields, "severity")
    ensures c.priority == Lookup(result.fields, "priority")
    ensures c.layer == Lookup(result.fields, "layer")
    ensures c.preconditions == Lookup(result.fields, "preconditions")
    ensures c.postconditions == Lookup(result.fields, "postconditions")
    ensures c.suiteTitle == SuiteTitleOf(result.relations)
  {
    CaseModel(result.title,
              Lookup(result.fields, "description"),
              Lookup(result.fields, "severity"),
              Lookup(result.fields, "priority"),
              Lookup(result.fields, "layer"),
              Lookup(result.fields, "preconditions"),
              Lookup(result.fields, "postconditions"),
              SuiteTitleOf(result.relations))
  }

  /** `convertStepToApiModel` and `convertStepToMaps` (both write the same
      content). */
  function ConvertStep(attach: seq<Attachment> -> seq<string>, s: Step): (r: StepModel)
    ensures r.action == s.action && r.status == s.execution.status && r.comment == s.execution.comment
    ensures r.attachments == attach(s.execution.attachments) && |r.steps| == |s.steps|
    decreases s, 1
  {
    StepModel(s.execution.status, s.execution.comment, attach(s.execution.attachments),
              ConvertSteps(attach, s.steps), s.action)
  }

  function ConvertSteps(attach: seq<Attachment> -> seq<string>, ss: seq<Step>): (r: seq<StepModel>)
    ensures |r| == |ss|
    decreases ss, 0
  {
    seq(|ss|, i requires 0 <= i < |ss| => ConvertStep(attach, ss[i]))
  }

  function ModelOutline(m: StepModel): Outline
    decreases m, 1
  {
    Outline(m.action, ModelOutlines(m.steps))
  }

  function ModelOutlines(ms: seq<StepModel>): seq<Outline>
    decreases ms, 0
  {
    seq(|ms|, i requires 0 <= i < |ms| => ModelOutline(ms[i]))
  }

  /** Step conversion keeps count, order, nesting and action text. */
  lemma {:induction false} ConvertStepKeepsOutline(attach: seq<Attachment> -> seq<string>, s: Step)
    ensures ModelOutline(ConvertStep(attach, s)) == StepOutline(s)
    decreases s, 1
  {
    ConvertStepsKeepOutline(attach, s.steps);
  }

  lemma {:induction false} ConvertStepsKeepOutline(attach: seq<Attachment> -> seq<string>, ss: seq<Step>)
    ensures ModelOutlines(ConvertSteps(attach, ss)) == StepOutlines(ss)
    decreases ss, 0
  {
    forall i | 0 <= i < |ss|
      ensures ModelOutlines(ConvertSteps(attach, ss))[i] == StepOutlines(ss)[i]
    {
      ConvertStepKeepsOutline(attach, ss[i]);
    }
  }

  /** `convertResultToApiModel`. Exactly one of the case and the case id
      is sent: the id when the result has one, the case otherwise. Times
      pass through as opaque values. */
  function ConvertResult(attach: seq<Attachment> -> seq<string>, result: TestResult): (r: ResultCreate)
    ensures r.testCase.Some? <==> result.testOpsId.None?
    ensures r.caseId == result.testOpsId
    ensures r.testCase.Some? ==> r.testCase.value == CaseOf(result)
    ensures r.status == result.execution.status && r.comment == result.message
    ensures r.stacktrace == result.execution.stackTrace && !r.defect
    ensures r.startTime == result.execution.startTime && r.time == result.execution.endTime
    ensures r.timeMs == result.execution.duration
    ensures r.param == result.params && r.attachments == attach(result.attachments)
    ensures ModelOutlines(r.steps) == StepOutlines(result.steps)
  {
    ConvertStepsKeepOutline(attach, result.steps);
    ResultCreate(
      result.execution.status,
      result.message,
      false,
      result.execution.stackTrace,
      result.params,
      ConvertSteps(attach, result.steps),
      attach(result.attachments),
      result.execution.startTime,
      result.execution.endTime,
      result.execution.duration,
      if result.testOpsId.None? then Some(CaseOf(result)) else None,
      result.testOpsId)
  }
}

=== FILE: converterv2.dfy ===
/** internal/client/converterv2.go: turning a result into the body of a
    version-2 API "create result" request. The attachment upload is a
    parameter (it is the version-1 client's `convertAttachments`), and the
    division of times by 1000.0 is the opaque `seconds`. */
module ConverterV2 {
  import opened Wrappers
  import opened Results

  datatype ExecutionModel = ExecutionModel(
    status: string,
    startTime: Option<int>,
    endTime: Option<int>,
    duration: Option<int>,
    stacktrace: Option<string>,
    thread: Option<string>)

  datatype StepExecutionModel = StepExecutionModel(
    status: string,
    attachments: seq<string>,
    duration: Option<int>,
    comment: string)

  datatype StepModel = StepModel(action: string, execution: StepExecutionModel, steps: seq<StepModel>)

  /** The 11 field keys with a slot of their own, and everything else. */
  datatype FieldsModel = FieldsModel(known: map<string, string>, additional: map<string, string>)

  datatype ResultCreate = ResultCreate(
    title: string,
    signature: Option<string>,
    attachments: seq<string>,
    steps: seq<StepModel>,
    params: map<string, string>,
    paramGroups: seq<seq<string>>,
    testopsId: Option<int>,
    message: Option<string>,
    defect: bool,
    execution: ExecutionModel,
    stepsType: string,
    relations: seq<string>,
    fields: FieldsModel)

  // ------------------------------------------------------------ execution

  /** `createExecution`: the status verbatim, every other value only when
      the result has it. */
  function CreateExecution(seconds: int -> int, e: Execution): (r: ExecutionModel)
    ensures r.status == e.status
    ensures r.startTime.Some? <==> e.startTime.Some?
    ensures e.startTime.Some? ==> r.startTime == Some(seconds(e.startTime.value))
    ensures r.endTime.Some? <==> e.endTime.Some?
    ensures e.endTime.Some? ==> r.endTime == Some(seconds(e.endTime.value))
    ensures r.duration == e.duration && r.stacktrace == e.stackTrace && r.thread == e.thread
  {
    ExecutionModel(
      e.status,
      if e.startTime.Some? then Some(seconds(e.startTime.value)) else None,
      if e.endTime.Some? then Some(seconds(e.endTime.value)) else None,
      e.duration,
      e.stackTrace,
      e.thread)
  }

  // ------------------------------------------------------------ relations

  /** `createRelations`: the suite titles without the empty ones. */
  function CreateRelations(titles: seq<string>): (r: seq<string>)
    ensures |r| <= |titles|
    ensures forall i | 0 <= i < |r| :: r[i] != ""
    ensures forall t | t != "" :: multiset(r)[t] == multiset(titles)[t]
    decreases |titles|
  {
    if |titles| == 0 then []
    else
      var rest := CreateRelations(titles[1..]);
      assert titles == [titles[0]] + titles[1..];
      if titles[0] == "" then rest else [titles[0]] + rest
  }

  /** Titles of two lists are kept list by list, so order is kept. */
  lemma {:induction false} CreateRelationsAppend(a: seq<string>, b: seq<string>)
    ensures CreateRelations(a + b) == CreateRelations(a) + CreateRelations(b)
    decreases |a|
  {
    if |a| == 0 {
      assert a + b == b;
    } else {
      assert (a + b)[0] == a[0];
      assert (a + b)[1..] == a[1..] + b;
      CreateRelationsAppend(a[1..], b);
    }
  }

  /** Without empty titles nothing is dropped. */
  lemma {:induction false} CreateRelationsKeepsNonEmpty(titles: seq<string>)
    requires forall i | 0 <= i < |titles| :: titles[i] != ""
    ensures CreateRelations(titles) == titles
    decreases |titles|
  {
    if |titles| > 0 {
      assert forall i | 1 <= i < |titles| :: titles[i] == titles[1..][i - 1];
      CreateRelationsKeepsNonEmpty(titles[1..]);
    }
  }

  /** The relations of a result: a nil suite list sends no titles. */
  function RelationsOf(rel: Relation): (r: seq<string>)
    ensures rel.suite.None? ==> r == []
    ensures rel.suite.Some? ==> r == CreateRelations(rel.suite.value)
  {
    match rel.suite
    case None => []
    case Some(ts) => CreateRelations(ts)
  }

  // --------------------------------------------------------------- fields

  const KnownFields: set<string> := {
    "author", "description", "preconditions", "postconditions", "layer", "severity",
    "priority", "behavior", "type", "muted", "isFlaky"
  }

  /** `convertFields`: each key goes to exactly one place, its own slot
      when it is one of the 11 known keys and the additional properties
      otherwise, with its value. */
  function ConvertFields(fields: map<string, string>): (r: FieldsModel)
    ensures r.known.Keys !! r.additional.Keys
    ensures r.known.Keys + r.additional.Keys == fields.Keys
    ensures r.known.Keys <= KnownFields && r.additional.Keys !! KnownFields
    ensures forall k | k in r.known :: r.known[k] == fields[k]
    ensures forall k | k in r.additional :: r.additional[k] == fields[k]
  {
    FieldsModel(
      map k | k in fields && k in KnownFields :: fields[k],
      map k | k in fields && k !in KnownFields :: fields[k])
  }

  /** Putting the two halves back together gives the fields again. */
  lemma FieldsReassemble(fields: map<string, string>)
    ensures var r := ConvertFields(fields); r.known + r.additional == fields
  {
    var r := ConvertFields(fields);
    assert (r.known + r.additional).Keys == fields.Keys;
  }

  // ---------------------------------------------------------------- steps

  /** `createStepExecution`. */
  function StepExecutionOf(attach: seq<Attachment> -> seq<string>, e: StepExecution): (r: StepExecutionModel)
    ensures r.status == e.status && r.comment == e.comment && r.duration == e.duration
    ensures r.attachments == attach(e.attachments)
  {
    StepExecutionModel(e.status, attach(e.attachments), e.duration, e.comment)
  }

  /** `createStepModel` and `convertStepMaps` (both write the same
      content). */
  function ConvertStep(attach: seq<Attachment> -> seq<string>, s: Step): (r: StepModel)
    ensures r.action == s.action && |r.steps| == |s.steps|
    ensures r.execution == StepExecutionOf(attach, s.execution)
    decreases s, 1
  {
    StepModel(s.action, StepExecutionOf(attach, s.execution), ConvertSteps(attach, s.steps))
  }

  function ConvertSteps(attach: seq<Attachment> -> seq<string>, ss: seq<Step>): (r: seq<StepModel>)
    ensures |r| == |ss|
    decreases ss, 0
  {
    seq(|ss|, i requires 0 <= i < |ss| => ConvertStep(attach, ss[i]))
  }

  function ModelOutline(m: StepModel): Outline
    decreases m, 1
  {
    Outline(m.action, ModelOutlines(m.steps))
  }

  function ModelOutlines(ms: seq<StepModel>): seq<Outline>
    decreases ms, 0
  {
    seq(|ms|, i requires 0 <= i < |ms| => ModelOutline(ms[i]))
  }

  /** Step conversion keeps count, order, nesting and action text. */
  lemma {:induction false} ConvertStepKeepsOutline(attach: seq<Attachment> -> seq<string>, s: Step)
    ensures ModelOutline(ConvertStep(attach, s)) == StepOutline(s)
    decreases s, 1
  {
    ConvertStepsKeepOutline(attach, s.steps);
  }

  lemma {:induction false} ConvertStepsKeepOutline(attach: seq<Attachment> -> seq<string>, ss: seq<Step>)
    ensures ModelOutlines(ConvertSteps(attach, ss)) == StepOutlines(ss)
    decreases ss, 0
  {
    forall i | 0 <= i < |ss|
      ensures ModelOutlines(ConvertSteps(attach, ss))[i] == StepOutlines(ss)[i]
    {
      ConvertStepKeepsOutline(attach, ss[i]);
    }
  }

  // --------------------------------------------------------------- result

  /** `convertResultToApiModel`: the test-ops id and the message only when
      present, never a defect, and always "classic" steps whatever the
      result's step type. */
  function ConvertResult(attach: seq<Attachment> -> seq<string>, seconds: int -> int, result: TestResult): (r: ResultCreate)
    ensures r.title == result.title && r.signature == result.signature
    ensures r.testopsId == result.testOpsId && r.message == result.message
    ensures !r.defect && r.stepsType == "classic"
    ensures r.execution == CreateExecution(seconds, result.execution)
    ensures r.relations == RelationsOf(result.relations)
    ensures r.fields == ConvertFields(result.fields)
    ensures r.params == result.params && r.paramGroups == result.paramGroups
    ensures r.attachments == attach(result.attachments)
    ensures ModelOutlines(r.steps) == StepOutlines(result.steps)
  {
    ConvertStepsKeepOutline(attach, result.steps);
    ResultCreate(
      result.title,
      result.signature,
      attach(result.attachments),
      ConvertSteps(attach, result.steps),
      result.params,
      result.paramGroups,
      result.testOpsId,
      result.message,
      false,
      CreateExecution(seconds, result.execution),
      "classic",
      RelationsOf(result.relations),
      ConvertFields(result.fields))
  }

  /** The step type is always "classic": results differing only in their
      step type convert alike. */
  lemma StepTypeIgnored(attach: seq<Attachment> -> seq<string>, seconds: int -> int, result: TestResult, stepType: string)
    ensures ConvertResult(attach, seconds, result.(stepType := stepType)) == ConvertResult(attach, seconds, result)
  {
  }
}

=== FILE: filesniff.dfy ===
/** The naming half of `getAttachment` in internal/parsers/xctest/xctest.go:
    choosing a file extension from an attachment's leading bytes
    (`detectFileExtension`) and building the uploaded file name. Whether the
    payload is valid JSON is an input, standing for `json.Unmarshal`. */
module FileSniff {
  import opened Wrappers
  import opened Text

  // ------------------------------------------------------------ signatures

  const PngMagic: seq<byte> := [0x89, 0x50, 0x4E, 0x47, 0x0D, 0x0A, 0x1A, 0x0A]
  const JpegMagic: seq<byte> := [0xFF, 0xD8]
  const IcoMagic: seq<byte> := [0x00, 0x00, 0x01, 0x00]
  const BmpMagic: seq<byte> := [0x42, 0x4D, 0x00, 0x00]
  const TiffMagic: seq<byte> := [0x00, 0x00, 0x00, 0x20]
  const TiffLittle: seq<byte> := [0x49, 0x49, 0x2A, 0x00]
  const TiffBig: seq<byte> := [0x4D, 0x4D, 0x00, 0x2A]
  const Utf8Bom: seq<byte> := [0xEF, 0xBB, 0xBF]
  const Utf16LeBom: seq<byte> := [0xFF, 0xFE]
  const Utf16BeBom: seq<byte> := [0xFE, 0xFF]

  /** The ISO base media brands recognised as HEIC, as the eight bytes
      `ftyp<brand>` at offset 4. */
  const HeicBrands: set<seq<byte>> := {
    Bytes("ftypheic"), Bytes("ftypheix"), Bytes("ftypheis"), Bytes("ftyphevc"),
    Bytes("ftyphevx"), Bytes("ftyphevs"), Bytes("ftyphevm")}

  /** Every extension sniffing can produce; "" means none. */
  const Extensions: set<string> := {
    "", ".png", ".jpg", ".gif", ".webp", ".ico", ".bmp", ".tiff", ".heic",
    ".pdf", ".plist", ".txt", ".json", ".xml"}

  /** A byte that does not disqualify a payload from being plain text: any
      byte from 32 up, tab, line feed and carriage return. */
  predicate IsTextByte(b: byte) {
    b >= 32 || b == 9 || b == 10 || b == 13
  }

  predicate IsGif(data: seq<byte>) {
    HasPrefix(data, Bytes("GIF87a")) || HasPrefix(data, Bytes("GIF89a"))
  }

  predicate IsWebp(data: seq<byte>) {
    HasPrefix(data, Bytes("RIFF")) && |data| >= 12 && data[8..12] == Bytes("WEBP")
  }

  // -------------------------------------------------------------- sniffing

  /** The cases of `detectFileExtension` after the WEBP test, in source
      order. A payload opening with `{` or `[` is JSON or nothing: it never
      reaches the plain-text test. */
  function SniffRest(data: seq<byte>, isJson: bool): (r: string)
    requires |data| >= 4
    ensures r in Extensions
    ensures r == ".json" ==> isJson && (data[0] == '{' as int || data[0] == '[' as int)
  {
    if HasPrefix(data, IcoMagic) then ".ico"
    else if HasPrefix(data, BmpMagic) then ".bmp"
    else if HasPrefix(data, TiffMagic) || HasPrefix(data, TiffLittle) || HasPrefix(data, TiffBig) then ".tiff"
    else if |data| >= 12 && data[4..12] in HeicBrands then ".heic"
    else if HasPrefix(data, Bytes("%PDF")) then ".pdf"
    else if HasPrefix(data, Bytes("bplist00")) then ".plist"
    else if HasPrefix(data, Utf8Bom) || HasPrefix(data, Utf16LeBom) || HasPrefix(data, Utf16BeBom) then ".txt"
    else if data[0] == '{' as int || data[0] == '[' as int then (if isJson then ".json" else "")
    else if HasPrefix(data, Bytes("<?xml")) || data[0] == '<' as int then ".xml"
    else if forall i | 0 <= i < |data| :: IsTextByte(data[i]) then ".txt"
    else ""
  }

  /** `detectFileExtension`, with the GIF and WEBP tests reading only bytes
      their length checks guarantee (see `DetectFileExtensionAsWritten`).
      The first matching case in source order decides. */
  function DetectFileExtension(data: seq<byte>, isJson: bool): (r: string)
    ensures r in Extensions
    ensures |data| < 4 ==> r == ""
    ensures r == ".gif" ==> |data| >= 6 && IsGif(data)
    ensures r == ".webp" ==> |data| >= 12 && IsWebp(data)
    ensures r == ".png" <==> |data| >= 4 && HasPrefix(data, PngMagic)
    ensures r == ".json" ==> isJson && (data[0] == '{' as int || data[0] == '[' as int)
  {
    if |data| < 4 then ""
    else if HasPrefix(data, PngMagic) then ".png"
    else if HasPrefix(data, JpegMagic) then ".jpg"
    else if IsGif(data) then ".gif"
    else if IsWebp(data) then ".webp"
    else SniffRest(data, isJson)
  }

  /** `detectFileExtension` as the source writes it, `None` standing for a
      slice past the end of the payload. The GIF case parses as
      `(len >= 6 && isGIF87a) || isGIF89a`, so its second test slices six
      bytes of a four- or five-byte payload; the WEBP case checks for eight
      bytes and then slices up to twelve. A slice beyond a byte slice's
      length but within its capacity does not fail in Go; the model takes
      capacity equal to length. The parser's own payloads are captured tool
      output, whose buffer keeps spare zeroed capacity: there the extra
      bytes are zeros, which complete neither the GIF nor the WEBP
      signature, so the defect is latent for that caller. */
  function DetectFileExtensionAsWritten(data: seq<byte>, isJson: bool): (r: Option<string>)
  {
    if |data| < 4 then Some("")
    else if HasPrefix(data, PngMagic) then Some(".png")
    else if HasPrefix(data, JpegMagic) then Some(".jpg")
    else if |data| >= 6 && data[..6] == Bytes("GIF87a") then Some(".gif")
    else if |data| < 6 then None
    else if data[..6] == Bytes("GIF89a") then Some(".gif")
    else if HasPrefix(data, Bytes("RIFF")) && |data| >= 8 then
      if |data| < 12 then None
      else if data[8..12] == Bytes("WEBP") then Some(".webp")
      else Some(SniffRest(data, isJson))
    else Some(SniffRest(data, isJson))
  }

  /** Where the source's reading does not fail it agrees with the corrected
      one, and it fails exactly on four- and five-byte payloads that are not
      JPEG and on eight- to eleven-byte payloads starting with "RIFF". */
  lemma AsWrittenAgreesWhereDefined(data: seq<byte>, isJson: bool)
    ensures DetectFileExtensionAsWritten(data, isJson).Some? ==>
      DetectFileExtensionAsWritten(data, isJson).value == DetectFileExtension(data, isJson)
    ensures DetectFileExtensionAsWritten(data, isJson).None? <==>
      || (4 <= |data| < 6 && !HasPrefix(data, JpegMagic))
      || (8 <= |data| < 12 && HasPrefix(data, Bytes("RIFF")))
  {
    if |data| >= 6 {
      assert HasPrefix(data, Bytes("GIF87a")) <==> data[..6] == Bytes("GIF87a");
      assert HasPrefix(data, Bytes("GIF89a")) <==> data[..6] == Bytes("GIF89a");
    }
    if 8 <= |data| < 12 && HasPrefix(data, Bytes("RIFF")) {
      assert !HasPrefix(data, PngMagic) by { assert data[0] != PngMagic[0]; }
      assert !HasPrefix(data, JpegMagic) by { assert data[0] != JpegMagic[0]; }
      assert data[..6] != Bytes("GIF87a") by { assert data[0] != Bytes("GIF87a")[0]; }
      assert data[..6] != Bytes("GIF89a") by { assert data[0] != Bytes("GIF89a")[0]; }
    }
  }

  /** Given the four-byte text payload "abcd" with no spare capacity, the
      source's GIF test would slice past its end; the corrected test
      classifies it as text. */
  lemma ShortTextPayloadOverruns()
    ensures DetectFileExtensionAsWritten(Bytes("abcd"), false).None?
    ensures DetectFileExtension(Bytes("abcd"), false) == ".txt"
  {
    var d := Bytes("abcd");
    assert d == [97, 98, 99, 100];
    assert !HasPrefix(d, PngMagic);
    assert !HasPrefix(d, JpegMagic) by { assert d[0] != JpegMagic[0]; }
    assert !IsGif(d);
    assert !IsWebp(d);
    assert !HasPrefix(d, IcoMagic) by { assert d[0] != IcoMagic[0]; }
    assert !HasPrefix(d, BmpMagic) by { assert d[0] != BmpMagic[0]; }
    assert !HasPrefix(d, TiffMagic) by { assert d[0] != TiffMagic[0]; }
    assert !HasPrefix(d, TiffLittle) by { assert d[0] != TiffLittle[0]; }
    assert !HasPrefix(d, TiffBig) by { assert d[0] != TiffBig[0]; }
    assert !HasPrefix(d, Bytes("%PDF")) by { assert d[0] != Bytes("%PDF")[0]; }
    assert !HasPrefix(d, Bytes("bplist00"));
    assert !HasPrefix(d, Utf8Bom) by { assert d[0] != Utf8Bom[0]; }
    assert !HasPrefix(d, Utf16LeBom) by { assert d[0] != Utf16LeBom[0]; }
    assert !HasPrefix(d, Utf16BeBom) by { assert d[0] != Utf16BeBom[0]; }
    assert !HasPrefix(d, Bytes("<?xml"));
  }

  /** A payload opening with `{` or `[` that carries no HEIC brand is named
      ".json" when it parses and gets no extension otherwise, whatever its
      remaining bytes. */
  lemma JsonIsNeverText(data: seq<byte>, isJson: bool)
    requires |data| >= 4 && (data[0] == '{' as int || data[0] == '[' as int)
    requires !(|data| >= 12 && data[4..12] in HeicBrands)
    ensures DetectFileExtension(data, isJson) == (if isJson then ".json" else "")
  {
    var c := data[0];
    assert !HasPrefix(data, PngMagic) by { assert c != PngMagic[0]; }
    assert !HasPrefix(data, JpegMagic) by { assert c != JpegMagic[0]; }
    assert !IsGif(data) by { assert c != Bytes("GIF87a")[0] && c != Bytes("GIF89a")[0]; }
    assert !IsWebp(data) by { assert c != Bytes("RIFF")[0]; }
    assert !HasPrefix(data, IcoMagic) by { assert c != IcoMagic[0]; }
    assert !HasPrefix(data, BmpMagic) by { assert c != BmpMagic[0]; }
    assert !HasPrefix(data, TiffMagic) by { assert c != TiffMagic[0]; }
    assert !HasPrefix(data, TiffLittle) by { assert c != TiffLittle[0]; }
    assert !HasPrefix(data, TiffBig) by { assert c != TiffBig[0]; }
    assert !HasPrefix(data, Bytes("%PDF")) by { assert c != Bytes("%PDF")[0]; }
    assert !HasPrefix(data, Bytes("bplist00")) by { assert c != Bytes("bplist00")[0]; }
    assert !HasPrefix(data, Utf8Bom) by { assert c != Utf8Bom[0]; }
    assert !HasPrefix(data, Utf16LeBom) by { assert c != Utf16LeBom[0]; }
    assert !HasPrefix(data, Utf16BeBom) by { assert c != Utf16BeBom[0]; }
  }

  // ---------------------------------------------------------------- naming

  /** A name gets a sniffed extension when it has no dot or ends in one. */
  predicate NeedsExtension(name: string) {
    '.' !in name || HasSuffix(name, ".")
  }

  /** The file name `getAttachment` uploads: the first ".heic" becomes
      ".jpeg", then a name without an extension gets the sniffed one (which
      may be none). */
  function AttachmentName(filename: string, data: seq<byte>, isJson: bool): (r: string)
    ensures var base := ReplaceFirst(filename, ".heic", ".jpeg");
      && HasPrefix(r, base)
      && r[|base|..] in Extensions
      && (!NeedsExtension(base) ==> r == base)
      && (NeedsExtension(base) ==> r[|base|..] == DetectFileExtension(data, isJson))
  {
    var base := ReplaceFirst(filename, ".heic", ".jpeg");
    if NeedsExtension(base) then
      var r := base + DetectFileExtension(data, isJson);
      assert r[|base|..] == DetectFileExtension(data, isJson);
      r
    else
      assert base[|base|..] == "";
      base
  }

  /** A name that already has an extension and no ".heic" is uploaded
      unchanged, whatever the payload. */
  lemma NamedFilesKeepTheirName(filename: string, data: seq<byte>, isJson: bool)
    requires '.' in filename && !HasSuffix(filename, ".")
    requires forall j | 0 <= j <= |filename| :: !OccursAt(filename, ".heic", j)
    ensures AttachmentName(filename, data, isJson) == filename
  {
  }

  /** `sub` first occurs at `i` when no earlier position starts with its
      first element. */
  lemma FirstOccurrence(s: string, sub: string, i: nat)
    requires |sub| > 0 && OccursAt(s, sub, i)
    requires forall j | 0 <= j < i :: s[j] != sub[0]
    ensures IndexOf(s, sub) == Some(i)
  {
    forall j | 0 <= j < i ensures !OccursAt(s, sub, j) {
      assert s[j] != sub[0];
    }
  }

  /** A ".heic" name is uploaded as ".jpeg"; the rewritten name already
      has an extension, so the payload is not consulted. */
  lemma HeicBecomesJpeg(data: seq<byte>, isJson: bool)
    ensures AttachmentName("shot.heic", data, isJson) == "shot.jpeg"
  {
    var s := "shot.heic";
    assert s[4..9] == ".heic";
    FirstOccurrence(s, ".heic", 4);
    assert s[..4] + ".jpeg" + s[9..] == "shot.jpeg";
    assert !HasSuffix("shot.jpeg", ".") && "shot.jpeg"[4] == '.';
  }

  /** Only the first ".heic" is rewritten. */
  lemma OnlyFirstHeicRewritten(data: seq<byte>, isJson: bool)
    ensures AttachmentName("a.heic.heic", data, isJson) == "a.jpeg.heic"
  {
    var s := "a.heic.heic";
    assert s[1..6] == ".heic";
    FirstOccurrence(s, ".heic", 1);
    assert s[..1] + ".jpeg" + s[6..] == "a.jpeg.heic";
    assert !HasSuffix("a.jpeg.heic", ".") && "a.jpeg.heic"[1] == '.';
  }
}

=== FILE: filter.dfy ===
/** internal/service/filter/filter.go: turning the cases of a test plan into
    a test-name filter for a test framework. The plan lookup is the
    client's answer, passed in. */
module Filter {
  import opened Wrappers
  import opened Text

  const PatternPrefix: string := "(Qase ID: "

  /** Every id in decimal. */
  function Decimals(ids: seq<int>): (r: seq<string>)
    ensures |r| == |ids|
    ensures forall i | 0 <= i < |ids| :: r[i] == IntToDecimal(ids[i])
  {
    seq(|ids|, i requires 0 <= i < |ids| => IntToDecimal(ids[i]))
  }

  /** The ids in decimal, separated by '|'. */
  function IdAlternatives(ids: seq<int>): (r: string)
    decreases |ids|
  {
    if |ids| == 0 then ""
    else if |ids| == 1 then IntToDecimal(ids[0])
    else IntToDecimal(ids[0]) + "|" + IdAlternatives(ids[1..])
  }

  /** `prepareForPlaywright`: "(Qase ID: " + the ids joined by '|' + ")". */
  function PrepareForPlaywright(ids: seq<int>): (r: string)
    ensures HasPrefix(r, PatternPrefix) && HasSuffix(r, ")")
    ensures |ids| == 0 ==> r == "(Qase ID: )"
  {
    PatternPrefix + IdAlternatives(ids) + ")"
  }

  /** The alternatives are the decimals joined by '|'. */
  lemma {:induction false} AlternativesAreJoin(ids: seq<int>)
    ensures IdAlternatives(ids) == Join(Decimals(ids), "|")
    decreases |ids|
  {
    if |ids| > 1 {
      AlternativesAreJoin(ids[1..]);
      assert Decimals(ids)[1..] == Decimals(ids[1..]);
    }
  }

  lemma NoBarInDecimal(n: int)
    ensures '|' !in IntToDecimal(n)
  {
    var d := NatToDecimal(if n < 0 then -n else n);
    assert forall k | 0 <= k < |d| :: d[k] != '|';
    if n < 0 {
      assert IntToDecimal(n) == "-" + d;
      assert forall k | 0 <= k < |"-" + d| :: ("-" + d)[k] != '|';
    }
  }

  /** For a non-empty list of 64-bit ids, splitting the alternatives on '|'
      and parsing every part gives the ids back: the pattern lists exactly
      the plan's cases, in order. */
  lemma AlternativesRoundTrip(ids: seq<int>)
    requires |ids| > 0 && forall i | 0 <= i < |ids| :: IsInt64(ids[i])
    ensures var parts := Split(IdAlternatives(ids), '|');
      |parts| == |ids| && forall i | 0 <= i < |ids| :: ParseInt64(parts[i]) == Some(ids[i])
  {
    AlternativesAreJoin(ids);
    var ds := Decimals(ids);
    forall k | 0 <= k < |ds| ensures '|' !in ds[k] {
      NoBarInDecimal(ids[k]);
    }
    SplitJoin(ds, '|');
    forall i | 0 <= i < |ids| ensures ParseInt64(ds[i]) == Some(ids[i]) {
      ParseFormatRoundTrip(ids[i]);
    }
  }

  /** The pattern holds exactly max(0, n - 1) separators. */
  lemma SeparatorCount(ids: seq<int>)
    ensures Count(IdAlternatives(ids), '|') == if |ids| == 0 then 0 else |ids| - 1
  {
    if |ids| > 0 {
      AlternativesAreJoin(ids);
      var ds := Decimals(ids);
      forall k | 0 <= k < |ds| ensures '|' !in ds[k] {
        NoBarInDecimal(ids[k]);
      }
      SplitJoin(ds, '|');
      SplitCountsSeparators(IdAlternatives(ids), '|');
    }
  }

  /** `GetFilteredResults`, given the client's answer for the plan (its
      case ids, or the error). The error comes back unchanged; an empty
      plan is refused before the framework is looked at; only "playwright"
      is supported. */
  function GetFilteredResults(plan: Result<seq<int>>, framework: string): (r: Result<string>)
    ensures plan.Err? ==> r == Err(plan.msg)
    ensures plan == Ok([]) ==> r == Err("no cases found in plan")
    ensures plan.Ok? && |plan.value| > 0 && framework != "playwright" ==>
      r == Err("unsupported framework: " + framework)
    ensures r.Ok? <==> plan.Ok? && |plan.value| > 0 && framework == "playwright"
    ensures r.Ok? ==> r.value == PrepareForPlaywright(plan.value)
  {
    match plan
    case Err(e) => Err(e)
    case Ok(cases) =>
      if |cases| == 0 then Err("no cases found in plan")
      else if framework == "playwright" then Ok(PrepareForPlaywright(cases))
      else Err("unsupported framework: " + framework)
  }
}

=== FILE: junit.dfy ===
/** internal/parsers/junit/junit.go: converting JUnit XML reports into
    results. The XML is taken as already unmarshalled; reading a file is an
    oracle, the path separator a parameter, and the float `time` attribute
    an opaque integer. */
module JUnit {
  import opened Wrappers
  import opened Text
  import opened Results
  import opened Assignments

  // ------------------------------------------------------------------ data

  datatype Property = Property(name: string, value: string)

  /** The body of a `<failure>` or `<error>` element. */
  datatype Problem = Problem(message: string, body: string)

  datatype TestCase = TestCase(
    name: string,
    className: string,
    time: int,
    skipped: Option<string>,
    failure: Option<Problem>,
    error: Option<Problem>,
    systemOut: string,
    systemErr: string,
    properties: seq<Property>)

  datatype TestSuite = TestSuite(name: string, testCases: seq<TestCase>)

  datatype TestSuites = TestSuites(name: string, suites: seq<TestSuite>)

  // --------------------------------------------------------- one testcase

  /** Status, message and stack trace as the source builds them: start
      from passed, then let a failure, an error and a skip overwrite them in
      that order (a skip leaves the stack trace alone). */
  datatype Verdict = Verdict(status: string, message: Option<string>, stackTrace: Option<string>)

  function AfterFailure(v: Verdict, tc: TestCase): Verdict {
    match tc.failure
    case None => v
    case Some(f) => Verdict("failed", Some(f.message), Some(f.body))
  }

  function AfterError(v: Verdict, tc: TestCase): Verdict {
    match tc.error
    case None => v
    case Some(e) => Verdict("invalid", Some(e.message), Some(e.body))
  }

  function AfterSkip(v: Verdict, tc: TestCase): Verdict {
    match tc.skipped
    case None => v
    case Some(m) => Verdict("skipped", Some(m), v.stackTrace)
  }

  /** The outcome of a testcase: skipped outranks error, error outranks
      failure, failure outranks passed; the message comes from the highest
      element present and the stack trace from the error, else the
      failure. */
  function CaseVerdict(tc: TestCase): (v: Verdict)
    ensures v.status == "skipped" <==> tc.skipped.Some?
    ensures v.status == "invalid" <==> tc.skipped.None? && tc.error.Some?
    ensures v.status == "failed" <==> tc.skipped.None? && tc.error.None? && tc.failure.Some?
    ensures v.status == "passed" <==> tc.skipped.None? && tc.error.None? && tc.failure.None?
    ensures IsResultStatus(v.status)
    ensures tc.skipped.Some? ==> v.message == tc.skipped
    ensures tc.skipped.None? && tc.error.Some? ==> v.message == Some(tc.error.value.message)
    ensures tc.skipped.None? && tc.error.None? && tc.failure.Some? ==> v.message == Some(tc.failure.value.message)
    ensures v.message.None? <==> tc.skipped.None? && tc.error.None? && tc.failure.None?
    ensures tc.error.Some? ==> v.stackTrace == Some(tc.error.value.body)
    ensures tc.error.None? && tc.failure.Some? ==> v.stackTrace == Some(tc.failure.value.body)
    ensures v.stackTrace.None? <==> tc.error.None? && tc.failure.None?
  {
    AfterSkip(AfterError(AfterFailure(Verdict("passed", None, None), tc), tc), tc)
  }

  /** The suite path: the report's name when it is not empty, then the
      suite's name split on the path separator when that gives several
      parts, else the whole name. */
  function SuitePath(reportName: string, suiteName: string, sep: char): (r: seq<string>)
    ensures |r| >= 1
    ensures reportName != "" ==> r[0] == reportName
  {
    var head := if reportName != "" then [reportName] else [];
    var parts := Split(suiteName, sep);
    if |parts| > 1 then head + parts else head + [suiteName]
  }

  /** Both branches of the suite path are a split: a name without the
      separator splits into itself. So the tail always joins back to the
      suite's name. */
  lemma SuitePathIsSplit(reportName: string, suiteName: string, sep: char)
    ensures var head := if reportName != "" then [reportName] else [];
      SuitePath(reportName, suiteName, sep) == head + Split(suiteName, sep)
    ensures var r := SuitePath(reportName, suiteName, sep);
      var tail := if reportName != "" then r[1..] else r;
      Join(tail, [sep]) == suiteName
  {
    var parts := Split(suiteName, sep);
    JoinSplit(suiteName, sep);
    if |parts| == 1 {
      assert Join(parts, [sep]) == parts[0];
    }
    var head := if reportName != "" then [reportName] else [];
    var r := SuitePath(reportName, suiteName, sep);
    assert r == head + parts;
    if reportName != "" {
      assert r[1..] == parts;
    } else {
      assert r == parts;
    }
  }

  /** The signature "<report>::<suite>::<classname>::<case>". */
  function Signature(reportName: string, suiteName: string, className: string, caseName: string): (r: string)
    ensures HasPrefix(r, reportName) && HasSuffix(r, caseName)
    ensures |r| == |reportName| + |suiteName| + |className| + |caseName| + 6
  {
    reportName + "::" + suiteName + "::" + className + "::" + caseName
  }

  /** When no name holds a ':', splitting the signature on ':' gives the
      four names back, separated by the empty strings between the colons. */
  lemma SignatureRecoverable(a: string, b: string, c: string, d: string)
    requires ':' !in a && ':' !in b && ':' !in c && ':' !in d
    ensures Split(Signature(a, b, c, d), ':') == [a, "", b, "", c, "", d]
  {
    var cd := c + "::" + d;
    var bcd := b + "::" + cd;
    assert Signature(a, b, c, d) == a + "::" + bcd;
    SplitWithoutSep(d, ':');
    SplitAfterName(c, d);
    SplitAfterName(b, cd);
    SplitAfterName(a, bcd);
  }

  /** A name free of ':' followed by "::" splits into the name and an empty
      part before whatever follows. */
  lemma SplitAfterName(x: string, rest: string)
    requires ':' !in x
    ensures Split(x + "::" + rest, ':') == [x, ""] + Split(rest, ':')
  {
    var t := "" + [':'] + rest;
    assert x + "::" + rest == x + [':'] + t;
    SplitBefore(x, t, ':');
    SplitBefore("", rest, ':');
  }

  function PropertyPairs(ps: seq<Property>): (r: seq<(string, string)>)
    ensures |r| == |ps|
    ensures forall i | 0 <= i < |ps| :: r[i] == (ps[i].name, ps[i].value)
  {
    seq(|ps|, i requires 0 <= i < |ps| => (ps[i].name, ps[i].value))
  }

  /** An attachment holding captured output as text. */
  function OutputAttachment(name: string, text: string): Attachment {
    Attachment(name, None, "plain/text", Some(Utf8(text)))
  }

  /** The captured output of a testcase: "system-out.txt" then
      "system-err.txt", each only when its text is not empty. */
  function Outputs(tc: TestCase): (r: seq<Attachment>)
    ensures |r| == (if tc.systemOut != "" then 1 else 0) + (if tc.systemErr != "" then 1 else 0)
    ensures tc.systemOut != "" ==> r[0] == OutputAttachment("system-out.txt", tc.systemOut)
    ensures tc.systemErr != "" ==> r[|r| - 1] == OutputAttachment("system-err.txt", tc.systemErr)
    ensures forall i | 0 <= i < |r| :: r[i].content.Some? && |r[i].content.value| > 0
  {
    (if tc.systemOut != "" then [OutputAttachment("system-out.txt", tc.systemOut)] else [])
    + (if tc.systemErr != "" then [OutputAttachment("system-err.txt", tc.systemErr)] else [])
  }

  /** The result for one testcase of `suite` in the report `reportName`;
      what it holds is stated by `ConvertCaseContract`. */
  function ConvertCase(reportName: string, suite: TestSuite, tc: TestCase, sep: char): (r: TestResult)
    ensures r.title == tc.name
  {
    var v := CaseVerdict(tc);
    TestResult(
      tc.name,
      Some(Signature(reportName, suite.name, tc.className, tc.name)),
      None,
      Execution(None, None, v.status, Some(tc.time), v.stackTrace, None),
      AssignAll(map[], PropertyPairs(tc.properties)),
      Outputs(tc),
      [],
      "text",
      map[],
      [],
      Relation(Some(SuitePath(reportName, suite.name, sep))),
      false,
      v.message,
      None, None, None)
  }

  /** What the result for one testcase holds. */
  lemma ConvertCaseContract(reportName: string, suite: TestSuite, tc: TestCase, sep: char)
    ensures var r := ConvertCase(reportName, suite, tc, sep);
      && r.signature == Some(Signature(reportName, suite.name, tc.className, tc.name))
      && r.relations == Relation(Some(SuitePath(reportName, suite.name, sep)))
      && Verdict(r.execution.status, r.message, r.execution.stackTrace) == CaseVerdict(tc)
      && r.execution.duration == Some(tc.time) && r.execution.thread.None?
      && r.execution.startTime.None? && r.execution.endTime.None?
      && r.fields == AssignAll(map[], PropertyPairs(tc.properties))
      && r.attachments == Outputs(tc)
      && r.steps == [] && r.stepType == "text" && r.params == map[] && !r.muted
      && r.testOpsId.None?
  {
  }

  // ------------------------------------------------------- whole document

  /** The number of testcases in `suites`. */
  function CaseCount(suites: seq<TestSuite>): nat
    decreases |suites|
  {
    if |suites| == 0 then 0 else |suites[0].testCases| + CaseCount(suites[1..])
  }

  /** Every testcase of the report with its suite, suite by suite and
      testcase by testcase, as the two nested loops visit them. */
  function Cases(suites: seq<TestSuite>): (r: seq<(TestSuite, TestCase)>)
    ensures |r| == CaseCount(suites)
    decreases |suites|
  {
    if |suites| == 0 then []
    else
      seq(|suites[0].testCases|, j requires 0 <= j < |suites[0].testCases| => (suites[0], suites[0].testCases[j]))
      + Cases(suites[1..])
  }

  /** Testcase `j` of suite `s` sits after every testcase of the suites
      before it. */
  lemma {:induction false} CaseAt(suites: seq<TestSuite>, s: nat, j: nat)
    requires s < |suites| && j < |suites[s].testCases|
    ensures CaseCount(suites[..s]) + j < CaseCount(suites)
    ensures Cases(suites)[CaseCount(suites[..s]) + j] == (suites[s], suites[s].testCases[j])
    decreases s
  {
    var own := |suites[0].testCases|;
    if s == 0 {
      assert suites[..0] == [];
    } else {
      CaseAt(suites[1..], s - 1, j);
      assert suites[1..][..s - 1] == suites[..s][1..];
      assert suites[..s][0] == suites[0];
      assert CaseCount(suites[..s]) == own + CaseCount(suites[1..][..s - 1]);
    }
  }

  /** `convertTestSuites`: one result per testcase, in the order the loops
      visit them. */
  function ConvertTestSuites(report: TestSuites, sep: char): (r: seq<TestResult>)
    ensures |r| == CaseCount(report.suites)
  {
    var cs := Cases(report.suites);
    seq(|cs|, i requires 0 <= i < |cs| => ConvertCase(report.name, cs[i].0, cs[i].1, sep))
  }

  /** The result for testcase `j` of suite `s` is found after the results
      of every earlier suite. */
  lemma ResultOfCase(report: TestSuites, sep: char, s: nat, j: nat)
    requires s < |report.suites| && j < |report.suites[s].testCases|
    ensures CaseCount(report.suites[..s]) + j < |ConvertTestSuites(report, sep)|
    ensures ConvertTestSuites(report, sep)[CaseCount(report.suites[..s]) + j]
      == ConvertCase(report.name, report.suites[s], report.suites[s].testCases[j], sep)
  {
    CaseAt(report.suites, s, j);
    ConvertedAt(report, sep, CaseCount(report.suites[..s]) + j, report.suites[s], report.suites[s].testCases[j]);
  }

  lemma ConvertedAt(report: TestSuites, sep: char, i: nat, suite: TestSuite, tc: TestCase)
    requires i < CaseCount(report.suites) && Cases(report.suites)[i] == (suite, tc)
    ensures i < |ConvertTestSuites(report, sep)|
    ensures ConvertTestSuites(report, sep)[i] == ConvertCase(report.name, suite, tc, sep)
  {
  }

  // ----------------------------------------------------------------- parse

  /** What `filepath.Walk` reports for one path under the input directory. */
  datatype WalkEntry = WalkError(err: string) | WalkDir | WalkFile(path: string)

  /** What `os.Stat` finds at the input path. */
  datatype Input = StatFailed(err: string) | File(path: string) | Directory(entries: seq<WalkEntry>)

  /** An entry that stops the scan: a walk error, or a file that cannot be
      read or unmarshalled (`parse` is the read-and-unmarshal oracle). */
  predicate Fails(parse: string -> Result<TestSuites>, e: WalkEntry) {
    e.WalkError? || (e.WalkFile? && parse(e.path).Err?)
  }

  function FailureOf(parse: string -> Result<TestSuites>, e: WalkEntry): string
    requires Fails(parse, e)
  {
    if e.WalkError? then e.err else parse(e.path).msg
  }

  /** The results the entries give when none of them fails. */
  function EntryResults(parse: string -> Result<TestSuites>, sep: char, e: WalkEntry): seq<TestResult>
    requires !Fails(parse, e)
  {
    if e.WalkFile? then ConvertTestSuites(parse(e.path).value, sep) else []
  }

  /** The walk of `Parse` over a directory: the first failing entry aborts
      the whole scan with its error unchanged; otherwise every file's
      results, in walk order. */
  function ParseEntries(parse: string -> Result<TestSuites>, sep: char, entries: seq<WalkEntry>): (r: Result<seq<TestResult>>)
    ensures r.Ok? <==> forall i | 0 <= i < |entries| :: !Fails(parse, entries[i])
    ensures r.Err? ==> exists i | 0 <= i < |entries| ::
      && Fails(parse, entries[i]) && r.msg == FailureOf(parse, entries[i])
      && forall j | 0 <= j < i :: !Fails(parse, entries[j])
    decreases |entries|
  {
    if |entries| == 0 then Ok([])
    else
      var e := entries[0];
      assert forall i | 1 <= i < |entries| :: entries[i] == entries[1..][i - 1];
      if Fails(parse, e) then Err(FailureOf(parse, e))
      else
        match ParseEntries(parse, sep, entries[1..])
        case Err(m) => Err(m)
        case Ok(rest) => Ok(EntryResults(parse, sep, e) + rest)
  }

  /** A failing entry anywhere makes the whole scan fail, whatever the
      other entries hold. */
  lemma OneFailureFailsAll(parse: string -> Result<TestSuites>, sep: char, a: seq<WalkEntry>, e: WalkEntry, b: seq<WalkEntry>)
    requires Fails(parse, e)
    ensures ParseEntries(parse, sep, a + [e] + b).Err?
  {
    assert (a + [e] + b)[|a|] == e;
  }

  /** Directory entries contribute nothing. */
  lemma {:induction false} DirectoriesAddNothing(parse: string -> Result<TestSuites>, sep: char, a: seq<WalkEntry>, b: seq<WalkEntry>)
    ensures ParseEntries(parse, sep, a + [WalkDir] + b) == ParseEntries(parse, sep, a + b)
    decreases |a|
  {
    if |a| == 0 {
      assert a + [WalkDir] + b == [WalkDir] + b;
      assert ([WalkDir] + b)[1..] == b;
      assert a + b == b;
      match ParseEntries(parse, sep, b)
      case Err(_) =>
      case Ok(rest) => assert [] + rest == rest;
    } else {
      assert (a + [WalkDir] + b)[0] == a[0] && (a + b)[0] == a[0];
      assert (a + [WalkDir] + b)[1..] == a[1..] + [WalkDir] + b;
      assert (a + b)[1..] == a[1..] + b;
      DirectoriesAddNothing(parse, sep, a[1..], b);
    }
  }

  /** `Parse`: a stat error or a single file's error is returned unchanged. */
  function Parse(parse: string -> Result<TestSuites>, sep: char, input: Input): (r: Result<seq<TestResult>>)
    ensures input.StatFailed? ==> r == Err(input.err)
    ensures input.File? && parse(input.path).Err? ==> r == Err(parse(input.path).msg)
    ensures input.File? && parse(input.path).Ok? ==> r == Ok(ConvertTestSuites(parse(input.path).value, sep))
    ensures input.Directory? ==> r == ParseEntries(parse, sep, input.entries)
  {
    match input
    case StatFailed(e) => Err(e)
    case File(p) =>
      (match parse(p)
       case Err(m) => Err(m)
       case Ok(report) => Ok(ConvertTestSuites(report, sep)))
    case Directory(entries) => ParseEntries(parse, sep, entries)
  }
}

=== FILE: qase.dfy ===
/** internal/parsers/qase/qase.go: reading reports already written in the
    result model itself, repairing attachment paths and the duration. The
    filesystem is an oracle: `os.Stat`'s outcome per path, and the path
    helpers `filepath.Dir`, `filepath.Base` and `path.Join`. */
module QaseReport {
  import opened Wrappers
  import opened Text
  import opened Results

  // ------------------------------------------------------------ file names

  /** `filepath.Ext`: the suffix from the last '.' of the last path
      element, or "" when that element has no '.'. */
  function Ext(p: string): (r: string)
    ensures r == "" || (r[0] == '.' && HasSuffix(p, r))
    ensures r != "" ==> '.' !in r[1..] && '/' !in r
    decreases |p|
  {
    if |p| == 0 || p[|p| - 1] == '/' then ""
    else if p[|p| - 1] == '.' then "."
    else
      var e := Ext(p[..|p| - 1]);
      if e == "" then "" else e + [p[|p| - 1]]
  }

  /** A file is read only when its extension is exactly ".json", that is
      exactly when its name ends in ".json". */
  lemma {:induction false} JsonExtIffSuffix(p: string)
    ensures Ext(p) == ".json" <==> HasSuffix(p, ".json")
  {
    if HasSuffix(p, ".json") {
      var n := |p|;
      assert p[n - 5..] == ".json";
      assert p[..n - 4] == p[..n - 5] + ".";
      ExtOfLastDot(p[..n - 5], "json");
      assert p[..n - 4] + "json" == p;
    }
  }

  /** A '.' followed by a tail with no '.' or '/' starts the extension. */
  lemma {:induction false} ExtOfLastDot(a: string, tail: string)
    requires '.' !in tail && '/' !in tail
    ensures Ext(a + "." + tail) == "." + tail
    decreases |tail|
  {
    var p := a + "." + tail;
    if |tail| > 0 {
      var front := tail[..|tail| - 1];
      assert '.' !in front && '/' !in front by {
        assert forall k | 0 <= k < |front| :: front[k] == tail[k];
      }
      ExtOfLastDot(a, front);
      assert p[..|p| - 1] == a + "." + front;
      assert p[|p| - 1] == tail[|tail| - 1];
      assert "." + front + [tail[|tail| - 1]] == "." + tail;
    } else {
      assert p == a + ".";
    }
  }

  // ----------------------------------------------------------- attachments

  /** What `os.Stat` reports for a path. */
  datatype Stat = Exists | NotExist | OtherError

  datatype Files = Files(
    stat: string -> Stat,
    dir: string -> string,
    base: string -> string,
    join: (string, string, string) -> string)

  /** `convertAttachments` for one attachment: a path that does not exist
      is moved under "attachments" next to the input; a missing path, an
      existing one or one that cannot be checked stays as it is. */
  function ConvertAttachment(fs: Files, input: string, a: Attachment): (r: Attachment)
    ensures r.name == a.name && r.contentType == a.contentType && r.content == a.content
    ensures r.filePath.Some? <==> a.filePath.Some?
    ensures a.filePath.None? || fs.stat(a.filePath.value) != NotExist ==> r == a
    ensures a.filePath.Some? && fs.stat(a.filePath.value) == NotExist ==>
      r.filePath == Some(fs.join(fs.dir(input), "attachments", fs.base(a.filePath.value)))
  {
    match a.filePath
    case None => a
    case Some(p) =>
      if fs.stat(p) == NotExist then a.(filePath := Some(fs.join(fs.dir(input), "attachments", fs.base(p))))
      else a
  }

  function ConvertAttachments(fs: Files, input: string, atts: seq<Attachment>): (r: seq<Attachment>)
    ensures |r| == |atts|
    ensures forall i | 0 <= i < |atts| :: r[i] == ConvertAttachment(fs, input, atts[i])
  {
    seq(|atts|, i requires 0 <= i < |atts| => ConvertAttachment(fs, input, atts[i]))
  }

  /** `convertStepAttachments`: every step at every depth has its own
      attachments converted. */
  function ConvertStep(fs: Files, input: string, s: Step): (r: Step)
    ensures r.action == s.action && |r.steps| == |s.steps|
    ensures r.execution == s.execution.(attachments := ConvertAttachments(fs, input, s.execution.attachments))
    decreases s, 1
  {
    Step(s.action,
         s.execution.(attachments := ConvertAttachments(fs, input, s.execution.attachments)),
         ConvertSteps(fs, input, s.steps))
  }

  function ConvertSteps(fs: Files, input: string, ss: seq<Step>): (r: seq<Step>)
    ensures |r| == |ss|
    decreases ss, 0
  {
    seq(|ss|, i requires 0 <= i < |ss| => ConvertStep(fs, input, ss[i]))
  }

  /** Every attachment in a step tree, in depth-first order. */
  function TreeAttachments(s: Step): seq<Attachment>
    decreases s, 1
  {
    s.execution.attachments + TreeAttachmentsOf(s.steps)
  }

  function TreeAttachmentsOf(ss: seq<Step>): seq<Attachment>
    decreases ss, 0
  {
    if |ss| == 0 then [] else TreeAttachments(ss[0]) + TreeAttachmentsOf(ss[1..])
  }

  lemma ConvertAttachmentsAppend(fs: Files, input: string, a: seq<Attachment>, b: seq<Attachment>)
    ensures ConvertAttachments(fs, input, a + b) == ConvertAttachments(fs, input, a) + ConvertAttachments(fs, input, b)
  {
    var l := ConvertAttachments(fs, input, a + b);
    var r := ConvertAttachments(fs, input, a) + ConvertAttachments(fs, input, b);
    forall i | 0 <= i < |l| ensures l[i] == r[i] {
      if i < |a| { assert (a + b)[i] == a[i]; } else { assert (a + b)[i] == b[i - |a|]; }
    }
  }

  /** The conversion reaches every depth: the attachments of the converted
      tree are the converted attachments of the tree, in the same order. */
  lemma {:induction false} StepAttachmentsConverted(fs: Files, input: string, s: Step)
    ensures TreeAttachments(ConvertStep(fs, input, s)) == ConvertAttachments(fs, input, TreeAttachments(s))
    decreases s, 1
  {
    StepsAttachmentsConverted(fs, input, s.steps);
    ConvertAttachmentsAppend(fs, input, s.execution.attachments, TreeAttachmentsOf(s.steps));
  }

  lemma {:induction false} StepsAttachmentsConverted(fs: Files, input: string, ss: seq<Step>)
    ensures TreeAttachmentsOf(ConvertSteps(fs, input, ss)) == ConvertAttachments(fs, input, TreeAttachmentsOf(ss))
    decreases ss, 0
  {
    if |ss| > 0 {
      var c := ConvertSteps(fs, input, ss);
      assert c[0] == ConvertStep(fs, input, ss[0]);
      assert c[1..] == ConvertSteps(fs, input, ss[1..]);
      StepAttachmentsConverted(fs, input, ss[0]);
      StepsAttachmentsConverted(fs, input, ss[1..]);
      ConvertAttachmentsAppend(fs, input, TreeAttachments(ss[0]), TreeAttachmentsOf(ss[1..]));
    }
  }

  /** The conversion keeps the step tree's shape, order and labels. */
  lemma {:induction false} ConvertStepKeepsOutline(fs: Files, input: string, s: Step)
    ensures StepOutline(ConvertStep(fs, input, s)) == StepOutline(s)
    decreases s, 1
  {
    ConvertStepsKeepOutline(fs, input, s.steps);
  }

  lemma {:induction false} ConvertStepsKeepOutline(fs: Files, input: string, ss: seq<Step>)
    ensures StepOutlines(ConvertSteps(fs, input, ss)) == StepOutlines(ss)
    decreases ss, 0
  {
    forall i | 0 <= i < |ss|
      ensures StepOutlines(ConvertSteps(fs, input, ss))[i] == StepOutlines(ss)[i]
    {
      ConvertStepKeepsOutline(fs, input, ss[i]);
    }
  }

  // -------------------------------------------------------------- duration

  /** `calculateDuration` as written: it checks the result's top-level
      start and end times but subtracts the execution's, so a result with
      the top-level times and without an execution time dereferences nil
      (`None`). */
  function CalculateDurationAsWritten(r: TestResult): (o: Option<TestResult>)
    ensures o.None? <==> r.startTime.Some? && r.endTime.Some? && (r.execution.startTime.None? || r.execution.endTime.None?)
  {
    if r.startTime.Some? && r.endTime.Some? then
      if r.execution.startTime.None? || r.execution.endTime.None? then None
      else
        var d := r.execution.endTime.value - r.execution.startTime.value;
        Some(r.(execution := r.execution.(duration := Some(d), startTime := None, endTime := None)))
    else Some(r.(execution := r.execution.(startTime := None, endTime := None)))
  }

  /** The duration is computed only when both kinds of times are present. */
  predicate HasAllTimes(r: TestResult) {
    r.startTime.Some? && r.endTime.Some? && r.execution.startTime.Some? && r.execution.endTime.Some?
  }

  /** `calculateDuration` without the nil dereference: the execution's
      duration becomes end minus start when all four times are present and
      stays as it was otherwise; the execution's start and end are always
      cleared, and nothing else changes. */
  function CalculateDuration(r: TestResult): (o: TestResult)
    ensures HasAllTimes(r) ==> o.execution.duration == Some(r.execution.endTime.value - r.execution.startTime.value)
    ensures !HasAllTimes(r) ==> o.execution.duration == r.execution.duration
    ensures o.execution.startTime.None? && o.execution.endTime.None?
    ensures o.execution.status == r.execution.status && o.execution.stackTrace == r.execution.stackTrace
    ensures o.execution.thread == r.execution.thread
    ensures o.(execution := r.execution) == r
  {
    var d := if HasAllTimes(r) then Some(r.execution.endTime.value - r.execution.startTime.value) else r.execution.duration;
    r.(execution := r.execution.(duration := d, startTime := None, endTime := None))
  }

  /** Wherever the source does not crash it computes the corrected result. */
  lemma DurationAgreesWhereDefined(r: TestResult)
    ensures CalculateDurationAsWritten(r).Some? ==> CalculateDurationAsWritten(r).value == CalculateDuration(r)
  {
  }

  /** A result carrying top-level times but no execution start crashes the
      source. */
  lemma TopLevelTimesWithoutExecutionTimesCrash(r: TestResult)
    requires r.startTime.Some? && r.endTime.Some? && r.execution.startTime.None?
    ensures CalculateDurationAsWritten(r).None?
    ensures CalculateDuration(r).execution.duration == r.execution.duration
  {
  }

  /** Clearing the times makes the repair idempotent. */
  lemma CalculateDurationIdempotent(r: TestResult)
    ensures CalculateDuration(CalculateDuration(r)) == CalculateDuration(r)
  {
  }

  // ----------------------------------------------------------------- parse

  /** `parseFile` after the document has been read and decoded. */
  function Repair(fs: Files, input: string, r: TestResult): (o: TestResult)
    ensures o.attachments == ConvertAttachments(fs, input, r.attachments)
    ensures o.steps == ConvertSteps(fs, input, r.steps)
    ensures o.title == r.title && o.fields == r.fields && o.relations == r.relations
    ensures o.execution == CalculateDuration(r).execution
    ensures o.(attachments := r.attachments, steps := r.steps, execution := r.execution) == r
  {
    CalculateDuration(r.(attachments := ConvertAttachments(fs, input, r.attachments),
                         steps := ConvertSteps(fs, input, r.steps)))
  }

  /** The source's `parseFile` crashes exactly on the inputs of the
      `calculateDuration` finding and otherwise computes `Repair`. */
  lemma RepairAgreesWhereDefined(fs: Files, input: string, r: TestResult)
    ensures var pre := r.(attachments := ConvertAttachments(fs, input, r.attachments), steps := ConvertSteps(fs, input, r.steps));
      && (CalculateDurationAsWritten(pre).None? <==>
          r.startTime.Some? && r.endTime.Some? && (r.execution.startTime.None? || r.execution.endTime.None?))
      && (CalculateDurationAsWritten(pre).Some? ==> CalculateDurationAsWritten(pre).value == Repair(fs, input, r))
  {
    DurationAgreesWhereDefined(r.(attachments := ConvertAttachments(fs, input, r.attachments), steps := ConvertSteps(fs, input, r.steps)));
  }

  /** What `os.Stat` and `filepath.Walk` find at the input path. */
  datatype Input = StatFailed(err: string) | File(path: string) | Directory(path: string, walk: Result<seq<string>>)

  /** The loop of `Parse`: files whose extension is not ".json" are
      skipped, and so are files that cannot be read or decoded. */
  function ParseFiles(fs: Files, input: string, read: string -> Option<TestResult>, files: seq<string>): (r: seq<TestResult>)
    ensures |r| <= |files|
    decreases |files|
  {
    if |files| == 0 then []
    else
      var rest := ParseFiles(fs, input, read, files[1..]);
      if Ext(files[0]) != ".json" then rest
      else match read(files[0])
        case None => rest
        case Some(t) => [Repair(fs, input, t)] + rest
  }

  /** A file that is not ".json" or cannot be decoded adds nothing. */
  lemma SkippedFileAddsNothing(fs: Files, input: string, read: string -> Option<TestResult>, f: string, files: seq<string>)
    requires !HasSuffix(f, ".json") || read(f).None?
    ensures ParseFiles(fs, input, read, [f] + files) == ParseFiles(fs, input, read, files)
  {
    JsonExtIffSuffix(f);
    assert ([f] + files)[1..] == files;
  }

  /** A ".json" file that decodes contributes its repaired result, in
      front of the results of the files after it. */
  lemma KeptFileAddsRepair(fs: Files, input: string, read: string -> Option<TestResult>, f: string, files: seq<string>, t: TestResult)
    requires HasSuffix(f, ".json") && read(f) == Some(t)
    ensures ParseFiles(fs, input, read, [f] + files) == [Repair(fs, input, t)] + ParseFiles(fs, input, read, files)
  {
    JsonExtIffSuffix(f);
    assert ([f] + files)[1..] == files;
  }

  /** The results follow the file order: parsing `a + b` is parsing `a`
      and then `b`. */
  lemma {:induction false} ParseFilesAppend(fs: Files, input: string, read: string -> Option<TestResult>, a: seq<string>, b: seq<string>)
    ensures ParseFiles(fs, input, read, a + b) == ParseFiles(fs, input, read, a) + ParseFiles(fs, input, read, b)
    decreases |a|
  {
    if |a| == 0 {
      assert a + b == b;
    } else {
      assert (a + b)[0] == a[0];
      assert (a + b)[1..] == a[1..] + b;
      ParseFilesAppend(fs, input, read, a[1..], b);
    }
  }

  /** `Parse`; attachment paths are repaired relative to the input path
      itself, directory or not. */
  function Parse(fs: Files, read: string -> Option<TestResult>, input: Input): (r: Result<seq<TestResult>>)
    ensures input.StatFailed? ==> r == Err("failed to get file info: " + input.err)
    ensures input.Directory? && input.walk.Err? ==> r == Err("failed to walk path: " + input.walk.msg)
    ensures input.Directory? && input.walk == Ok([]) ==> r == Ok([])
    ensures input.File? ==> r == Ok(ParseFiles(fs, input.path, read, [input.path]))
    ensures input.Directory? && input.walk.Ok? ==> r == Ok(ParseFiles(fs, input.path, read, input.walk.value))
  {
    match input
    case StatFailed(e) => Err("failed to get file info: " + e)
    case File(p) => Ok(ParseFiles(fs, p, read, [p]))
    case Directory(p, walk) =>
      match walk
      case Err(e) => Err("failed to walk path: " + e)
      case Ok(files) => Ok(ParseFiles(fs, p, read, files))
  }
}

=== FILE: results.dfy ===
/** The canonical result model every report decoder produces and the API
    converters consume (internal/models/result). The shapes follow how the
    decoders and converters use the fields; times and durations are opaque
    integers. */
module Results {
  import opened Wrappers
  import opened Text

  /** A file reference (`filePath`) or raw bytes (`content`). */
  datatype Attachment = Attachment(
    name: string,
    filePath: Option<string>,
    contentType: string,
    content: Option<seq<byte>>)

  datatype StepExecution = StepExecution(
    startTime: Option<int>,
    endTime: Option<int>,
    status: string,
    duration: Option<int>,
    comment: string,
    attachments: seq<Attachment>)

  /** A step; `action` is the step's label (`Data.Action`). */
  datatype Step = Step(action: string, execution: StepExecution, steps: seq<Step>)

  datatype Execution = Execution(
    startTime: Option<int>,
    endTime: Option<int>,
    status: string,
    duration: Option<int>,
    stackTrace: Option<string>,
    thread: Option<string>)

  /** The suite path from root to leaf. `None` is Go's nil slice, which the
      v1 converter distinguishes from an empty one. */
  datatype Relation = Relation(suite: Option<seq<string>>)

  datatype TestResult = TestResult(
    title: string,
    signature: Option<string>,
    testOpsId: Option<int>,
    execution: Execution,
    fields: map<string, string>,
    attachments: seq<Attachment>,
    steps: seq<Step>,
    stepType: string,
    params: map<string, string>,
    paramGroups: seq<seq<string>>,
    relations: Relation,
    muted: bool,
    message: Option<string>,
    startTime: Option<int>,
    endTime: Option<int>,
    duration: Option<int>)

  /** A step tree reduced to its labels: what "the converter keeps the
      step tree's shape, order and names" is stated over. */
  datatype Outline = Outline(name: string, children: seq<Outline>)

  function StepOutline(s: Step): Outline
    decreases s, 1
  {
    Outline(s.action, StepOutlines(s.steps))
  }

  function StepOutlines(ss: seq<Step>): (r: seq<Outline>)
    ensures |r| == |ss|
    decreases ss, 0
  {
    seq(|ss|, i requires 0 <= i < |ss| => StepOutline(ss[i]))
  }

  const NoTimes := Execution(None, None, "", None, None, None)

  /** The statuses the receiving service accepts for a result. */
  predicate IsResultStatus(s: string) {
    s == "passed" || s == "failed" || s == "skipped" || s == "invalid" || s == "blocked"
  }

  /** A result whose fields all hold Go's zero values. */
  const EmptyResult := TestResult("", None, None, NoTimes, map[], [], [], "", map[], [],
                                  Relation(None), false, None, None, None, None)
}

=== FILE: services.dfy ===
/** The get-or-create services (internal/service/env/env.go,
    internal/service/milestone/milestone.go) and custom-field removal
    (internal/service/fields/custom.go). Each returns its answer together
    with the trace of client calls it makes; the client's answers are
    parameters. */
module Services {
  import opened Wrappers
  import opened Text

  // ---------------------------------------------------------- environments

  datatype Environment = Environment(title: string, id: int, slug: string)

  datatype EnvCall =
    | GetEnvironments(project: string)
    | CreateEnvironment(project: string, title: string, description: string, slug: string, host: string)

  /** The index of the first environment with `slug`. */
  function FirstWithSlug(envs: seq<Environment>, slug: string): (r: Option<nat>)
    ensures r.None? <==> forall i | 0 <= i < |envs| :: envs[i].slug != slug
    ensures r.Some? ==>
      && r.value < |envs| && envs[r.value].slug == slug
      && forall j | 0 <= j < r.value :: envs[j].slug != slug
    decreases |envs|
  {
    if |envs| == 0 then None
    else if envs[0].slug == slug then Some(0)
    else
      match FirstWithSlug(envs[1..], slug)
      case None => None
      case Some(i) => Some(i + 1)
  }

  /** `CreateEnvironment`: the existing environment with the same slug
      (the first one) if there is one, otherwise whatever creating answers.
      Only the slug is compared. */
  function CreateEnvironmentService(
    lookup: Result<seq<Environment>>, create: Result<Environment>,
    project: string, title: string, description: string, slug: string, host: string)
    : (out: (Result<Environment>, seq<EnvCall>))
    ensures lookup.Err? ==> out == (Err("failed to get environments: " + lookup.msg), [GetEnvironments(project)])
    ensures lookup.Ok? && FirstWithSlug(lookup.value, slug).Some? ==>
      out == (Ok(lookup.value[FirstWithSlug(lookup.value, slug).value]), [GetEnvironments(project)])
    ensures lookup.Ok? && FirstWithSlug(lookup.value, slug).None? ==>
      out == (create, [GetEnvironments(project), CreateEnvironment(project, title, description, slug, host)])
  {
    match lookup
    case Err(e) => (Err("failed to get environments: " + e), [GetEnvironments(project)])
    case Ok(envs) =>
      match FirstWithSlug(envs, slug)
      case Some(i) => (Ok(envs[i]), [GetEnvironments(project)])
      case None => (create, [GetEnvironments(project), CreateEnvironment(project, title, description, slug, host)])
  }

  /** A create is issued exactly when the lookup succeeded and no
      environment has the slug. */
  lemma CreatesOnlyWhenMissing(
    lookup: Result<seq<Environment>>, create: Result<Environment>,
    project: string, title: string, description: string, slug: string, host: string)
    ensures var out := CreateEnvironmentService(lookup, create, project, title, description, slug, host);
      |out.1| == 2 <==> lookup.Ok? && forall i | 0 <= i < |lookup.value| :: lookup.value[i].slug != slug
  {
  }

  /** Once the created environment is listed, asking again returns it and
      creates nothing. */
  lemma EnvironmentCreatedOnce(
    envs: seq<Environment>, created: Environment, create: Result<Environment>,
    project: string, title: string, description: string, slug: string, host: string)
    requires CreateEnvironmentService(Ok(envs), Ok(created), project, title, description, slug, host).1
      == [GetEnvironments(project), CreateEnvironment(project, title, description, slug, host)]
    requires created.slug == slug
    ensures CreateEnvironmentService(Ok(envs + [created]), create, project, title, description, slug, host)
      == (Ok(created), [GetEnvironments(project)])
  {
    var all := envs + [created];
    assert all[|envs|] == created;
    assert forall i | 0 <= i < |envs| :: all[i] == envs[i];
  }

  // ------------------------------------------------------------ milestones

  datatype Milestone = Milestone(title: string, id: int)

  datatype MilestoneCall =
    | GetMilestones(project: string, name: string)
    | CreateMilestone(project: string, name: string, description: string, status: string, due: int)

  /** `CreateMilestone`: the first milestone the search finds, with no
      title comparison, otherwise whatever creating answers. */
  function CreateMilestoneService(
    search: Result<seq<Milestone>>, create: Result<Milestone>,
    project: string, name: string, description: string, status: string, due: int)
    : (out: (Result<Milestone>, seq<MilestoneCall>))
    ensures search.Err? ==> out == (Err("failed to get milestones: " + search.msg), [GetMilestones(project, name)])
    ensures search.Ok? && |search.value| > 0 ==> out == (Ok(search.value[0]), [GetMilestones(project, name)])
    ensures search == Ok([]) ==>
      out == (create, [GetMilestones(project, name), CreateMilestone(project, name, description, status, due)])
    ensures out.1[0] == GetMilestones(project, name)
  {
    match search
    case Err(e) => (Err("failed to get milestones: " + e), [GetMilestones(project, name)])
    case Ok(mss) =>
      if |mss| > 0 then (Ok(mss[0]), [GetMilestones(project, name)])
      else (create, [GetMilestones(project, name), CreateMilestone(project, name, description, status, due)])
  }

  /** Once the search finds the created milestone, asking again returns it
      and creates nothing. */
  lemma MilestoneCreatedOnce(
    created: Milestone, create: Result<Milestone>,
    project: string, name: string, description: string, status: string, due: int)
    ensures CreateMilestoneService(Ok([created]), create, project, name, description, status, due)
      == (Ok(created), [GetMilestones(project, name)])
  {
  }

  /** Creating is the only way the answer can be one the search did not
      return. */
  lemma MilestoneFromSearchOrCreate(
    search: Result<seq<Milestone>>, create: Result<Milestone>,
    project: string, name: string, description: string, status: string, due: int)
    ensures var out := CreateMilestoneService(search, create, project, name, description, status, due);
      out.0.Ok? ==> (search.Ok? && out.0.value in search.value) || (|out.1| == 2 && out.0 == create)
  {
  }

  // --------------------------------------------------------- custom fields

  datatype CustomField = CustomField(id: int, title: string)

  datatype RemoveParams = RemoveParams(fieldId: Option<int>, all: bool)

  datatype FieldCall = GetCustomFields | RemoveCustomFieldById(id: int)

  /** The message for a removal that failed. */
  function RemoveFailure(f: CustomField, err: string): string {
    "failed to remove custom field " + IntToDecimal(f.id) + " with title " + f.title + ": " + err
  }

  function RemoveCalls(fields: seq<CustomField>): (r: seq<FieldCall>)
    ensures |r| == |fields|
    ensures forall i | 0 <= i < |fields| :: r[i] == RemoveCustomFieldById(fields[i].id)
  {
    seq(|fields|, i requires 0 <= i < |fields| => RemoveCustomFieldById(fields[i].id))
  }

  /** Removal fails for `f` (`remove` answers the client's error, if any). */
  predicate RemoveFails(remove: int -> Option<string>, f: CustomField) {
    remove(f.id).Some?
  }

  /** The loop over the listed fields: each is removed in list order, and
      the first failure ends the loop (see `FirstFailureStops`). */
  function RemoveEach(remove: int -> Option<string>, fields: seq<CustomField>): (out: (Option<string>, seq<FieldCall>))
    ensures out.0.None? <==> forall i | 0 <= i < |fields| :: !RemoveFails(remove, fields[i])
    ensures out.0.None? ==> out.1 == RemoveCalls(fields)
    decreases |fields|
  {
    if |fields| == 0 then (None, [])
    else
      var f := fields[0];
      assert forall i | 1 <= i < |fields| :: fields[i] == fields[1..][i - 1];
      match remove(f.id)
      case Some(e) => (Some(RemoveFailure(f, e)), [RemoveCustomFieldById(f.id)])
      case None =>
        var rest := RemoveEach(remove, fields[1..]);
        assert RemoveCalls(fields) == [RemoveCustomFieldById(f.id)] + RemoveCalls(fields[1..]);
        (rest.0, [RemoveCustomFieldById(f.id)] + rest.1)
  }

  /** When field `k` is the first whose removal fails, the loop calls
      removal for fields 0 to `k` and stops with field `k`'s message. */
  lemma {:induction false} FirstFailureStops(remove: int -> Option<string>, fields: seq<CustomField>, k: nat)
    requires k < |fields| && RemoveFails(remove, fields[k])
    requires forall j | 0 <= j < k :: !RemoveFails(remove, fields[j])
    ensures RemoveEach(remove, fields)
      == (Some(RemoveFailure(fields[k], remove(fields[k].id).value)), RemoveCalls(fields[..k + 1]))
    decreases k
  {
    if k > 0 {
      var tail := fields[1..];
      assert forall j | 0 <= j < k - 1 :: tail[j] == fields[j + 1];
      FirstFailureStops(remove, tail, k - 1);
      assert tail[..k] == fields[1..k + 1];
      assert RemoveCalls(fields[..k + 1]) == [RemoveCustomFieldById(fields[0].id)] + RemoveCalls(tail[..k]);
    } else {
      assert RemoveCalls(fields[..1]) == [RemoveCustomFieldById(fields[0].id)];
    }
  }

  /** `RemoveCustomFields`: a given id is removed alone, whatever `all`
      says; with `all` the listed fields are removed in order; with neither
      nothing is called. */
  function RemoveCustomFields(
    params: RemoveParams, list: Result<seq<CustomField>>, remove: int -> Option<string>)
    : (out: (Option<string>, seq<FieldCall>))
    ensures params.fieldId.None? && !params.all ==> out == (Some("fieldID or all is required"), [])
    ensures params.fieldId.Some? ==> out == (remove(params.fieldId.value), [RemoveCustomFieldById(params.fieldId.value)])
    ensures params.fieldId.None? && params.all && list.Err? ==>
      out == (Some("failed to get custom fields: " + list.msg), [GetCustomFields])
    ensures params.fieldId.None? && params.all && list.Ok? ==>
      var each := RemoveEach(remove, list.value);
      out == (each.0, [GetCustomFields] + each.1)
  {
    match params.fieldId
    case Some(id) => (remove(id), [RemoveCustomFieldById(id)])
    case None =>
      if !params.all then (Some("fieldID or all is required"), [])
      else
        match list
        case Err(e) => (Some("failed to get custom fields: " + e), [GetCustomFields])
        case Ok(fields) =>
          var each := RemoveEach(remove, fields);
          (each.0, [GetCustomFields] + each.1)
  }

  /** An empty list succeeds after the single list call. */
  lemma EmptyListRemovesNothing(remove: int -> Option<string>)
    ensures RemoveCustomFields(RemoveParams(None, true), Ok([]), remove) == (None, [GetCustomFields])
  {
    assert [GetCustomFields] + [] == [GetCustomFields];
  }
}

=== FILE: steplevel.dfy ===
/** internal/parsers/xctest/steplevel.go: the policy deciding which internal
    activities of an XCTest run become steps. */
module StepLevels {
  import opened Text

  /** `All` keeps every activity, `User` hides internal activities at every
      depth, `FirstLevel` hides them only among the top-level activities. */
  datatype StepLevel = All | User | FirstLevel

  /** The numeric value the source gives each level through `iota`. */
  function Ordinal(l: StepLevel): (r: int)
    ensures 0 <= r <= 2
    ensures r == 0 <==> l == All
    ensures r == 1 <==> l == User
    ensures r == 2 <==> l == FirstLevel
  {
    match l
    case All => 0
    case User => 1
    case FirstLevel => 2
  }

  /** `a` and `b` are equal once both are lower-cased (ASCII). */
  predicate EqualFold(a: string, b: string) {
    |a| == |b| && forall i | 0 <= i < |a| :: LowerChar(a[i]) == LowerChar(b[i])
  }

  /** `parseStepLevel`: "all" and "user" in any letter case select those
      levels; every other string, the empty default included, selects
      `FirstLevel`. */
  function ParseStepLevel(s: string): (r: StepLevel)
    ensures r == All <==> EqualFold(s, "all")
    ensures r == User <==> EqualFold(s, "user")
    ensures r == FirstLevel <==> !EqualFold(s, "all") && !EqualFold(s, "user")
  {
    LowerIsFold(s, "all");
    LowerIsFold(s, "user");
    match ToLower(s)
    case "all" => All
    case "user" => User
    case _ => FirstLevel
  }

  /** Comparing the lower-cased input with a lower-case literal is a
      case-insensitive comparison. */
  lemma LowerIsFold(s: string, lit: string)
    requires forall i | 0 <= i < |lit| :: LowerChar(lit[i]) == lit[i]
    ensures ToLower(s) == lit <==> EqualFold(s, lit)
  {
    if EqualFold(s, lit) {
      assert forall i | 0 <= i < |s| :: ToLower(s)[i] == lit[i];
    }
  }

  /** Inputs that differ only in letter case select the same level. */
  lemma ParseIgnoresCase(a: string, b: string)
    requires EqualFold(a, b)
    ensures ParseStepLevel(a) == ParseStepLevel(b)
  {
    assert ToLower(a) == ToLower(b) by {
      assert forall i | 0 <= i < |a| :: ToLower(a)[i] == ToLower(b)[i];
    }
  }
}

=== FILE: text.dfy ===
/** String and byte helpers standing in for the parts of Go's `strings` and
    `strconv` packages that the modelled code calls. Strings are `seq<char>`;
    case mapping is ASCII-only (every comparison the model makes is against an
    ASCII literal, and no non-ASCII rune lower-cases to an ASCII letter used in
    those literals). */
module Text {
  import opened Wrappers

  /** One byte of an attachment payload. */
  type byte = b: int | 0 <= b < 256

  /** The bytes of a literal written with characters below U+0100. */
  function Bytes(s: string): (r: seq<byte>)
    ensures |r| == |s|
    ensures forall i | 0 <= i < |s| :: r[i] == s[i] as int % 256
  {
    seq(|s|, i requires 0 <= i < |s| => s[i] as int % 256)
  }

  /** The UTF-8 encoding of one character, as Go's `[]byte(string)` writes
      it. */
  function Utf8Char(c: char): (r: seq<byte>)
    ensures 1 <= |r| <= 4
    ensures c as int < 0x80 <==> |r| == 1
    ensures |r| == 1 ==> r[0] == c as int
    ensures |r| > 1 ==> forall k | 1 <= k < |r| :: 0x80 <= r[k] < 0xC0
  {
    var n := c as int;
    if n < 0x80 then [n]
    else if n < 0x800 then [0xC0 + n / 64, 0x80 + n % 64]
    else if n < 0x10000 then [0xE0 + n / 4096, 0x80 + (n / 64) % 64, 0x80 + n % 64]
    else [0xF0 + (n / 262144) % 8, 0x80 + (n / 4096) % 64, 0x80 + (n / 64) % 64, 0x80 + n % 64]
  }

  /** The UTF-8 encoding of a string. */
  function Utf8(s: string): (r: seq<byte>)
    ensures |s| <= |r| <= 4 * |s|
    ensures |r| == 0 <==> |s| == 0
    decreases |s|
  {
    if |s| == 0 then [] else Utf8Char(s[0]) + Utf8(s[1..])
  }

  /** An ASCII string encodes to its own character codes. */
  lemma {:induction false} Utf8OfAscii(s: string)
    requires forall i | 0 <= i < |s| :: s[i] as int < 0x80
    ensures Utf8(s) == Bytes(s)
    decreases |s|
  {
    if |s| > 0 {
      assert forall i | 0 <= i < |s[1..]| :: s[1..][i] == s[i + 1];
      Utf8OfAscii(s[1..]);
    }
  }

  predicate HasPrefix<T(==)>(s: seq<T>, p: seq<T>) {
    |p| <= |s| && s[..|p|] == p
  }

  predicate HasSuffix<T(==)>(s: seq<T>, p: seq<T>) {
    |p| <= |s| && s[|s| - |p|..] == p
  }

  /** `sub` occurs in `s` starting at index `i`. */
  predicate OccursAt<T(==)>(s: seq<T>, sub: seq<T>, i: int) {
    0 <= i && i + |sub| <= |s| && s[i..i + |sub|] == sub
  }

  /** The first occurrence of `sub` in `s` at or after `from`. */
  function IndexFrom<T(==)>(s: seq<T>, sub: seq<T>, from: nat): (r: Option<nat>)
    requires from <= |s|
    ensures r.Some? ==> from <= r.value && OccursAt(s, sub, r.value)
    ensures r.Some? ==> forall j | from <= j < r.value :: !OccursAt(s, sub, j)
    ensures r.None? ==> forall j | from <= j <= |s| :: !OccursAt(s, sub, j)
    decreases |s| - from
  {
    if OccursAt(s, sub, from) then Some(from)
    else if from == |s| then None
    else IndexFrom(s, sub, from + 1)
  }

  /** Go's `strings.Index`, as an option: the first occurrence of `sub`. */
  function IndexOf<T(==)>(s: seq<T>, sub: seq<T>): (r: Option<nat>)
    ensures r.Some? ==> OccursAt(s, sub, r.value)
    ensures r.Some? ==> forall j | 0 <= j < r.value :: !OccursAt(s, sub, j)
    ensures r.None? ==> forall j | 0 <= j <= |s| :: !OccursAt(s, sub, j)
  {
    IndexFrom(s, sub, 0)
  }

  /** Go's `strings.Replace(s, old, new, 1)`: only the first occurrence is
      replaced (an empty `target` matches at the start). */
  function ReplaceFirst(s: string, target: string, replacement: string): (r: string)
    ensures IndexOf(s, target).None? ==> r == s
    ensures IndexOf(s, target).Some? ==>
      var i := IndexOf(s, target).value;
      r == s[..i] + replacement + s[i + |target|..]
  {
    match IndexOf(s, target)
    case None => s
    case Some(i) => s[..i] + replacement + s[i + |target|..]
  }

  /** Go's `strings.Split` with a one-character separator. */
  function Split(s: string, sep: char): (parts: seq<string>)
    ensures |parts| >= 1
    ensures forall k | 0 <= k < |parts| :: sep !in parts[k]
    decreases |s|
  {
    if |s| == 0 then [""]
    else
      var rest := Split(s[1..], sep);
      if s[0] == sep then [""] + rest
      else [[s[0]] + rest[0]] + rest[1..]
  }

  /** Go's `strings.Join`. */
  function Join(parts: seq<string>, sep: string): string
    decreases |parts|
  {
    if |parts| == 0 then ""
    else if |parts| == 1 then parts[0]
    else parts[0] + sep + Join(parts[1..], sep)
  }

  /** Splitting and joining again gives back the original string. */
  lemma {:induction false} JoinSplit(s: string, sep: char)
    ensures Join(Split(s, sep), [sep]) == s
    decreases |s|
  {
    if |s| > 0 {
      var rest := Split(s[1..], sep);
      JoinSplit(s[1..], sep);
      if s[0] == sep {
        assert Split(s, sep) == [""] + rest;
        assert Join([""] + rest, [sep]) == "" + [sep] + Join(rest, [sep]);
        assert s == [sep] + s[1..];
      } else {
        var parts := [[s[0]] + rest[0]] + rest[1..];
        assert Split(s, sep) == parts;
        if |rest| == 1 {
          assert Join(rest, [sep]) == rest[0];
        } else {
          assert Join(rest, [sep]) == rest[0] + [sep] + Join(rest[1..], [sep]);
          assert parts[1..] == rest[1..];
        }
        assert s == [s[0]] + s[1..];
      }
    }
  }

  /** A string without the separator splits into itself. */
  lemma {:induction false} SplitWithoutSep(s: string, sep: char)
    requires sep !in s
    ensures Split(s, sep) == [s]
    decreases |s|
  {
    if |s| > 0 {
      assert sep !in s[1..] by { assert forall k | 0 <= k < |s[1..]| :: s[1..][k] == s[k + 1]; }
      SplitWithoutSep(s[1..], sep);
      assert [s[0]] + s[1..] == s;
    }
  }

  /** Splitting at a separator splits each side. */
  lemma {:induction false} SplitAtSep(a: string, b: string, sep: char)
    ensures Split(a + [sep] + b, sep) == Split(a, sep) + Split(b, sep)
    decreases |a|
  {
    var s := a + [sep] + b;
    if |a| == 0 {
      assert s == [sep] + b;
      assert s[1..] == b;
    } else {
      assert s[0] == a[0];
      assert s[1..] == a[1..] + [sep] + b;
      SplitAtSep(a[1..], b, sep);
    }
  }

  /** The last part of a split is what follows the last separator. */
  lemma LastPartAfterSep(a: string, b: string, sep: char)
    requires sep !in b
    ensures var parts := Split(a + [sep] + b, sep); parts[|parts| - 1] == b
  {
    SplitAtSep(a, b, sep);
    SplitWithoutSep(b, sep);
  }

  /** A first part without the separator comes off the front of a split. */
  lemma SplitBefore(a: string, rest: string, sep: char)
    requires sep !in a
    ensures Split(a + [sep] + rest, sep) == [a] + Split(rest, sep)
  {
    SplitAtSep(a, rest, sep);
    SplitWithoutSep(a, sep);
  }

  /** Joining parts without the separator and splitting again gives the
      parts back. */
  lemma {:induction false} SplitJoin(parts: seq<string>, sep: char)
    requires |parts| > 0
    requires forall k | 0 <= k < |parts| :: sep !in parts[k]
    ensures Split(Join(parts, [sep]), sep) == parts
    decreases |parts|
  {
    if |parts| == 1 {
      SplitWithoutSep(parts[0], sep);
    } else {
      var rest := parts[1..];
      assert forall k | 0 <= k < |rest| :: rest[k] == parts[k + 1];
      SplitJoin(rest, sep);
      SplitBefore(parts[0], Join(rest, [sep]), sep);
      assert [parts[0]] + rest == parts;
    }
  }

  /** The number of occurrences of `c` in `s`. */
  function Count(s: string, c: char): nat
    decreases |s|
  {
    if |s| == 0 then 0 else (if s[0] == c then 1 else 0) + Count(s[1..], c)
  }

  /** A split has one part more than there are separators. */
  lemma {:induction false} SplitCountsSeparators(s: string, sep: char)
    ensures |Split(s, sep)| == Count(s, sep) + 1
    decreases |s|
  {
    if |s| > 0 {
      SplitCountsSeparators(s[1..], sep);
    }
  }

  /** ASCII lower-casing of one character. */
  function LowerChar(c: char): char {
    if 'A' <= c <= 'Z' then (c as int + 32) as char else c
  }

  /** Go's `strings.ToLower`, restricted to ASCII letters. */
  function ToLower(s: string): (r: string)
    ensures |r| == |s|
    ensures forall i | 0 <= i < |s| :: r[i] == LowerChar(s[i])
  {
    seq(|s|, i requires 0 <= i < |s| => LowerChar(s[i]))
  }

  /** Go's `unicode.IsSpace`. */
  predicate IsSpace(c: char) {
    var n := c as int;
    n == 0x09 || n == 0x0A || n == 0x0B || n == 0x0C || n == 0x0D || n == 0x20
    || n == 0x85 || n == 0xA0 || n == 0x1680 || (0x2000 <= n <= 0x200A)
    || n == 0x2028 || n == 0x2029 || n == 0x202F || n == 0x205F || n == 0x3000
  }

  /** Removes leading white space; what is removed is white space only. */
  function TrimLeft(s: string): (r: string)
    ensures |r| <= |s| && r == s[|s| - |r|..]
    ensures |r| > 0 ==> !IsSpace(r[0])
    ensures forall k | 0 <= k < |s| - |r| :: IsSpace(s[k])
    decreases |s|
  {
    if |s| > 0 && IsSpace(s[0]) then TrimLeft(s[1..]) else s
  }

  /** Removes trailing white space; what is removed is white space only. */
  function TrimRight(s: string): (r: string)
    ensures |r| <= |s| && r == s[..|r|]
    ensures |r| > 0 ==> !IsSpace(r[|r| - 1])
    ensures forall k | |r| <= k < |s| :: IsSpace(s[k])
    decreases |s|
  {
    if |s| > 0 && IsSpace(s[|s| - 1]) then TrimRight(s[..|s| - 1]) else s
  }

  /** Go's `strings.TrimSpace`. */
  function TrimSpace(s: string): string {
    TrimRight(TrimLeft(s))
  }

  predicate IsDigit(c: char) {
    '0' <= c <= '9'
  }

  function DigitChar(d: nat): char
    requires d < 10
  {
    ('0' as int + d) as char
  }

  /** Decimal digits of a natural number, most significant first. */
  function NatToDecimal(n: nat): (r: string)
    ensures |r| >= 1
    ensures forall i | 0 <= i < |r| :: IsDigit(r[i])
    decreases n
  {
    if n < 10 then [DigitChar(n)] else NatToDecimal(n / 10) + [DigitChar(n % 10)]
  }

  /** Go's `fmt.Sprintf("%d", n)`. */
  function IntToDecimal(n: int): string {
    if n < 0 then "-" + NatToDecimal(-n) else NatToDecimal(n)
  }

  /** The value of a string of decimal digits. */
  function DigitsValue(s: string): nat
    requires forall i | 0 <= i < |s| :: IsDigit(s[i])
    decreases |s|
  {
    if |s| == 0 then 0
    else
      assert IsDigit(s[|s| - 1]);
      DigitsValue(s[..|s| - 1]) * 10 + (s[|s| - 1] as int - '0' as int)
  }

  const Int64Min: int := -0x8000_0000_0000_0000
  const Int64Max: int := 0x7FFF_FFFF_FFFF_FFFF

  predicate IsInt64(n: int) {
    Int64Min <= n <= Int64Max
  }

  /** Go's `strconv.ParseInt(s, 10, 64)`: an optional sign, then at least one
      decimal digit and nothing else, within the 64-bit range. */
  function ParseInt64(s: string): (r: Option<int>)
    ensures r.Some? ==> IsInt64(r.value)
    ensures r.Some? ==> |s| > 0 && forall i | 0 <= i < |s| :: IsDigit(s[i]) || (i == 0 && (s[i] == '+' || s[i] == '-'))
  {
    var negative := |s| > 0 && s[0] == '-';
    var digits := if |s| > 0 && (s[0] == '+' || s[0] == '-') then s[1..] else s;
    if |digits| == 0 || !(forall i | 0 <= i < |digits| :: IsDigit(digits[i])) then None
    else
      var magnitude: int := DigitsValue(digits);
      var v := if negative then 0 - magnitude else magnitude;
      if IsInt64(v) then Some(v) else None
  }

  /** Unsigned digits within range parse to their value. */
  lemma ParseOfDigits(s: string)
    requires |s| > 0 && forall i | 0 <= i < |s| :: IsDigit(s[i])
    requires DigitsValue(s) <= Int64Max
    ensures ParseInt64(s) == Some(DigitsValue(s))
  {
    assert IsDigit(s[0]);
  }

  lemma {:induction false} DigitsOfDecimal(n: nat)
    ensures DigitsValue(NatToDecimal(n)) == n
    decreases n
  {
    if n >= 10 {
      var s := NatToDecimal(n);
      DigitsOfDecimal(n / 10);
      assert s[..|s| - 1] == NatToDecimal(n / 10);
    }
  }

  /** Formatting a 64-bit integer in decimal and parsing it back is the identity. */
  lemma ParseFormatRoundTrip(n: int)
    requires IsInt64(n)
    ensures ParseInt64(IntToDecimal(n)) == Some(n)
  {
    if n < 0 {
      var d := NatToDecimal(-n);
      var s := "-" + d;
      DigitsOfDecimal(-n);
      assert s[0] == '-' && s[1..] == d;
      assert forall i | 0 <= i < |d| :: IsDigit(d[i]);
      assert ParseInt64(s) == Some(0 - DigitsValue(d));
    } else {
      var d := NatToDecimal(n);
      DigitsOfDecimal(n);
      assert IsDigit(d[0]);
      assert forall i | 0 <= i < |d| :: IsDigit(d[i]);
      assert ParseInt64(d) == Some(DigitsValue(d));
    }
  }
}

=== FILE: token.dfy ===
/** internal/token.go: normalising an API token before it is stored in the
    local configuration. Reading and writing the configuration file is not
    modelled; only the pure update applied to the configuration record is. */
module Token {
  import opened Text

  /** The persisted configuration record (internal/config.go). */
  datatype Config = Config(token: string, projectCode: string, runId: int)

  /** `cleanToken`: strip leading and trailing white space. */
  function CleanToken(token: string): (r: string)
    ensures |r| == 0 || (!IsSpace(r[0]) && !IsSpace(r[|r| - 1]))
    ensures exists i, j | 0 <= i <= j <= |token| :: r == token[i..j]
  {
    var left := TrimLeft(token);
    var r := TrimRight(left);
    assert r == token[|token| - |left|..][..|r|] == token[|token| - |left|..|token| - |left| + |r|];
    r
  }

  /** `token` is `r` at index `i` with only white space around it. */
  ghost predicate SurroundedBySpace(token: string, r: string, i: int) {
    && 0 <= i <= |token| - |r|
    && token[i..i + |r|] == r
    && (forall k | 0 <= k < i :: IsSpace(token[k]))
    && (forall k | i + |r| <= k < |token| :: IsSpace(token[k]))
  }

  /** The white space removed is exactly what surrounds the result. */
  lemma CleanTokenRemovesOnlySpace(token: string)
    ensures exists i :: SurroundedBySpace(token, CleanToken(token), i)
  {
    var left := TrimLeft(token);
    var r := TrimRight(left);
    var i := |token| - |left|;
    assert token[i..] == left;
    assert token[i..i + |r|] == left[..|r|] == r;
    forall k | i + |r| <= k < |token|
      ensures IsSpace(token[k])
    {
      assert token[k] == left[k - i];
    }
    assert CleanToken(token) == r;
    assert SurroundedBySpace(token, r, i);
  }

  /** A token without surrounding white space is returned unchanged. */
  lemma CleanTokenKeepsTrimmed(token: string)
    requires |token| == 0 || (!IsSpace(token[0]) && !IsSpace(token[|token| - 1]))
    ensures CleanToken(token) == token
  {
  }

  /** Cleaning twice is the same as cleaning once. */
  lemma CleanTokenIdempotent(token: string)
    ensures CleanToken(CleanToken(token)) == CleanToken(token)
  {
    CleanTokenKeepsTrimmed(CleanToken(token));
  }

  /** The closure `UpdateToken` hands to `UpdateConfig`. */
  function ApplyToken(c: Config, token: string): (r: Config)
    ensures r.token == CleanToken(token)
    ensures r.projectCode == c.projectCode && r.runId == c.runId
  {
    c.(token := CleanToken(token))
  }
}

=== FILE: utils.dfy ===
/** pkg/utils.go: the generic membership test used by the decoder's
    supertype check. */
module Utils {

  /** `Contains(values, v)`: a linear scan that stops at the first element
      equal to `v`. */
  function Contains<T(==)>(values: seq<T>, v: T): (r: bool)
    ensures r <==> exists i | 0 <= i < |values| :: values[i] == v
    decreases |values|
  {
    if |values| == 0 then false
    else if values[0] == v then true
    else
      assert forall i | 1 <= i < |values| :: values[i] == values[1..][i - 1];
      Contains(values[1..], v)
  }

  /** Nothing is contained in the empty slice. */
  lemma ContainsEmpty<T>(v: T)
    ensures !Contains([], v)
  {
  }

  /** Appending elements never turns a true answer false. */
  lemma ContainsAppend<T>(values: seq<T>, more: seq<T>, v: T)
    requires Contains(values, v)
    ensures Contains(values + more, v)
  {
    var i :| 0 <= i < |values| && values[i] == v;
    assert (values + more)[i] == v;
  }

  /** The answer depends only on which elements are present, not on their
      order or multiplicity. */
  lemma ContainsOrderIndependent<T>(a: seq<T>, b: seq<T>, v: T)
    requires multiset(a) == multiset(b)
    ensures Contains(a, v) == Contains(b, v)
  {
    assert Contains(a, v) <==> v in multiset(a);
    assert Contains(b, v) <==> v in multiset(b);
  }
}

=== FILE: wrappers.dfy ===
/** Option and Result types shared by every module of the model.

    A Go function that returns `(T, error)` is modelled as a function returning
    `Result<T>`; the error text is kept as a string because several operations
    promise a particular wrapped message. A Go `panic` (failed type assertion,
    nil dereference, slice out of range) is also modelled as an `Err`. */
module Wrappers {

  datatype Option<+T> = None | Some(value: T) {

    predicate IsFailure() {
      None?
    }

    function PropagateFailure<U>(): Option<U>
      requires None?
    {
      None
    }

    function Extract(): T
      requires Some?
    {
      value
    }

    /** The value, or `default` when there is none (Go's `pkg.Deref`). */
    function GetOr(default: T): T {
      match this
      case Some(v) => v
      case None => default
    }
  }

  datatype Result<+T> = Ok(value: T) | Err(msg: string) {

    predicate IsFailure() {
      Err?
    }

    function PropagateFailure<U>(): Result<U>
      requires Err?
    {
      Err(msg)
    }

    function Extract(): T
      requires Ok?
    {
      value
    }

    function ToOption(): Option<T> {
      match this
      case Ok(v) => Some(v)
      case Err(_) => None
    }
  }
}

=== FILE: xcdecoder.dfy ===
/** internal/xcresult/decoder.go: the generic decoder for the JSON that
    `xcresulttool` prints. Every value in that JSON is an object whose `_type`
    names its type (`_name`) and, through `_supertype`, the chain of types it
    derives from. A Go panic inside the decoder (a failed type assertion, a
    type mismatch) is an `Err` here. */
module XcDecoder {
  import opened Wrappers
  import opened Text
  import Utils

  /** A decoded JSON value, as `encoding/json` produces it for `any`.
      Numbers keep their literal text. */
  datatype Json =
    | JNull
    | JBool(b: bool)
    | JNum(literal: string)
    | JStr(s: string)
    | JArr(items: seq<Json>)
    | JObj(fields: map<string, Json>)

  /** A JSON object: what the Go code holds as `map[string]any`. */
  type Obj = j: Json | j.JObj? witness JObj(map[])

  /** The messages of the type assertions that fail, as Go's runtime words
      them. */
  const ConversionPrefix: string := "interface conversion: "
  const NotMapSuffix: string := " is not map[string]interface {}"
  const ElementNotMap: string := ConversionPrefix + "element" + NotMapSuffix
  const NameNotStringConversion: string := ConversionPrefix + "_name is not string"
  const ValueNotStringConversion: string := ConversionPrefix + "_value is not string"
  const ValuesNotArrayConversion: string := ConversionPrefix + "_values is not []interface {}"

  /** `m[key].(map[string]any)` in its comma-ok form. */
  function ObjectField(m: Obj, key: string): (r: Option<Obj>)
    ensures r.Some? <==> key in m.fields && m.fields[key].JObj?
    ensures r.Some? ==> r.value == m.fields[key] && r.value < m
  {
    if key in m.fields && m.fields[key].JObj? then Some(m.fields[key]) else None
  }

  /** `m[key].(map[string]any)` in its panicking form. */
  function RequiredObject(m: Obj, key: string): (r: Result<Obj>)
    ensures r.Ok? <==> ObjectField(m, key).Some?
    ensures r.Ok? ==> r.value == m.fields[key] && r.value < m
  {
    match ObjectField(m, key)
    case Some(v) => Ok(v)
    case None => Err(ConversionPrefix + key + NotMapSuffix)
  }

  /** `m[key].(string)` in its comma-ok form. */
  function StringField(m: Obj, key: string): (r: Option<string>)
    ensures r.Some? <==> key in m.fields && m.fields[key].JStr?
    ensures r.Some? ==> m.fields[key] == JStr(r.value)
  {
    if key in m.fields && m.fields[key].JStr? then Some(m.fields[key].s) else None
  }

  /** `typeName`: the `_name` of the object's `_type`. */
  function TypeName(m: Obj): (r: Result<string>)
    ensures r.Ok? <==> ObjectField(m, "_type").Some? && StringField(ObjectField(m, "_type").value, "_name").Some?
    ensures r.Ok? ==> StringField(ObjectField(m, "_type").value, "_name") == Some(r.value)
  {
    var t :- RequiredObject(m, "_type");
    match StringField(t, "_name")
    case Some(n) => Ok(n)
    case None => Err(NameNotStringConversion)
  }

  /** The names along a `_type` object and its `_supertype` chain. The chain
      ends at the first `_supertype` that is missing or not an object. */
  function TypeChain(t: Obj): (r: Result<seq<string>>)
    ensures r.Ok? ==> |r.value| >= 1 && StringField(t, "_name") == Some(r.value[0])
    ensures StringField(t, "_name").None? ==> r.Err?
    ensures ObjectField(t, "_supertype").None? ==>
      (r.Ok? <==> StringField(t, "_name").Some?) && (r.Ok? ==> |r.value| == 1)
    decreases t
  {
    match StringField(t, "_name")
    case None => Err(NameNotStringConversion)
    case Some(name) =>
      match ObjectField(t, "_supertype")
      case None => Ok([name])
      case Some(s) =>
        var rest :- TypeChain(s);
        Ok([name] + rest)
  }

  /** `types`: the object's type name followed by each supertype's name. */
  function Types(m: Obj): (r: Result<seq<string>>)
    ensures r.Ok? ==> |r.value| >= 1 && TypeName(m) == Ok(r.value[0])
    ensures TypeName(m).Err? ==> r.Err?
  {
    var t :- RequiredObject(m, "_type");
    TypeChain(t)
  }

  /** The `_type` object describing `names`, most derived first. */
  function TypeTag(names: seq<string>): Obj
    requires |names| >= 1
    decreases |names|
  {
    if |names| == 1 then JObj(map["_name" := JStr(names[0])])
    else JObj(map["_name" := JStr(names[0]), "_supertype" := TypeTag(names[1..])])
  }

  /** An object of type `names[0]` (deriving from the rest) with `fields`. */
  function Tagged(names: seq<string>, fields: map<string, Json>): Obj
    requires |names| >= 1
  {
    JObj(fields["_type" := TypeTag(names)])
  }

  lemma {:induction false} TypeChainOfTag(names: seq<string>)
    requires |names| >= 1
    ensures TypeChain(TypeTag(names)) == Ok(names)
    decreases |names|
  {
    var t := TypeTag(names);
    assert "_name" != "_supertype";
    assert StringField(t, "_name") == Some(names[0]);
    if |names| == 1 {
      assert ObjectField(t, "_supertype").None?;
      assert TypeChain(t) == Ok([names[0]]);
      assert names == [names[0]];
    } else {
      TypeChainOfTag(names[1..]);
      assert ObjectField(t, "_supertype") == Some(TypeTag(names[1..]));
      assert [names[0]] + names[1..] == names;
    }
  }

  /** Reading the type chain back from a tagged object gives the names it was
      tagged with. */
  lemma TypesOfTagged(names: seq<string>, fields: map<string, Json>)
    requires |names| >= 1
    ensures Types(Tagged(names, fields)) == Ok(names)
    ensures TypeName(Tagged(names, fields)) == Ok(names[0])
  {
    TypeChainOfTag(names);
  }

  /** Whether `DecodeObject` accepts `m` where an `expected` is wanted: the
      expected name may be the type itself or any of its supertypes. */
  predicate IsA(m: Obj, expected: string) {
    Types(m).Ok? && Utils.Contains(Types(m).value, expected)
  }

  /** The panic `DecodeObject` raises when `m` is not an `expected`. */
  function ObjectTypeError(m: Obj, expected: string): string {
    match Types(m)
    case Err(e) => e
    case Ok(names) =>
      "incorrectObjectType (actual=" + Join(names, ",") + ", expected=\"" + expected + "\")"
  }

  /** A tagged object is an `expected` exactly when `expected` is among its
      type names. */
  lemma IsATagged(names: seq<string>, fields: map<string, Json>, expected: string)
    requires |names| >= 1
    ensures IsA(Tagged(names, fields), expected) <==> expected in names
  {
    TypesOfTagged(names, fields);
  }

  /** `DecodeString`: only an object whose own type is exactly `String`
      (supertypes are not consulted) with a string `_value`. */
  function DecodeString(m: Obj): (r: Result<string>)
    ensures r.Ok? <==> TypeName(m) == Ok("String") && StringField(m, "_value").Some?
    ensures r.Ok? ==> StringField(m, "_value") == Some(r.value)
  {
    var name :- TypeName(m);
    if name != "String" then Err("type is not string, but " + name)
    else
      match StringField(m, "_value")
      case Some(v) => Ok(v)
      case None => Err(ValueNotStringConversion)
  }

  /** `DecodeDouble`: an object whose own type is exactly `Double`; the
      number is kept as its literal text. */
  function DecodeDouble(m: Obj): (r: Result<string>)
    ensures r.Ok? <==> TypeName(m) == Ok("Double") && StringField(m, "_value").Some?
    ensures r.Ok? ==> StringField(m, "_value") == Some(r.value)
  {
    var name :- TypeName(m);
    if name != "Double" then Err("type is not double, but " + name)
    else
      match StringField(m, "_value")
      case Some(v) => Ok(v)
      case None => Err(ValueNotStringConversion)
  }

  /** The `String` node `xcresulttool` writes for `s`. */
  function StringNode(s: string): Obj {
    Tagged(["String"], map["_value" := JStr(s)])
  }

  /** The `Double` node for a number written as `literal`. */
  function DoubleNode(literal: string): Obj {
    Tagged(["Double"], map["_value" := JStr(literal)])
  }

  lemma DecodeStringNode(s: string)
    ensures DecodeString(StringNode(s)) == Ok(s)
  {
    TypesOfTagged(["String"], map["_value" := JStr(s)]);
  }

  lemma DecodeDoubleNode(literal: string)
    ensures DecodeDouble(DoubleNode(literal)) == Ok(literal)
  {
    TypesOfTagged(["Double"], map["_value" := JStr(literal)]);
  }

  /** A type deriving from `String` is still rejected by `DecodeString`,
      whereas `DecodeObject` would accept it as a `String`. */
  lemma DecodeStringIgnoresSupertypes(s: string)
    ensures DecodeString(Tagged(["Text", "String"], map["_value" := JStr(s)])).Err?
    ensures IsA(Tagged(["Text", "String"], map["_value" := JStr(s)]), "String")
  {
    TypesOfTagged(["Text", "String"], map["_value" := JStr(s)]);
    IsATagged(["Text", "String"], map["_value" := JStr(s)], "String");
  }

  /** The `_values` of an object whose own type is exactly `Array`. */
  function ArrayValues(m: Obj): (r: Result<seq<Json>>)
    ensures r.Ok? <==> TypeName(m) == Ok("Array") && "_values" in m.fields && m.fields["_values"].JArr?
    ensures r.Ok? ==> m.fields["_values"] == JArr(r.value)
    ensures r.Ok? ==> forall k | 0 <= k < |r.value| :: r.value[k] < m
  {
    var name :- TypeName(m);
    if name != "Array" then Err("type is not array")
    else if "_values" in m.fields && m.fields["_values"].JArr? then
      var items := m.fields["_values"].items;
      assert forall k | 0 <= k < |items| :: items[k] < m.fields["_values"];
      Ok(items)
    else Err(ValuesNotArrayConversion)
  }

  /** The `Array` node holding `items`. */
  function ArrayNode(items: seq<Json>): Obj {
    Tagged(["Array"], map["_values" := JArr(items)])
  }

  lemma ArrayValuesOfNode(items: seq<Json>)
    ensures ArrayValues(ArrayNode(items)) == Ok(items)
  {
    TypesOfTagged(["Array"], map["_values" := JArr(items)]);
  }

  /** `DecodeObject[T]`: `m` must be an `expected` (its own type or one of its
      supertypes); then `decode`, the type's `Decode`, reads the fields. */
  function DecodeObject<T>(m: Obj, expected: string, decode: Obj -> Result<T>): (r: Result<T>)
    ensures !IsA(m, expected) ==> r == Err(ObjectTypeError(m, expected))
    ensures IsA(m, expected) ==> r == decode(m)
  {
    if !IsA(m, expected) then Err(ObjectTypeError(m, expected)) else decode(m)
  }

  /** One element of `DecodeArray`: `v.(map[string]any)`, then `DecodeObject`. */
  function DecodeElement<T>(v: Json, expected: string, decode: Obj -> Result<T>): (r: Result<T>)
    ensures !v.JObj? ==> r.Err?
    ensures v.JObj? ==> r == DecodeObject(v, expected, decode)
  {
    if !v.JObj? then Err(ElementNotMap)
    else DecodeObject(v, expected, decode)
  }

  /** The elements of an array decoded in order, stopping at the first that
      fails. */
  function DecodeItems<T>(items: seq<Json>, expected: string, decode: Obj -> Result<T>): (r: Result<seq<T>>)
    ensures r.Ok? <==> forall k | 0 <= k < |items| :: DecodeElement(items[k], expected, decode).Ok?
    ensures r.Ok? ==> |r.value| == |items|
    ensures r.Ok? ==> forall k | 0 <= k < |items| :: DecodeElement(items[k], expected, decode) == Ok(r.value[k])
    decreases |items|
  {
    if |items| == 0 then Ok([])
    else
      var first :- DecodeElement(items[0], expected, decode);
      var rest :- DecodeItems(items[1..], expected, decode);
      assert forall k | 1 <= k < |items| :: items[k] == items[1..][k - 1];
      Ok([first] + rest)
  }

  /** The values of `rs` in order when every one is `Ok`, otherwise the
      first error: a loop that decodes element by element and returns on
      the first failure. */
  function AllOk<T>(rs: seq<Result<T>>): (r: Result<seq<T>>)
    ensures r.Ok? <==> forall k | 0 <= k < |rs| :: rs[k].Ok?
    ensures r.Ok? ==> |r.value| == |rs| && forall k | 0 <= k < |rs| :: rs[k] == Ok(r.value[k])
    ensures r.Err? ==> exists k | 0 <= k < |rs| :: rs[k] == Err(r.msg) && forall j | 0 <= j < k :: rs[j].Ok?
    decreases |rs|
  {
    if |rs| == 0 then Ok([])
    else
      var first :- rs[0];
      var rest := AllOk(rs[1..]);
      assert forall k | 1 <= k < |rs| :: rs[k] == rs[1..][k - 1];
      if rest.Err? then
        FirstErrorShifts(rs, rest.msg);
        Err(rest.msg)
      else
        Ok([first] + rest.value)
  }

  /** An `Ok` in front keeps the first error of the rest the first error. */
  lemma FirstErrorShifts<T>(rs: seq<Result<T>>, msg: string)
    requires |rs| > 0 && rs[0].Ok?
    requires exists k | 0 <= k < |rs[1..]| :: rs[1..][k] == Err(msg) && forall j | 0 <= j < k :: rs[1..][j].Ok?
    ensures exists k | 0 <= k < |rs| :: rs[k] == Err(msg) && forall j | 0 <= j < k :: rs[j].Ok?
  {
    var k :| 0 <= k < |rs[1..]| && rs[1..][k] == Err(msg) && forall j | 0 <= j < k :: rs[1..][j].Ok?;
    assert rs[k + 1] == rs[1..][k];
    forall j | 0 < j < k + 1 ensures rs[j].Ok? {
      assert rs[j] == rs[1..][j - 1];
    }
  }

  /** Checking two lists in turn: the first list's error, else the
      second's, else both value lists joined. */
  lemma {:induction false} AllOkAppend<T>(a: seq<Result<T>>, b: seq<Result<T>>)
    ensures AllOk(a).Err? ==> AllOk(a + b) == AllOk(a)
    ensures AllOk(a).Ok? && AllOk(b).Err? ==> AllOk(a + b) == AllOk(b)
    ensures AllOk(a).Ok? && AllOk(b).Ok? ==> AllOk(a + b) == Ok(AllOk(a).value + AllOk(b).value)
    decreases |a|
  {
    if |a| == 0 {
      assert a + b == b;
      if AllOk(b).Ok? {
        assert [] + AllOk(b).value == AllOk(b).value;
      }
    } else {
      var ab := a + b;
      assert ab[0] == a[0];
      assert ab[1..] == a[1..] + b;
      AllOkAppend(a[1..], b);
      AllOkCons(a);
      AllOkCons(ab);
      if a[0].Ok? && AllOk(a[1..]).Ok? && AllOk(b).Ok? {
        ConsAssociates(a[0].value, AllOk(a[1..]).value, AllOk(b).value);
      }
    }
  }

  lemma ConsAssociates<T>(f: T, x: seq<T>, y: seq<T>)
    ensures [f] + (x + y) == ([f] + x) + y
  {
  }

  /** One step of `AllOk`: the head's error, else the rest's error, else the
      head's value in front of the rest's values. */
  lemma AllOkCons<T>(rs: seq<Result<T>>)
    requires |rs| > 0
    ensures rs[0].Err? ==> AllOk(rs) == Err(rs[0].msg)
    ensures rs[0].Ok? && AllOk(rs[1..]).Err? ==> AllOk(rs) == Err(AllOk(rs[1..]).msg)
    ensures rs[0].Ok? && AllOk(rs[1..]).Ok? ==> AllOk(rs) == Ok([rs[0].value] + AllOk(rs[1..]).value)
  {
  }

  /** `DecodeArray[T]`: an `Array` node whose elements are all `expected`
      objects, decoded one for one and in order. */
  function DecodeArray<T>(m: Obj, expected: string, decode: Obj -> Result<T>): (r: Result<seq<T>>)
    ensures r.Ok? <==> (ArrayValues(m).Ok? &&
      forall k | 0 <= k < |ArrayValues(m).value| :: DecodeElement(ArrayValues(m).value[k], expected, decode).Ok?)
    ensures r.Ok? ==> |r.value| == |ArrayValues(m).value|
    ensures r.Ok? ==> forall k | 0 <= k < |r.value| ::
      DecodeElement(ArrayValues(m).value[k], expected, decode) == Ok(r.value[k])
  {
    var items :- ArrayValues(m);
    DecodeItems(items, expected, decode)
  }

  /** The encodings of `xs`, in order. */
  function EncodeAll<T>(xs: seq<T>, encode: T -> Obj): (r: seq<Json>)
    ensures |r| == |xs|
    ensures forall k | 0 <= k < |xs| :: r[k] == encode(xs[k])
  {
    seq(|xs|, i requires 0 <= i < |xs| => var j: Json := encode(xs[i]); j)
  }

  /** Decoding the encodings of `xs` gives `xs` back, when each element's
      encoding is of the expected type and decodes to that element. */
  lemma {:induction false} DecodeItemsOfEncoded<T>(xs: seq<T>, encode: T -> Obj, expected: string, decode: Obj -> Result<T>)
    requires forall k | 0 <= k < |xs| :: IsA(encode(xs[k]), expected) && decode(encode(xs[k])) == Ok(xs[k])
    ensures DecodeItems(EncodeAll(xs, encode), expected, decode) == Ok(xs)
    decreases |xs|
  {
    if |xs| > 0 {
      var items := EncodeAll(xs, encode);
      assert items[1..] == EncodeAll(xs[1..], encode);
      DecodeItemsOfEncoded(xs[1..], encode, expected, decode);
      assert DecodeElement(items[0], expected, decode) == Ok(xs[0]);
      assert [xs[0]] + xs[1..] == xs;
    }
  }

  /** Array round trip: the `Array` node of the encodings decodes to `xs`. */
  lemma DecodeArrayOfEncoded<T>(xs: seq<T>, encode: T -> Obj, expected: string, decode: Obj -> Result<T>)
    requires forall k | 0 <= k < |xs| :: IsA(encode(xs[k]), expected) && decode(encode(xs[k])) == Ok(xs[k])
    ensures DecodeArray(ArrayNode(EncodeAll(xs, encode)), expected, decode) == Ok(xs)
  {
    ArrayValuesOfNode(EncodeAll(xs, encode));
    DecodeItemsOfEncoded(xs, encode, expected, decode);
  }
}

=== FILE: xcimport.dfy ===
/** internal/import.go: walking the decoded xcresult test tree, fetching each
    test's summary and looking for a `Qase config` attachment. The command that
    would call this is not registered, so the path is unreachable from the
    CLI; it is modelled for what it computes. `xcresulttool` is an oracle, and
    a Go panic is an `Err`. */
module XcImport {
  import opened Wrappers
  import opened Text
  import opened XcDecoder
  import opened XcModel

  /** The external tool and the JSON parser, as total functions:
      `toJson(id)` is `xcresult.ToJson` for an object id (already parsed into
      an object), `openAttachment(id)` is `xcresult.OpenAttachment`, and
      `unmarshal` is `json.Unmarshal` of raw bytes. */
  datatype Tool = Tool(
    toJson: string -> Result<Obj>,
    openAttachment: string -> Result<seq<byte>>,
    unmarshal: seq<byte> -> Result<Json>)

  // ----------------------------------------------------------- attachments

  /** The reference of the first attachment named `name` that has a payload. */
  function FirstPayload(attachments: seq<TestAttachment>, name: string): (r: Option<Reference>)
    ensures r.None? ==> forall k | 0 <= k < |attachments| ::
      attachments[k].name != name || attachments[k].payloadRef.None?
    ensures r.Some? ==> exists i | 0 <= i < |attachments| ::
      && attachments[i].name == name && attachments[i].payloadRef == Some(r.value)
      && forall k | 0 <= k < i :: attachments[k].name != name || attachments[k].payloadRef.None?
    decreases |attachments|
  {
    if |attachments| == 0 then None
    else if attachments[0].name == name && attachments[0].payloadRef.Some? then attachments[0].payloadRef
    else
      var r := FirstPayload(attachments[1..], name);
      assert forall k | 1 <= k < |attachments| :: attachments[k] == attachments[1..][k - 1];
      assert r.Some? ==> exists i | 0 <= i < |attachments[1..]| ::
        && attachments[1..][i].name == name && attachments[1..][i].payloadRef == Some(r.value)
        && forall k | 0 <= k < i :: attachments[1..][k].name != name || attachments[1..][k].payloadRef.None?;
      r
  }

  /** `extractAttachmentFromActivitySummary`: nothing unless the activity is
      an attachment container; otherwise the payload of the first attachment
      named `name` that has a payload reference. A successful open always
      yields data, possibly empty: the tool's captured output is never nil. */
  function ExtractAttachment(tool: Tool, activity: ActivitySummary, name: string): (r: Result<Option<seq<byte>>>)
    ensures r.Ok? && r.value.None? <==>
      activity.activityType != AttachmentContainer || FirstPayload(activity.attachments, name).None?
    ensures activity.activityType == AttachmentContainer && FirstPayload(activity.attachments, name).Some? ==>
      var id := FirstPayload(activity.attachments, name).value.objId;
      && (r.Err? <==> tool.openAttachment(id).Err?)
      && (r.Err? ==> r.msg == tool.openAttachment(id).msg)
      && (r.Ok? ==> r.value == Some(tool.openAttachment(id).value))
  {
    if activity.activityType != AttachmentContainer then Ok(None)
    else
      match FirstPayload(activity.attachments, name)
      case None => Ok(None)
      case Some(ref) =>
        var data :- tool.openAttachment(ref.objId);
        Ok(Some(data))
  }

  /** `extractQaseConfig`: for each activity, fetch the attachment; stop at
      the first that has none; parse each one found, panicking on a parse
      error. The parsed map is never kept, so the result is always none. */
  function ExtractQaseConfig(tool: Tool, activities: seq<ActivitySummary>, name: string): (r: Result<Option<Obj>>)
    ensures r.Ok? ==> r.value.None?
    decreases |activities|
  {
    if |activities| == 0 then Ok(None)
    else
      var data :- ExtractAttachment(tool, activities[0], name);
      match data
      case None => Ok(None)
      case Some(bytes) =>
        var parsed :- tool.unmarshal(bytes);
        if !parsed.JObj? && !parsed.JNull? then Err("json: cannot unmarshal into Go value of type map[string]interface {}")
        else ExtractQaseConfig(tool, activities[1..], name)
  }

  /** One iteration of the walk: an error opening the attachment comes back
      as it is; no attachment ends the walk with nothing; a payload that does
      not parse is the parser's error; a parsed object or null moves on to
      the next activity. */
  lemma ExtractQaseConfigStep(tool: Tool, activities: seq<ActivitySummary>, name: string)
    requires |activities| > 0
    ensures var a := ExtractAttachment(tool, activities[0], name);
      && (a.Err? ==> ExtractQaseConfig(tool, activities, name) == Err(a.msg))
      && (a == Ok(None) ==> ExtractQaseConfig(tool, activities, name) == Ok(None))
      && (a.Ok? && a.value.Some? && tool.unmarshal(a.value.value).Err? ==>
          ExtractQaseConfig(tool, activities, name) == Err(tool.unmarshal(a.value.value).msg))
      && (a.Ok? && a.value.Some? && tool.unmarshal(a.value.value).Ok? &&
          (tool.unmarshal(a.value.value).value.JObj? || tool.unmarshal(a.value.value).value.JNull?) ==>
          ExtractQaseConfig(tool, activities, name) == ExtractQaseConfig(tool, activities[1..], name))
  {
  }

  /** An empty payload reaches the JSON parser, whose error aborts the walk. */
  lemma EmptyPayloadIsParsed(tool: Tool, activities: seq<ActivitySummary>, name: string)
    requires |activities| > 0 && ExtractAttachment(tool, activities[0], name) == Ok(Some([]))
    requires tool.unmarshal([]).Err?
    ensures ExtractQaseConfig(tool, activities, name) == Err(tool.unmarshal([]).msg)
  {
  }

  /** The walk stops at the first activity without the attachment: nothing
      after it is fetched or parsed. */
  lemma ExtractQaseConfigStops(tool: Tool, activities: seq<ActivitySummary>, name: string, i: nat)
    requires i < |activities|
    requires forall k | 0 <= k < i ::
      ExtractAttachment(tool, activities[k], name).Ok? && ExtractAttachment(tool, activities[k], name).value.Some?
    requires ExtractAttachment(tool, activities[i], name) == Ok(None)
    ensures ExtractQaseConfig(tool, activities, name) == ExtractQaseConfig(tool, activities[..i + 1], name)
    decreases i
  {
    if i > 0 {
      assert activities[1..][..i] == activities[..i + 1][1..];
      ExtractQaseConfigStops(tool, activities[1..], name, i - 1);
    }
  }

  /** `findCaseID`: `case_id` of the parsed configuration, which never
      exists, so no case id is ever found. */
  function FindCaseId(tool: Tool, summary: TestSummary, name: string): (r: Result<Option<string>>)
    ensures r.Ok? ==> r.value.None?
    ensures r.Err? <==> ExtractQaseConfig(tool, summary.activities, name).Err?
  {
    var config :- ExtractQaseConfig(tool, summary.activities, name);
    match config
    case None => Ok(None)
    case Some(m) =>
      match StringField(m, "case_id")
      case Some(id) => Ok(Some(id))
      case None => Err(ConversionPrefix + "case_id is not string")
  }

  // -------------------------------------------------------------- the walk

  /** Fetch a test's summary by reference and decode it. */
  function FetchSummary(tool: Tool, ref: Reference): (r: Result<TestSummary>)
    ensures tool.toJson(ref.objId).Err? ==> r == Err(tool.toJson(ref.objId).msg)
    ensures tool.toJson(ref.objId).Ok? ==>
      r == DecodeObject(tool.toJson(ref.objId).value, TestSummaryType, DecodeTestSummary)
  {
    var json :- tool.toJson(ref.objId);
    DecodeObject(json, TestSummaryType, DecodeTestSummary)
  }

  /** The answer for each reference, in order. */
  function Fetches(tool: Tool, refs: seq<Reference>): (rs: seq<Result<TestSummary>>)
    ensures |rs| == |refs|
    ensures forall k | 0 <= k < |refs| :: rs[k] == FetchSummary(tool, refs[k])
  {
    seq(|refs|, k requires 0 <= k < |refs| => FetchSummary(tool, refs[k]))
  }

  /** Fetch every reference in order, failing at the first failure. */
  function FetchAll(tool: Tool, refs: seq<Reference>): (r: Result<seq<TestSummary>>)
    ensures r.Ok? <==> forall k | 0 <= k < |refs| :: FetchSummary(tool, refs[k]).Ok?
    ensures r.Ok? ==> |r.value| == |refs|
    ensures r.Ok? ==> forall k | 0 <= k < |refs| :: FetchSummary(tool, refs[k]) == Ok(r.value[k])
    ensures r.Err? ==> exists k | 0 <= k < |refs| ::
      FetchSummary(tool, refs[k]) == Err(r.msg) && forall j | 0 <= j < k :: FetchSummary(tool, refs[j]).Ok?
  {
    AllOk(Fetches(tool, refs))
  }

  lemma FetchAllAppend(tool: Tool, a: seq<Reference>, b: seq<Reference>)
    ensures FetchAll(tool, a).Err? ==> FetchAll(tool, a + b) == FetchAll(tool, a)
    ensures FetchAll(tool, a).Ok? && FetchAll(tool, b).Err? ==> FetchAll(tool, a + b) == FetchAll(tool, b)
    ensures FetchAll(tool, a).Ok? && FetchAll(tool, b).Ok? ==>
      FetchAll(tool, a + b) == Ok(FetchAll(tool, a).value + FetchAll(tool, b).value)
  {
    assert Fetches(tool, a + b) == Fetches(tool, a) + Fetches(tool, b);
    AllOkAppend(Fetches(tool, a), Fetches(tool, b));
  }

  /** The summary references of the metadata leaves under `n`, depth first,
      in order: what the walk fetches. */
  function SummaryRefs(n: TestNode): seq<Reference>
    decreases n, 1
  {
    match n
    case Group(_, subtests) => SummaryRefsOf(subtests, n)
    case Metadata(_, ref) => if ref.Some? then [ref.value] else []
  }

  function SummaryRefsOf(nodes: seq<TestNode>, ghost parent: TestNode): seq<Reference>
    requires forall k | 0 <= k < |nodes| :: nodes[k] < parent
    decreases parent, 0, |nodes|
  {
    if |nodes| == 0 then [] else SummaryRefs(nodes[0]) + SummaryRefsOf(nodes[1..], parent)
  }

  /** `extractIdentifiableObjects`: a group yields its subtests' results
      concatenated in order; metadata without a summary reference yields
      nothing; metadata with one yields the fetched summary. (The Go default
      case, any other node type, cannot arise: `TestNode` has only these two.) */
  function ExtractIdentifiableObjects(tool: Tool, n: TestNode): (r: Result<seq<TestSummary>>)
    ensures n.Metadata? && n.summaryRef.None? ==> r == Ok([])
    ensures n.Metadata? && n.summaryRef.Some? ==>
      (r.Ok? <==> FetchSummary(tool, n.summaryRef.value).Ok?) &&
      (r.Ok? ==> r.value == [FetchSummary(tool, n.summaryRef.value).value])
    decreases n, 1
  {
    match n
    case Group(_, subtests) => ExtractFromNodes(tool, subtests, n)
    case Metadata(_, ref) =>
      match ref
      case None => Ok([])
      case Some(x) =>
        var summary :- FetchSummary(tool, x);
        Ok([summary])
  }

  function ExtractFromNodes(tool: Tool, nodes: seq<TestNode>, ghost parent: TestNode): (r: Result<seq<TestSummary>>)
    requires forall k | 0 <= k < |nodes| :: nodes[k] < parent
    decreases parent, 0, |nodes|
  {
    if |nodes| == 0 then Ok([])
    else
      var first :- ExtractIdentifiableObjects(tool, nodes[0]);
      var rest :- ExtractFromNodes(tool, nodes[1..], parent);
      Ok(first + rest)
  }

  /** The walk fetches exactly the summary references of the leaves, depth
      first and in order, and fails at the first fetch that fails. */
  lemma {:induction false} ExtractIsFetchOfLeaves(tool: Tool, n: TestNode)
    ensures ExtractIdentifiableObjects(tool, n) == FetchAll(tool, SummaryRefs(n))
    decreases n, 1
  {
    match n
    case Group(_, subtests) =>
      ExtractFromNodesIsFetchOfLeaves(tool, subtests, n);
    case Metadata(_, ref) =>
      if ref.Some? {
        assert [ref.value][1..] == [];
        match FetchSummary(tool, ref.value)
        case Ok(x) => assert [x] + [] == [x];
        case Err(_) =>
      }
  }

  lemma {:induction false} ExtractFromNodesIsFetchOfLeaves(tool: Tool, nodes: seq<TestNode>, parent: TestNode)
    requires forall k | 0 <= k < |nodes| :: nodes[k] < parent
    ensures ExtractFromNodes(tool, nodes, parent) == FetchAll(tool, SummaryRefsOf(nodes, parent))
    decreases parent, 0, |nodes|
  {
    if |nodes| > 0 {
      ExtractIsFetchOfLeaves(tool, nodes[0]);
      ExtractFromNodesIsFetchOfLeaves(tool, nodes[1..], parent);
      FetchAllAppend(tool, SummaryRefs(nodes[0]), SummaryRefsOf(nodes[1..], parent));
    }
  }

  /** The tests of every testable summary of every plan run, in order: the
      three nested loops of `extractTests`. */
  function AllTests(plans: seq<PlanRunSummary>): (r: seq<TestNode>)
    decreases |plans|
  {
    if |plans| == 0 then [] else TestsOfTestables(plans[0].testables) + AllTests(plans[1..])
  }

  function TestsOfTestables(testables: seq<TestableSummary>): (r: seq<TestNode>)
    decreases |testables|
  {
    if |testables| == 0 then [] else testables[0].tests + TestsOfTestables(testables[1..])
  }

  /** The summary references of the leaves under each node, in order. */
  function LeafRefs(nodes: seq<TestNode>): seq<Reference>
    decreases |nodes|
  {
    if |nodes| == 0 then [] else SummaryRefs(nodes[0]) + LeafRefs(nodes[1..])
  }

  /** Extract from each node in order, concatenating the results. */
  function ExtractAll(tool: Tool, nodes: seq<TestNode>): (r: Result<seq<TestSummary>>)
    decreases |nodes|
  {
    if |nodes| == 0 then Ok([])
    else
      var first :- ExtractIdentifiableObjects(tool, nodes[0]);
      var rest :- ExtractAll(tool, nodes[1..]);
      Ok(first + rest)
  }

  /** Walking a list of tree roots fetches the leaves of all of them, in
      order, and fails at the first fetch that fails. */
  lemma {:induction false} ExtractAllIsFetchOfLeaves(tool: Tool, nodes: seq<TestNode>)
    ensures ExtractAll(tool, nodes) == FetchAll(tool, LeafRefs(nodes))
    decreases |nodes|
  {
    if |nodes| > 0 {
      ExtractIsFetchOfLeaves(tool, nodes[0]);
      ExtractAllIsFetchOfLeaves(tool, nodes[1..]);
      FetchAllAppend(tool, SummaryRefs(nodes[0]), LeafRefs(nodes[1..]));
    }
  }

  /** One iteration of `extractTests`: nothing for an action without a
      tests reference; otherwise the tool's answer for the reference,
      decoded as plan-run summaries, whose tests are walked in order. */
  function ActionTests(tool: Tool, action: ActionResult): (r: Result<seq<TestSummary>>)
    ensures action.testsRef.None? ==> r == Ok([])
    ensures action.testsRef.Some? && tool.toJson(action.testsRef.value.objId).Err? ==>
      r == Err(tool.toJson(action.testsRef.value.objId).msg)
    ensures action.testsRef.Some? && tool.toJson(action.testsRef.value.objId).Ok? ==>
      var plans := DecodeObject(tool.toJson(action.testsRef.value.objId).value, PlanRunSummariesType, DecodePlanRunSummaries);
      && (plans.Err? ==> r == Err(plans.msg))
      && (plans.Ok? ==> r == FetchAll(tool, LeafRefs(AllTests(plans.value.summaries))))
  {
    match action.testsRef
    case None => Ok([])
    case Some(ref) =>
      var json :- tool.toJson(ref.objId);
      var plans :- DecodeObject(json, PlanRunSummariesType, DecodePlanRunSummaries);
      ExtractAllIsFetchOfLeaves(tool, AllTests(plans.summaries));
      ExtractAll(tool, AllTests(plans.summaries))
  }

  /** `extractTests`: actions without a tests reference are skipped; a tool
      error aborts the whole walk and is returned as it is. */
  function ExtractTests(tool: Tool, actions: seq<ActionResult>): (r: Result<seq<TestSummary>>)
    ensures |actions| > 0 && actions[0].testsRef.None? ==> r == ExtractTests(tool, actions[1..])
    ensures |actions| > 0 && actions[0].testsRef.Some? && tool.toJson(actions[0].testsRef.value.objId).Err? ==>
      r == Err(tool.toJson(actions[0].testsRef.value.objId).msg)
    ensures (forall k | 0 <= k < |actions| :: actions[k].testsRef.None?) ==> r == Ok([])
    decreases |actions|
  {
    if |actions| == 0 then Ok([])
    else
      var first :- ActionTests(tool, actions[0]);
      var rest :- ExtractTests(tool, actions[1..]);
      assert [] + rest == rest;
      Ok(first + rest)
  }

  /** One action alone yields what its iteration yields. */
  lemma ExtractTestsOfOne(tool: Tool, action: ActionResult)
    ensures ExtractTests(tool, [action]) == ActionTests(tool, action)
  {
    assert [action][1..] == [];
    var r := ActionTests(tool, action);
    if r.Ok? {
      assert r.value + [] == r.value;
    }
  }

  /** The walk over `a + b` is the walk over `a` and then over `b`: the
      first error, in action order, wins, and on success the tests come in
      action order. */
  lemma {:induction false} ExtractTestsAppend(tool: Tool, a: seq<ActionResult>, b: seq<ActionResult>)
    ensures ExtractTests(tool, a).Err? ==> ExtractTests(tool, a + b) == ExtractTests(tool, a)
    ensures ExtractTests(tool, a).Ok? && ExtractTests(tool, b).Err? ==> ExtractTests(tool, a + b) == ExtractTests(tool, b)
    ensures ExtractTests(tool, a).Ok? && ExtractTests(tool, b).Ok? ==>
      ExtractTests(tool, a + b) == Ok(ExtractTests(tool, a).value + ExtractTests(tool, b).value)
    decreases |a|
  {
    if |a| == 0 {
      assert a + b == b;
      if ExtractTests(tool, b).Ok? {
        assert [] + ExtractTests(tool, b).value == ExtractTests(tool, b).value;
      }
    } else {
      var ab := a + b;
      assert ab[0] == a[0];
      assert ab[1..] == a[1..] + b;
      ExtractTestsAppend(tool, a[1..], b);
      ExtractTestsCons(tool, a);
      ExtractTestsCons(tool, ab);
      var first, restA, restB := ActionTests(tool, a[0]), ExtractTests(tool, a[1..]), ExtractTests(tool, b);
      if first.Ok? && restA.Ok? && restB.Ok? {
        assert ExtractTests(tool, ab[1..]) == Ok(restA.value + restB.value);
        assert ExtractTests(tool, ab) == Ok(first.value + (restA.value + restB.value));
        assert ExtractTests(tool, a) == Ok(first.value + restA.value);
        AppendAssociates(first.value, restA.value, restB.value);
      }
    }
  }

  /** One step of `ExtractTests`: the first action's error, else the
      rest's error, else the first action's tests before the rest's. */
  lemma ExtractTestsCons(tool: Tool, actions: seq<ActionResult>)
    requires |actions| > 0
    ensures ActionTests(tool, actions[0]).Err? ==> ExtractTests(tool, actions) == Err(ActionTests(tool, actions[0]).msg)
    ensures ActionTests(tool, actions[0]).Ok? && ExtractTests(tool, actions[1..]).Err? ==>
      ExtractTests(tool, actions) == ExtractTests(tool, actions[1..])
    ensures ActionTests(tool, actions[0]).Ok? && ExtractTests(tool, actions[1..]).Ok? ==>
      ExtractTests(tool, actions) == Ok(ActionTests(tool, actions[0]).value + ExtractTests(tool, actions[1..]).value)
  {
  }

  lemma AppendAssociates<T>(x: seq<T>, y: seq<T>, z: seq<T>)
    ensures x + (y + z) == (x + y) + z
  {
  }
}

=== FILE: xcmodel.dfy ===
/** internal/xcresult/model: the typed records decoded from `xcresulttool`
    JSON, one `Decode` per record, and the closed type-name registry used for
    the heterogeneous test-node arrays. Each record has an encoder building
    the JSON `xcresulttool` writes for it, and a round-trip lemma ties the two
    together. */
module XcModel {
  import opened Wrappers
  import opened XcDecoder

  const ReferenceType := "Reference"
  const TypeDefinitionType := "TypeDefinition"
  const AbstractType := "ActionAbstractTestSummary"
  const IdentifiableType := "ActionTestSummaryIdentifiableObject"
  const AttachmentType := "ActionTestAttachment"
  const ActivitySummaryType := "ActionTestActivitySummary"
  const TestSummaryType := "ActionTestSummary"
  const GroupType := "ActionTestSummaryGroup"
  const MetadataType := "ActionTestMetadata"
  const TestableSummaryType := "ActionTestableSummary"
  const PlanRunSummaryType := "ActionTestPlanRunSummary"
  const PlanRunSummariesType := "ActionTestPlanRunSummaries"
  const ActionResultType := "ActionResult"

  // ---------------------------------------------------------------- fields

  /** `DecodeString(m[key].(map[string]any))`: the key is required. */
  function RequiredString(m: Obj, key: string): (r: Result<string>)
    ensures r.Ok? <==> ObjectField(m, key).Some? && DecodeString(m.fields[key]).Ok?
    ensures r.Ok? ==> DecodeString(m.fields[key]) == Ok(r.value)
  {
    var node :- RequiredObject(m, key);
    DecodeString(node)
  }

  /** The comma-ok form: a missing key (or a non-object) gives `None`. */
  function OptionalString(m: Obj, key: string): (r: Result<Option<string>>)
    ensures ObjectField(m, key).None? ==> r == Ok(None)
    ensures ObjectField(m, key).Some? ==>
      (r.Ok? <==> DecodeString(m.fields[key]).Ok?) &&
      (r.Ok? ==> r.value == Some(DecodeString(m.fields[key]).value))
  {
    match ObjectField(m, key)
    case None => Ok(None)
    case Some(node) =>
      var s :- DecodeString(node);
      Ok(Some(s))
  }

  /** An optional type-definition object, of which only the required `name`
      is read (`targetType`, `typeIdentifier`). */
  function OptionalTypeName(m: Obj, key: string): (r: Result<Option<string>>)
    ensures ObjectField(m, key).None? ==> r == Ok(None)
    ensures ObjectField(m, key).Some? ==>
      (r.Ok? <==> RequiredString(m.fields[key], "name").Ok?) &&
      (r.Ok? ==> r.value == Some(RequiredString(m.fields[key], "name").value))
  {
    match ObjectField(m, key)
    case None => Ok(None)
    case Some(t) =>
      var s :- RequiredString(t, "name");
      Ok(Some(s))
  }

  /** An optional `Double` field, kept as its literal. */
  function OptionalDouble(m: Obj, key: string): (r: Result<Option<string>>)
    ensures ObjectField(m, key).None? ==> r == Ok(None)
    ensures ObjectField(m, key).Some? ==>
      (r.Ok? <==> DecodeDouble(m.fields[key]).Ok?) &&
      (r.Ok? ==> r.value == Some(DecodeDouble(m.fields[key]).value))
  {
    match ObjectField(m, key)
    case None => Ok(None)
    case Some(node) =>
      var d :- DecodeDouble(node);
      Ok(Some(d))
  }

  /** An optional array field: missing leaves the slice empty. */
  function OptionalArray<T>(m: Obj, key: string, expected: string, decode: Obj -> Result<T>): (r: Result<seq<T>>)
    ensures ObjectField(m, key).None? ==> r == Ok([])
    ensures ObjectField(m, key).Some? ==> r == DecodeArray(m.fields[key], expected, decode)
  {
    match ObjectField(m, key)
    case None => Ok([])
    case Some(a) => DecodeArray(a, expected, decode)
  }

  /** `fields` with `key` added when `v` is present. */
  function WithOptional(fields: map<string, Json>, key: string, v: Option<Json>): (r: map<string, Json>)
    ensures v.Some? ==> r == fields[key := v.value]
    ensures v.None? ==> r == fields
  {
    match v
    case None => fields
    case Some(j) => fields[key := j]
  }

  /** The type-definition object naming `name`. */
  function TypeDefinitionNode(name: string): Obj {
    Tagged([TypeDefinitionType], map["name" := StringNode(name)])
  }

  function OptionalTypeDefinition(name: Option<string>): Option<Json> {
    match name
    case None => None
    case Some(n) => Some(TypeDefinitionNode(n))
  }

  function OptionalStringNode(s: Option<string>): Option<Json> {
    match s
    case None => None
    case Some(v) => Some(StringNode(v))
  }

  lemma OptionalStringOfNode(m: Obj, key: string, s: Option<string>)
    requires s.None? ==> key !in m.fields
    requires s.Some? ==> key in m.fields && m.fields[key] == StringNode(s.value)
    ensures OptionalString(m, key) == Ok(s)
  {
    if s.Some? {
      DecodeStringNode(s.value);
    }
  }

  lemma OptionalTypeNameOfNode(m: Obj, key: string, s: Option<string>)
    requires s.None? ==> key !in m.fields
    requires s.Some? ==> key in m.fields && m.fields[key] == TypeDefinitionNode(s.value)
    ensures OptionalTypeName(m, key) == Ok(s)
  {
    if s.Some? {
      DecodeStringNode(s.value);
    }
  }

  // -------------------------------------------------------------- Reference

  /** reference.go: the id of another object in the bundle. */
  datatype Reference = Reference(objId: string, targetType: Option<string>)

  /** `Reference.Decode`: `targetType.name` when present, then the required
      `id`. The node's own `_type` is never looked at. */
  function DecodeReference(m: Obj): (r: Result<Reference>)
    ensures ObjectField(m, "id").None? ==> r.Err?
    ensures r.Ok? ==> RequiredString(m, "id") == Ok(r.value.objId)
    ensures r.Ok? ==> (r.value.targetType.None? <==> ObjectField(m, "targetType").None?)
    ensures r.Ok? && r.value.targetType.Some? ==>
      RequiredString(m.fields["targetType"], "name") == Ok(r.value.targetType.value)
  {
    var targetType :- OptionalTypeName(m, "targetType");
    var id :- RequiredString(m, "id");
    Ok(Reference(id, targetType))
  }

  function ReferenceFields(x: Reference): map<string, Json> {
    WithOptional(map["id" := StringNode(x.objId)], "targetType", OptionalTypeDefinition(x.targetType))
  }

  function EncodeReference(x: Reference): Obj {
    Tagged([ReferenceType], ReferenceFields(x))
  }

  lemma DecodeReferenceRoundTrip(x: Reference)
    ensures DecodeReference(EncodeReference(x)) == Ok(x)
    ensures IsA(EncodeReference(x), ReferenceType)
  {
    var m := EncodeReference(x);
    OptionalTypeNameOfNode(m, "targetType", x.targetType);
    DecodeStringNode(x.objId);
    IsATagged([ReferenceType], ReferenceFields(x), ReferenceType);
  }

  /** Whatever `_type` a reference node carries, `Decode` reads the same
      reference from it. */
  lemma DecodeReferenceIgnoresType(m: Obj, tag: Json)
    ensures DecodeReference(JObj(m.fields["_type" := tag])) == DecodeReference(m)
  {
    var m' := JObj(m.fields["_type" := tag]);
    assert ObjectField(m', "targetType") == ObjectField(m, "targetType");
    assert ObjectField(m', "id") == ObjectField(m, "id");
  }

  // ------------------------------------------------------ abstract summary

  /** action_abstract_test_summary.go: the fields every test summary has. */
  datatype Abstract = Abstract(identifier: Option<string>, name: string) {

    /** `ID()`: the identifier, as decoded. */
    function ID(): (r: Option<string>)
      ensures r == identifier
    {
      identifier
    }
  }

  /** `ActionAbstractTestSummary.Decode`: the required `name`, then the
      optional `identifier`. */
  function DecodeAbstract(m: Obj): (r: Result<Abstract>)
    ensures ObjectField(m, "name").None? ==> r.Err?
    ensures r.Ok? ==> RequiredString(m, "name") == Ok(r.value.name)
    ensures r.Ok? ==> (r.value.identifier.None? <==> ObjectField(m, "identifier").None?)
    ensures r.Ok? && r.value.identifier.Some? ==>
      DecodeString(m.fields["identifier"]) == Ok(r.value.identifier.value)
  {
    var name :- RequiredString(m, "name");
    var identifier :- OptionalString(m, "identifier");
    Ok(Abstract(identifier, name))
  }

  /** `fields` with the entries of `a` added. */
  function WithAbstract(fields: map<string, Json>, a: Abstract): map<string, Json> {
    WithOptional(fields["name" := StringNode(a.name)], "identifier", OptionalStringNode(a.identifier))
  }

  /** Any object whose `name` and `identifier` entries are those of `a`
      decodes to `a`, whatever else it holds. */
  lemma DecodeAbstractOfFields(a: Abstract, m: Obj)
    requires "name" in m.fields && m.fields["name"] == StringNode(a.name)
    requires a.identifier.None? ==> "identifier" !in m.fields
    requires a.identifier.Some? ==> "identifier" in m.fields && m.fields["identifier"] == StringNode(a.identifier.value)
    ensures DecodeAbstract(m) == Ok(a)
  {
    DecodeStringNode(a.name);
    OptionalStringOfNode(m, "identifier", a.identifier);
  }

  /** A tagged object built over `WithAbstract(fields, a)`, when `fields`
      holds no identifier of its own, decodes to `a` and keeps every other
      entry of `fields`. */
  lemma TaggedAbstract(names: seq<string>, fields: map<string, Json>, a: Abstract, key: string)
    requires |names| >= 1
    requires key in fields && key != "name" && key != "identifier" && key != "_type"
    requires "identifier" !in fields
    ensures DecodeAbstract(Tagged(names, WithAbstract(fields, a))) == Ok(a)
    ensures Tagged(names, WithAbstract(fields, a)).fields[key] == fields[key]
  {
    var m := Tagged(names, WithAbstract(fields, a));
    var named := fields["name" := StringNode(a.name)];
    assert m.fields == WithOptional(named, "identifier", OptionalStringNode(a.identifier))["_type" := TypeTag(names)];
    assert m.fields["name"] == StringNode(a.name);
    DecodeAbstractOfFields(a, m);
  }

  // ------------------------------------------------------------ attachment

  /** action_test_attachment.go. */
  datatype TestAttachment = TestAttachment(
    typeIdentifier: Option<string>,
    name: string,
    payloadRef: Option<Reference>)

  /** A `payloadRef`/`summaryRef` field, decoded with `Reference.Decode`
      directly, so its `_type` is not checked. */
  function OptionalReference(m: Obj, key: string): (r: Result<Option<Reference>>)
    ensures ObjectField(m, key).None? ==> r == Ok(None)
    ensures ObjectField(m, key).Some? ==>
      (r.Ok? <==> DecodeReference(m.fields[key]).Ok?) &&
      (r.Ok? ==> r.value == Some(DecodeReference(m.fields[key]).value))
  {
    match ObjectField(m, key)
    case None => Ok(None)
    case Some(node) =>
      var ref :- DecodeReference(node);
      Ok(Some(ref))
  }

  function OptionalReferenceNode(x: Option<Reference>): Option<Json> {
    match x
    case None => None
    case Some(ref) => Some(EncodeReference(ref))
  }

  lemma OptionalReferenceOfNode(m: Obj, key: string, x: Option<Reference>)
    requires x.None? ==> key !in m.fields
    requires x.Some? ==> key in m.fields && m.fields[key] == EncodeReference(x.value)
    ensures OptionalReference(m, key) == Ok(x)
  {
    if x.Some? {
      DecodeReferenceRoundTrip(x.value);
    }
  }

  /** `ActionTestAttachment.Decode`: optional `typeIdentifier.name` (any
      string), required `name`, optional `payloadRef`. */
  function DecodeTestAttachment(m: Obj): (r: Result<TestAttachment>)
    ensures ObjectField(m, "name").None? ==> r.Err?
    ensures r.Ok? ==> RequiredString(m, "name") == Ok(r.value.name)
    ensures r.Ok? ==> (r.value.typeIdentifier.None? <==> ObjectField(m, "typeIdentifier").None?)
    ensures r.Ok? ==> (r.value.payloadRef.None? <==> ObjectField(m, "payloadRef").None?)
    ensures r.Ok? && r.value.payloadRef.Some? ==>
      DecodeReference(m.fields["payloadRef"]) == Ok(r.value.payloadRef.value)
  {
    var typeIdentifier :- OptionalTypeName(m, "typeIdentifier");
    var name :- RequiredString(m, "name");
    var payloadRef :- OptionalReference(m, "payloadRef");
    Ok(TestAttachment(typeIdentifier, name, payloadRef))
  }

  function TestAttachmentFields(x: TestAttachment): map<string, Json> {
    var withName := map["name" := StringNode(x.name)];
    var withType := WithOptional(withName, "typeIdentifier", OptionalTypeDefinition(x.typeIdentifier));
    WithOptional(withType, "payloadRef", OptionalReferenceNode(x.payloadRef))
  }

  function EncodeTestAttachment(x: TestAttachment): Obj {
    Tagged([AttachmentType], TestAttachmentFields(x))
  }

  lemma DecodeTestAttachmentRoundTrip(x: TestAttachment)
    ensures DecodeTestAttachment(EncodeTestAttachment(x)) == Ok(x)
    ensures IsA(EncodeTestAttachment(x), AttachmentType)
  {
    var m := EncodeTestAttachment(x);
    TestAttachmentEntries(x);
    OptionalTypeNameOfNode(m, "typeIdentifier", x.typeIdentifier);
    DecodeStringNode(x.name);
    assert RequiredString(m, "name") == Ok(x.name);
    OptionalReferenceOfNode(m, "payloadRef", x.payloadRef);
    IsATagged([AttachmentType], TestAttachmentFields(x), AttachmentType);
  }

  /** The entries of an encoded attachment. */
  lemma TestAttachmentEntries(x: TestAttachment)
    ensures var m := EncodeTestAttachment(x);
      && "name" in m.fields && m.fields["name"] == StringNode(x.name)
      && (x.typeIdentifier.None? ==> "typeIdentifier" !in m.fields)
      && (x.typeIdentifier.Some? ==> "typeIdentifier" in m.fields && m.fields["typeIdentifier"] == TypeDefinitionNode(x.typeIdentifier.value))
      && (x.payloadRef.None? ==> "payloadRef" !in m.fields)
      && (x.payloadRef.Some? ==> "payloadRef" in m.fields && m.fields["payloadRef"] == EncodeReference(x.payloadRef.value))
  {
  }

  lemma DecodeTestAttachmentsRoundTrip(xs: seq<TestAttachment>)
    ensures DecodeArray(ArrayNode(EncodeAll(xs, EncodeTestAttachment)), AttachmentType, DecodeTestAttachment) == Ok(xs)
  {
    forall k | 0 <= k < |xs|
      ensures IsA(EncodeTestAttachment(xs[k]), AttachmentType)
      ensures DecodeTestAttachment(EncodeTestAttachment(xs[k])) == Ok(xs[k])
    {
      DecodeTestAttachmentRoundTrip(xs[k]);
    }
    DecodeArrayOfEncoded(xs, EncodeTestAttachment, AttachmentType, DecodeTestAttachment);
  }

  // --------------------------------------------------------- activity type

  /** action_test_activity_summary.go: the declared activity types. */
  datatype ActivityType = UserCreated | AssertionFailure | AttachmentContainer | ActivityNone

  function ActivityTypeString(t: ActivityType): string {
    match t
    case UserCreated => "com.apple.dt.xctest.activity-type.userCreated"
    case AssertionFailure => "com.apple.dt.xctest.activity-type.testAssertionFailure"
    case AttachmentContainer => "com.apple.dt.xctest.activity-type.attachmentContainer"
    case ActivityNone => "none"
  }

  /** `activityTypeFromString`: a declared value maps to itself, anything else
      to none. */
  function ActivityTypeFromString(s: string): (r: ActivityType)
    ensures (exists t :: ActivityTypeString(t) == s) ==> ActivityTypeString(r) == s
    ensures (forall t :: ActivityTypeString(t) != s) ==> r == ActivityNone
  {
    if s == ActivityTypeString(UserCreated) then UserCreated
    else if s == ActivityTypeString(AssertionFailure) then AssertionFailure
    else if s == ActivityTypeString(AttachmentContainer) then AttachmentContainer
    else ActivityNone
  }

  /** The four declared values are read back as themselves. */
  lemma ActivityTypeRoundTrip(t: ActivityType)
    ensures ActivityTypeFromString(ActivityTypeString(t)) == t
  {
  }

  /** Reading the string of a read type gives the same type. */
  lemma ActivityTypeFromStringIdempotent(s: string)
    ensures ActivityTypeFromString(ActivityTypeString(ActivityTypeFromString(s))) == ActivityTypeFromString(s)
  {
    ActivityTypeRoundTrip(ActivityTypeFromString(s));
  }

  /** The internal and deleted-attachment types that `xcrun` reports are not
      declared, so this decoder reads both as none. */
  lemma UndeclaredActivityTypesCollapse()
    ensures ActivityTypeFromString("com.apple.dt.xctest.activity-type.internal") == ActivityNone
    ensures ActivityTypeFromString("com.apple.dt.xctest.activity-type.deletedAttachment") == ActivityNone
  {
  }

  // ------------------------------------------------------ activity summary

  /** action_test_activity_summary.go: one activity and its children. */
  datatype ActivitySummary = ActivitySummary(
    title: string,
    activityType: ActivityType,
    attachments: seq<TestAttachment>,
    subactivities: seq<ActivitySummary>)

  /** `ActionTestActivitySummary.Decode`: `title` and `activityType` are
      required `String`s; missing `attachments`/`subactivities` leave the
      lists empty; subactivities are decoded recursively. */
  function DecodeActivity(m: Obj): (r: Result<ActivitySummary>)
    ensures ObjectField(m, "title").None? || ObjectField(m, "activityType").None? ==> r.Err?
    ensures r.Ok? ==> RequiredString(m, "title") == Ok(r.value.title)
    ensures r.Ok? ==> (RequiredString(m, "activityType").Ok? &&
      r.value.activityType == ActivityTypeFromString(RequiredString(m, "activityType").value))
    ensures r.Ok? && ObjectField(m, "attachments").None? ==> r.value.attachments == []
    ensures r.Ok? && ObjectField(m, "attachments").Some? ==>
      DecodeArray(m.fields["attachments"], AttachmentType, DecodeTestAttachment) == Ok(r.value.attachments)
    ensures r.Ok? && ObjectField(m, "subactivities").None? ==> r.value.subactivities == []
    decreases m, 2
  {
    var title :- RequiredString(m, "title");
    var typeString :- RequiredString(m, "activityType");
    var attachments :- OptionalArray(m, "attachments", AttachmentType, DecodeTestAttachment);
    var subactivities :- (
      match ObjectField(m, "subactivities")
      case None => Ok([])
      case Some(a) => DecodeActivityArray(a));
    Ok(ActivitySummary(title, ActivityTypeFromString(typeString), attachments, subactivities))
  }

  /** `DecodeArray[ActionTestActivitySummary]`, spelled out for recursion. */
  function DecodeActivityArray(a: Obj): (r: Result<seq<ActivitySummary>>)
    decreases a, 1
  {
    var items :- ArrayValues(a);
    DecodeActivityItems(items, a)
  }

  function DecodeActivityItems(items: seq<Json>, ghost parent: Json): (r: Result<seq<ActivitySummary>>)
    requires forall k | 0 <= k < |items| :: items[k] < parent
    decreases parent, 0, |items|
  {
    if |items| == 0 then Ok([])
    else
      var first :- (
        if !items[0].JObj? then Err(ElementNotMap)
        else if !IsA(items[0], ActivitySummaryType) then Err(ObjectTypeError(items[0], ActivitySummaryType))
        else DecodeActivity(items[0]));
      var rest :- DecodeActivityItems(items[1..], parent);
      Ok([first] + rest)
  }

  lemma {:induction false} ActivityItemsAreArrayItems(items: seq<Json>, parent: Json)
    requires forall k | 0 <= k < |items| :: items[k] < parent
    ensures DecodeActivityItems(items, parent) == DecodeItems(items, ActivitySummaryType, DecodeActivity)
    decreases |items|
  {
    if |items| > 0 {
      ActivityItemsAreArrayItems(items[1..], parent);
      ActivityElement(items[0]);
    }
  }

  /** The first step of `DecodeActivityItems` is the generic element step. */
  lemma ActivityElement(v: Json)
    ensures DecodeElement(v, ActivitySummaryType, DecodeActivity) ==
      if !v.JObj? then Err(ElementNotMap)
      else if !IsA(v, ActivitySummaryType) then Err(ObjectTypeError(v, ActivitySummaryType))
      else DecodeActivity(v)
  {
  }

  /** Subactivities are the generic array decoding of the `subactivities`
      node: one per entry, in order, each an `ActionTestActivitySummary`. */
  lemma DecodeActivitySubactivities(m: Obj)
    requires DecodeActivity(m).Ok? && ObjectField(m, "subactivities").Some?
    ensures DecodeArray(m.fields["subactivities"], ActivitySummaryType, DecodeActivity) == Ok(DecodeActivity(m).value.subactivities)
  {
    var a: Obj := m.fields["subactivities"];
    var items := ArrayValues(a).value;
    ActivityItemsAreArrayItems(items, a);
  }

  function ActivityFields(x: ActivitySummary): map<string, Json>
    decreases x, 1
  {
    map[
      "title" := StringNode(x.title),
      "activityType" := StringNode(ActivityTypeString(x.activityType)),
      "attachments" := ArrayNode(EncodeAll(x.attachments, EncodeTestAttachment)),
      "subactivities" := ArrayNode(EncodeActivities(x.subactivities, x))]
  }

  /** The encodings of the children of `parent`, in order. */
  function EncodeActivities(xs: seq<ActivitySummary>, ghost parent: ActivitySummary): (r: seq<Json>)
    requires forall k | 0 <= k < |xs| :: xs[k] < parent
    ensures |r| == |xs|
    ensures forall k | 0 <= k < |xs| :: r[k] == EncodeActivity(xs[k])
    decreases parent, 0
  {
    seq(|xs|, i requires 0 <= i < |xs| => var j: Json := EncodeActivity(xs[i]); j)
  }

  function EncodeActivity(x: ActivitySummary): Obj
    decreases x, 2
  {
    Tagged([ActivitySummaryType], ActivityFields(x))
  }

  /** The entries of an encoded activity. */
  lemma EncodeActivityFields(x: ActivitySummary)
    ensures var m := EncodeActivity(x);
      && "title" in m.fields && "activityType" in m.fields
      && "attachments" in m.fields && "subactivities" in m.fields
      && m.fields["title"] == StringNode(x.title)
      && m.fields["activityType"] == StringNode(ActivityTypeString(x.activityType))
      && m.fields["attachments"] == ArrayNode(EncodeAll(x.attachments, EncodeTestAttachment))
      && m.fields["subactivities"] == ArrayNode(EncodeAll(x.subactivities, EncodeActivity))
  {
    assert EncodeActivities(x.subactivities, x) == EncodeAll(x.subactivities, EncodeActivity);
  }

  /** The subactivities of an encoded activity decode back, given that each
      child does. */
  lemma DecodeEncodedChildren(subs: seq<ActivitySummary>)
    requires forall k | 0 <= k < |subs| ::
      IsA(EncodeActivity(subs[k]), ActivitySummaryType) && DecodeActivity(EncodeActivity(subs[k])) == Ok(subs[k])
    ensures DecodeActivityArray(ArrayNode(EncodeAll(subs, EncodeActivity))) == Ok(subs)
  {
    var items := EncodeAll(subs, EncodeActivity);
    DecodeItemsOfEncoded(subs, EncodeActivity, ActivitySummaryType, DecodeActivity);
    ArrayValuesOfNode(items);
    ActivityItemsAreArrayItems(items, ArrayNode(items));
  }

  lemma {:induction false} DecodeActivityRoundTrip(x: ActivitySummary)
    ensures DecodeActivity(EncodeActivity(x)) == Ok(x)
    ensures IsA(EncodeActivity(x), ActivitySummaryType)
    decreases x
  {
    var m := EncodeActivity(x);
    var subs := x.subactivities;
    forall k | 0 <= k < |subs|
      ensures IsA(EncodeActivity(subs[k]), ActivitySummaryType)
      ensures DecodeActivity(EncodeActivity(subs[k])) == Ok(subs[k])
    {
      DecodeActivityRoundTrip(subs[k]);
    }
    EncodeActivityFields(x);
    DecodeEncodedChildren(subs);
    DecodeStringNode(x.title);
    DecodeStringNode(ActivityTypeString(x.activityType));
    ActivityTypeRoundTrip(x.activityType);
    DecodeTestAttachmentsRoundTrip(x.attachments);
    assert RequiredString(m, "title") == Ok(x.title);
    assert RequiredString(m, "activityType") == Ok(ActivityTypeString(x.activityType));
    assert OptionalArray(m, "attachments", AttachmentType, DecodeTestAttachment) == Ok(x.attachments);
    IsATagged([ActivitySummaryType], ActivityFields(x), ActivitySummaryType);
  }

  // ----------------------------------------------------------- test summary

  /** action_test_summary.go. `duration` keeps the `Double` literal (`None`
      is the zero duration); `status` is the raw string, not validated. */
  datatype TestSummary = TestSummary(
    abs: Abstract,
    duration: Option<string>,
    status: string,
    activities: seq<ActivitySummary>)

  /** `ActionTestSummary.Decode`. */
  function DecodeTestSummary(m: Obj): (r: Result<TestSummary>)
    ensures DecodeAbstract(m).Err? ==> r.Err?
    ensures r.Ok? ==> DecodeAbstract(m) == Ok(r.value.abs)
    ensures r.Ok? ==> (r.value.duration.None? <==> ObjectField(m, "duration").None?)
    ensures r.Ok? && ObjectField(m, "testStatus").None? ==> r.value.status == ""
    ensures r.Ok? && ObjectField(m, "testStatus").Some? ==> DecodeString(m.fields["testStatus"]) == Ok(r.value.status)
    ensures r.Ok? ==> OptionalArray(m, "activitySummaries", ActivitySummaryType, DecodeActivity) == Ok(r.value.activities)
  {
    var abs :- DecodeAbstract(m);
    var duration :- OptionalDouble(m, "duration");
    var status :- OptionalString(m, "testStatus");
    var activities :- OptionalArray(m, "activitySummaries", ActivitySummaryType, DecodeActivity);
    Ok(TestSummary(abs, duration, status.GetOr(""), activities))
  }

  function TestSummaryFields(x: TestSummary): map<string, Json> {
    var own := map["testStatus" := StringNode(x.status),
                   "activitySummaries" := ArrayNode(EncodeAll(x.activities, EncodeActivity))];
    var withDuration := WithOptional(own, "duration", match x.duration case None => None case Some(d) => Some(DoubleNode(d)));
    WithAbstract(withDuration, x.abs)
  }

  function EncodeTestSummary(x: TestSummary): Obj
  {
    Tagged([TestSummaryType, IdentifiableType, AbstractType], TestSummaryFields(x))
  }

  /** Any status, declared or not ("Skipped", say, or ""), survives the
      round trip unchanged. */
  lemma DecodeTestSummaryRoundTrip(x: TestSummary)
    ensures DecodeTestSummary(EncodeTestSummary(x)) == Ok(x)
    ensures IsA(EncodeTestSummary(x), TestSummaryType)
  {
    var m := EncodeTestSummary(x);
    var activities := ArrayNode(EncodeAll(x.activities, EncodeActivity));
    TestSummaryEntries(x);
    DecodeAbstractOfFields(x.abs, m);
    if x.duration.Some? {
      DecodeDoubleNode(x.duration.value);
    }
    assert OptionalDouble(m, "duration") == Ok(x.duration);
    OptionalStringOfNode(m, "testStatus", Some(x.status));
    DecodeActivitiesRoundTrip(x.activities);
    assert OptionalArray(m, "activitySummaries", ActivitySummaryType, DecodeActivity) == Ok(x.activities);
    IsATagged([TestSummaryType, IdentifiableType, AbstractType], TestSummaryFields(x), TestSummaryType);
  }

  /** The entries of an encoded test summary. */
  lemma TestSummaryEntries(x: TestSummary)
    ensures var m := EncodeTestSummary(x);
      && "name" in m.fields && m.fields["name"] == StringNode(x.abs.name)
      && (x.abs.identifier.None? ==> "identifier" !in m.fields)
      && (x.abs.identifier.Some? ==> "identifier" in m.fields && m.fields["identifier"] == StringNode(x.abs.identifier.value))
      && "testStatus" in m.fields && m.fields["testStatus"] == StringNode(x.status)
      && "activitySummaries" in m.fields && m.fields["activitySummaries"] == ArrayNode(EncodeAll(x.activities, EncodeActivity))
      && (x.duration.None? ==> "duration" !in m.fields)
      && (x.duration.Some? ==> "duration" in m.fields && m.fields["duration"] == DoubleNode(x.duration.value))
  {
  }

  lemma DecodeActivitiesRoundTrip(xs: seq<ActivitySummary>)
    ensures DecodeArray(ArrayNode(EncodeAll(xs, EncodeActivity)), ActivitySummaryType, DecodeActivity) == Ok(xs)
  {
    forall k | 0 <= k < |xs|
      ensures IsA(EncodeActivity(xs[k]), ActivitySummaryType)
      ensures DecodeActivity(EncodeActivity(xs[k])) == Ok(xs[k])
    {
      DecodeActivityRoundTrip(xs[k]);
    }
    DecodeArrayOfEncoded(xs, EncodeActivity, ActivitySummaryType, DecodeActivity);
  }

  // ------------------------------------------------------------ test nodes

  /** An element of a heterogeneous test array: a group of subtests
      (action_test_summary_group.go) or one test's metadata
      (action_test_metadata.go). */
  datatype TestNode =
    | Group(abs: Abstract, subtests: seq<TestNode>)
    | Metadata(abs: Abstract, summaryRef: Option<Reference>)

  datatype NodeKind = GroupKind | MetadataKind

  /** The package `factory` (factory.go) and the local one that
      `ActionTestableSummary.Decode` passes for its `tests`. */
  datatype Factory = PackageFactory | TestableFactory

  /** A registry lookup. The package factory panics on an unknown name; the
      local one returns nil, whose `Decode` then panics. Each lookup makes a
      fresh zero-valued record, so decoded nodes share nothing. */
  function Lookup(f: Factory, typ: string): (r: Result<NodeKind>)
    ensures r == Ok(GroupKind) <==> typ == GroupType
    ensures r == Ok(MetadataKind) <==> f.PackageFactory? && typ == MetadataType
    ensures r.Err? <==> typ != GroupType && !(f.PackageFactory? && typ == MetadataType)
  {
    if typ == GroupType then Ok(GroupKind)
    else if f.PackageFactory? && typ == MetadataType then Ok(MetadataKind)
    else
      match f
      case PackageFactory => Err("factory unknown type \"" + typ + "\"")
      case TestableFactory => Err("factory returned nil")
  }

  /** Supertype names are not registered, and the testable summary's local
      registry does not know metadata. */
  lemma LookupIsClosed()
    ensures Lookup(PackageFactory, AbstractType).Err?
    ensures Lookup(PackageFactory, IdentifiableType).Err?
    ensures Lookup(TestableFactory, MetadataType).Err?
    ensures Lookup(PackageFactory, MetadataType) == Ok(MetadataKind)
  {
  }

  /** `ActionTestMetadata.Decode`: the abstract fields, then the optional
      `summaryRef`. */
  function DecodeMetadata(m: Obj): (r: Result<TestNode>)
    ensures DecodeAbstract(m).Err? ==> r.Err?
    ensures r.Ok? ==> r.value.Metadata? && DecodeAbstract(m) == Ok(r.value.abs)
    ensures r.Ok? ==> OptionalReference(m, "summaryRef") == Ok(r.value.summaryRef)
    ensures r.Ok? && ObjectField(m, "summaryRef").None? ==> r.value.summaryRef.None?
  {
    var abs :- DecodeAbstract(m);
    var ref :- OptionalReference(m, "summaryRef");
    Ok(Metadata(abs, ref))
  }

  /** `DecodeVarObject`: the record is chosen by the first (most derived)
      type name alone, and is not checked against the expected type. */
  function DecodeVarObject(m: Obj, f: Factory): (r: Result<TestNode>)
    ensures r.Ok? ==> Types(m).Ok? && Lookup(f, Types(m).value[0]).Ok?
    ensures r.Ok? ==> (r.value.Group? <==> TypeName(m) == Ok(GroupType))
    ensures r.Ok? && f.TestableFactory? ==> r.value.Group?
    decreases m, 3
  {
    var names :- Types(m);
    var kind :- Lookup(f, names[0]);
    match kind
    case GroupKind => DecodeGroup(m)
    case MetadataKind => DecodeMetadata(m)
  }

  /** `ActionTestSummaryGroup.Decode`: the abstract fields, then the optional
      `subtests`, each through the package factory. */
  function DecodeGroup(m: Obj): (r: Result<TestNode>)
    ensures DecodeAbstract(m).Err? ==> r.Err?
    ensures r.Ok? ==> r.value.Group? && DecodeAbstract(m) == Ok(r.value.abs)
    ensures r.Ok? && ObjectField(m, "subtests").None? ==> r.value.subtests == []
    decreases m, 2
  {
    var abs :- DecodeAbstract(m);
    var subtests :- (
      match ObjectField(m, "subtests")
      case None => Ok([])
      case Some(a) => DecodeVarArray(a, PackageFactory));
    Ok(Group(abs, subtests))
  }

  /** `DecodeVarArray`: the node's own type must be exactly `Array`; one
      node per entry, in order. */
  function DecodeVarArray(a: Obj, f: Factory): (r: Result<seq<TestNode>>)
    ensures ArrayValues(a).Err? ==> r.Err?
    ensures r.Ok? ==> ArrayValues(a).Ok? && r == DecodeVarItems(ArrayValues(a).value, f, a)
    decreases a, 1
  {
    var items :- ArrayValues(a);
    DecodeVarItems(items, f, a)
  }

  function DecodeVarItems(items: seq<Json>, f: Factory, ghost parent: Json): (r: Result<seq<TestNode>>)
    requires forall k | 0 <= k < |items| :: items[k] < parent
    ensures r.Ok? <==> forall k | 0 <= k < |items| :: items[k].JObj? && DecodeVarObject(items[k], f).Ok?
    ensures r.Ok? ==> |r.value| == |items|
    ensures r.Ok? ==> forall k | 0 <= k < |items| :: DecodeVarObject(items[k], f) == Ok(r.value[k])
    ensures r.Ok? && f.TestableFactory? ==> forall k | 0 <= k < |r.value| :: r.value[k].Group?
    decreases parent, 0
  {
    var decoded := seq(|items|, k requires 0 <= k < |items| => DecodeVarItem(items[k], f));
    assert forall k | 0 <= k < |items| :: decoded[k] == DecodeVarItem(items[k], f);
    AllOk(decoded)
  }

  /** One element of a node array: it must be an object, decoded through
      the factory. */
  function DecodeVarItem(item: Json, f: Factory): (r: Result<TestNode>)
    ensures r.Ok? <==> item.JObj? && DecodeVarObject(item, f).Ok?
    ensures item.JObj? ==> r == DecodeVarObject(item, f)
    decreases item, 4
  {
    if !item.JObj? then Err(ElementNotMap)
    else DecodeVarObject(item, f)
  }

  function NodeType(n: TestNode): string {
    if n.Group? then GroupType else MetadataType
  }

  function NodeFields(n: TestNode): map<string, Json>
    decreases n, 1
  {
    match n
    case Group(abs, subs) => WithAbstract(map["subtests" := ArrayNode(EncodeNodes(subs, n))], abs)
    case Metadata(abs, ref) => WithAbstract(WithOptional(map[], "summaryRef", OptionalReferenceNode(ref)), abs)
  }

  /** The encodings of the subtests of `parent`, in order. */
  function EncodeNodes(xs: seq<TestNode>, ghost parent: TestNode): (r: seq<Json>)
    requires forall k | 0 <= k < |xs| :: xs[k] < parent
    ensures |r| == |xs|
    ensures forall k | 0 <= k < |xs| :: r[k] == EncodeNode(xs[k])
    decreases parent, 0
  {
    seq(|xs|, i requires 0 <= i < |xs| => var j: Json := EncodeNode(xs[i]); j)
  }

  function EncodeNode(n: TestNode): Obj
    decreases n, 2
  {
    Tagged([NodeType(n), IdentifiableType, AbstractType], NodeFields(n))
  }

  lemma DecodeEncodedNodes(subs: seq<TestNode>, f: Factory)
    requires forall k | 0 <= k < |subs| :: DecodeVarObject(EncodeNode(subs[k]), f) == Ok(subs[k])
    ensures DecodeVarArray(ArrayNode(EncodeAll(subs, EncodeNode)), f) == Ok(subs)
  {
    var items := EncodeAll(subs, EncodeNode);
    var a := ArrayNode(items);
    ArrayValuesOfNode(items);
    var r := DecodeVarItems(items, f, a);
    assert r.Ok?;
    assert r.value == subs;
  }

  /** Every node the package factory knows survives the round trip. */
  lemma {:induction false} DecodeNodeRoundTrip(n: TestNode)
    ensures DecodeVarObject(EncodeNode(n), PackageFactory) == Ok(n)
    decreases n
  {
    match n
    case Group(abs, subs) =>
      forall k | 0 <= k < |subs|
        ensures DecodeVarObject(EncodeNode(subs[k]), PackageFactory) == Ok(subs[k])
      {
        DecodeNodeRoundTrip(subs[k]);
      }
      GroupRoundTrip(abs, subs);
    case Metadata(abs, ref) =>
      MetadataRoundTrip(abs, ref);
  }

  /** A group whose subtests each survive the round trip survives it. */
  lemma GroupRoundTrip(abs: Abstract, subs: seq<TestNode>)
    requires forall k | 0 <= k < |subs| :: DecodeVarObject(EncodeNode(subs[k]), PackageFactory) == Ok(subs[k])
    ensures DecodeVarObject(EncodeNode(Group(abs, subs)), PackageFactory) == Ok(Group(abs, subs))
  {
    var n := Group(abs, subs);
    var names := [GroupType, IdentifiableType, AbstractType];
    var node := ArrayNode(EncodeAll(subs, EncodeNode));
    var fields := WithAbstract(map["subtests" := node], abs);
    assert EncodeNodes(subs, n) == EncodeAll(subs, EncodeNode);
    assert EncodeNode(n) == Tagged(names, fields);
    TypesOfTagged(names, fields);
    DecodeEncodedNodes(subs, PackageFactory);
    TaggedAbstract(names, map["subtests" := node], abs, "subtests");
    DecodeGroupOf(Tagged(names, fields), abs, node, subs);
    DispatchesTo(Tagged(names, fields), GroupType);
  }

  /** Through the package factory an object whose own type is `kind` goes
      to that kind's decoder. */
  lemma DispatchesTo(m: Obj, kind: string)
    requires Types(m).Ok? && Types(m).value[0] == kind
    requires kind == GroupType || kind == MetadataType
    ensures kind == GroupType ==> DecodeVarObject(m, PackageFactory) == DecodeGroup(m)
    ensures kind == MetadataType ==> DecodeVarObject(m, PackageFactory) == DecodeMetadata(m)
  {
  }

  lemma DecodeGroupOf(m: Obj, abs: Abstract, node: Obj, subs: seq<TestNode>)
    requires DecodeAbstract(m) == Ok(abs)
    requires "subtests" in m.fields && m.fields["subtests"] == node
    requires DecodeVarArray(node, PackageFactory) == Ok(subs)
    ensures DecodeGroup(m) == Ok(Group(abs, subs))
  {
    assert ObjectField(m, "subtests") == Some(node);
  }

  lemma MetadataRoundTrip(abs: Abstract, ref: Option<Reference>)
    ensures DecodeVarObject(EncodeNode(Metadata(abs, ref)), PackageFactory) == Ok(Metadata(abs, ref))
  {
    var n := Metadata(abs, ref);
    TypesOfTagged([MetadataType, IdentifiableType, AbstractType], NodeFields(n));
    MetadataFieldsDecode(abs, ref);
    DispatchesTo(EncodeNode(n), MetadataType);
  }

  /** The fields of an encoded metadata node decode to its parts. */
  lemma MetadataFieldsDecode(abs: Abstract, ref: Option<Reference>)
    ensures var m := EncodeNode(Metadata(abs, ref));
      DecodeAbstract(m) == Ok(abs) && OptionalReference(m, "summaryRef") == Ok(ref)
  {
    var names := [MetadataType, IdentifiableType, AbstractType];
    var m := EncodeNode(Metadata(abs, ref));
    var fields := WithAbstract(WithOptional(map[], "summaryRef", OptionalReferenceNode(ref)), abs);
    assert NodeFields(Metadata(abs, ref)) == fields;
    assert m == Tagged(names, fields);
    match ref
    case None =>
      var named := map["name" := StringNode(abs.name)];
      assert m.fields == WithOptional(named, "identifier", OptionalStringNode(abs.identifier))["_type" := TypeTag(names)];
      assert "summaryRef" !in m.fields;
      OptionalReferenceOfNode(m, "summaryRef", ref);
      DecodeAbstractOfFields(abs, m);
    case Some(x) =>
      var fields := map["summaryRef" := EncodeReference(x)];
      assert m == Tagged(names, WithAbstract(fields, abs));
      TaggedAbstract(names, fields, abs, "summaryRef");
      OptionalReferenceOfNode(m, "summaryRef", ref);
  }

  /** A node whose own type derives from a registered one is still rejected:
      only the first name is looked up. */
  lemma DecodeVarObjectUsesFirstName(abs: Abstract)
    ensures IsA(Tagged(["CustomGroup", GroupType], WithAbstract(map[], abs)), GroupType)
    ensures DecodeVarObject(Tagged(["CustomGroup", GroupType], WithAbstract(map[], abs)), PackageFactory).Err?
  {
    IsATagged(["CustomGroup", GroupType], WithAbstract(map[], abs), GroupType);
  }

  /** Metadata decodes through the package factory but not through the
      testable summary's local one. */
  lemma TestableFactoryRejectsMetadata(abs: Abstract, ref: Option<Reference>)
    ensures DecodeVarObject(EncodeNode(Metadata(abs, ref)), PackageFactory).Ok?
    ensures DecodeVarObject(EncodeNode(Metadata(abs, ref)), TestableFactory).Err?
  {
    DecodeNodeRoundTrip(Metadata(abs, ref));
  }

  // ------------------------------------------------------ testable summary

  /** action_testable_summary.go. */
  datatype TestableSummary = TestableSummary(abs: Abstract, tests: seq<TestNode>)

  /** `ActionTestableSummary.Decode`: the abstract fields, then the required
      `tests`, through the local registry that knows only groups. */
  function DecodeTestableSummary(m: Obj): (r: Result<TestableSummary>)
    ensures DecodeAbstract(m).Err? || ObjectField(m, "tests").None? ==> r.Err?
    ensures r.Ok? ==> DecodeAbstract(m) == Ok(r.value.abs)
    ensures r.Ok? ==> DecodeVarArray(m.fields["tests"], TestableFactory) == Ok(r.value.tests)
    ensures r.Ok? ==> forall k | 0 <= k < |r.value.tests| :: r.value.tests[k].Group?
  {
    var abs :- DecodeAbstract(m);
    var tests :- RequiredObject(m, "tests");
    var nodes :- DecodeVarArray(tests, TestableFactory);
    Ok(TestableSummary(abs, nodes))
  }

  /** A testable summary whose tests are all groups, as the decoder demands. */
  predicate GroupsOnly(t: TestableSummary) {
    forall k | 0 <= k < |t.tests| :: t.tests[k].Group?
  }

  function TestableSummaryFields(t: TestableSummary): map<string, Json> {
    WithAbstract(map["tests" := ArrayNode(EncodeAll(t.tests, EncodeNode))], t.abs)
  }

  function EncodeTestableSummary(t: TestableSummary): Obj {
    Tagged([TestableSummaryType, AbstractType], TestableSummaryFields(t))
  }

  lemma DecodeTestableSummaryRoundTrip(t: TestableSummary)
    requires GroupsOnly(t)
    ensures DecodeTestableSummary(EncodeTestableSummary(t)) == Ok(t)
    ensures IsA(EncodeTestableSummary(t), TestableSummaryType)
  {
    var m := EncodeTestableSummary(t);
    var node := ArrayNode(EncodeAll(t.tests, EncodeNode));
    GroupsThroughTestableFactory(t.tests);
    assert TestableSummaryFields(t) == WithAbstract(map["tests" := node], t.abs);
    TaggedAbstract([TestableSummaryType, AbstractType], map["tests" := node], t.abs, "tests");
    assert RequiredObject(m, "tests") == Ok(node);
    IsATagged([TestableSummaryType, AbstractType], TestableSummaryFields(t), TestableSummaryType);
  }

  lemma GroupsThroughTestableFactory(tests: seq<TestNode>)
    requires forall k | 0 <= k < |tests| :: tests[k].Group?
    ensures DecodeVarArray(ArrayNode(EncodeAll(tests, EncodeNode)), TestableFactory) == Ok(tests)
  {
    forall k | 0 <= k < |tests|
      ensures DecodeVarObject(EncodeNode(tests[k]), TestableFactory) == Ok(tests[k])
    {
      GroupThroughTestableFactory(tests[k]);
    }
    DecodeEncodedNodes(tests, TestableFactory);
  }

  /** The testable summary's factory decodes an encoded group as the
      package factory does. */
  lemma GroupThroughTestableFactory(n: TestNode)
    requires n.Group?
    ensures DecodeVarObject(EncodeNode(n), TestableFactory) == Ok(n)
  {
    DecodeNodeRoundTrip(n);
    TypesOfTagged([NodeType(n), IdentifiableType, AbstractType], NodeFields(n));
  }

  // ------------------------------------------------------- plan run summary

  /** action_test_plan_run_summary.go. */
  datatype PlanRunSummary = PlanRunSummary(abs: Abstract, testables: seq<TestableSummary>)

  /** `ActionTestPlanRunSummary.Decode`: the abstract fields, then the
      required `testableSummaries`, each an `ActionTestableSummary`. */
  function DecodePlanRunSummary(m: Obj): (r: Result<PlanRunSummary>)
    ensures DecodeAbstract(m).Err? || ObjectField(m, "testableSummaries").None? ==> r.Err?
    ensures r.Ok? ==> DecodeAbstract(m) == Ok(r.value.abs)
    ensures r.Ok? ==> DecodeArray(m.fields["testableSummaries"], TestableSummaryType, DecodeTestableSummary) == Ok(r.value.testables)
  {
    var abs :- DecodeAbstract(m);
    var node :- RequiredObject(m, "testableSummaries");
    var testables :- DecodeArray(node, TestableSummaryType, DecodeTestableSummary);
    Ok(PlanRunSummary(abs, testables))
  }

  function PlanRunSummaryFields(p: PlanRunSummary): map<string, Json> {
    WithAbstract(map["testableSummaries" := ArrayNode(EncodeAll(p.testables, EncodeTestableSummary))], p.abs)
  }

  function EncodePlanRunSummary(p: PlanRunSummary): Obj {
    Tagged([PlanRunSummaryType, AbstractType], PlanRunSummaryFields(p))
  }

  lemma DecodeTestableSummariesRoundTrip(ts: seq<TestableSummary>)
    requires forall k | 0 <= k < |ts| :: GroupsOnly(ts[k])
    ensures DecodeArray(ArrayNode(EncodeAll(ts, EncodeTestableSummary)), TestableSummaryType, DecodeTestableSummary) == Ok(ts)
  {
    forall k | 0 <= k < |ts|
      ensures IsA(EncodeTestableSummary(ts[k]), TestableSummaryType)
      ensures DecodeTestableSummary(EncodeTestableSummary(ts[k])) == Ok(ts[k])
    {
      DecodeTestableSummaryRoundTrip(ts[k]);
    }
    DecodeArrayOfEncoded(ts, EncodeTestableSummary, TestableSummaryType, DecodeTestableSummary);
  }

  lemma DecodePlanRunSummaryRoundTrip(p: PlanRunSummary)
    requires forall k | 0 <= k < |p.testables| :: GroupsOnly(p.testables[k])
    ensures DecodePlanRunSummary(EncodePlanRunSummary(p)) == Ok(p)
    ensures IsA(EncodePlanRunSummary(p), PlanRunSummaryType)
  {
    var m := EncodePlanRunSummary(p);
    var node := ArrayNode(EncodeAll(p.testables, EncodeTestableSummary));
    DecodeTestableSummariesRoundTrip(p.testables);
    TaggedAbstract([PlanRunSummaryType, AbstractType], map["testableSummaries" := node], p.abs, "testableSummaries");
    DecodePlanRunSummaryOf(m, p.abs, node, p.testables);
    IsATagged([PlanRunSummaryType, AbstractType], PlanRunSummaryFields(p), PlanRunSummaryType);
  }

  lemma DecodePlanRunSummaryOf(m: Obj, abs: Abstract, node: Obj, testables: seq<TestableSummary>)
    requires DecodeAbstract(m) == Ok(abs)
    requires "testableSummaries" in m.fields && m.fields["testableSummaries"] == node
    requires DecodeArray(node, TestableSummaryType, DecodeTestableSummary) == Ok(testables)
    ensures DecodePlanRunSummary(m) == Ok(PlanRunSummary(abs, testables))
  {
    assert RequiredObject(m, "testableSummaries") == Ok(node);
  }

  /** action_test_plan_run_summaries.go. */
  datatype PlanRunSummaries = PlanRunSummaries(summaries: seq<PlanRunSummary>)

  /** `ActionTestPlanRunSummaries.Decode`: the required `summaries`, each an
      `ActionTestPlanRunSummary`, one per entry and in order. */
  function DecodePlanRunSummaries(m: Obj): (r: Result<PlanRunSummaries>)
    ensures ObjectField(m, "summaries").None? ==> r.Err?
    ensures r.Ok? ==> DecodeArray(m.fields["summaries"], PlanRunSummaryType, DecodePlanRunSummary) == Ok(r.value.summaries)
  {
    var node :- RequiredObject(m, "summaries");
    var summaries :- DecodeArray(node, PlanRunSummaryType, DecodePlanRunSummary);
    Ok(PlanRunSummaries(summaries))
  }

  function EncodePlanRunSummaries(s: PlanRunSummaries): Obj {
    Tagged([PlanRunSummariesType], map["summaries" := ArrayNode(EncodeAll(s.summaries, EncodePlanRunSummary))])
  }

  lemma DecodePlanRunSummariesRoundTrip(s: PlanRunSummaries)
    requires forall i, k | 0 <= i < |s.summaries| && 0 <= k < |s.summaries[i].testables| ::
      GroupsOnly(s.summaries[i].testables[k])
    ensures DecodePlanRunSummaries(EncodePlanRunSummaries(s)) == Ok(s)
  {
    forall i | 0 <= i < |s.summaries|
      ensures IsA(EncodePlanRunSummary(s.summaries[i]), PlanRunSummaryType)
      ensures DecodePlanRunSummary(EncodePlanRunSummary(s.summaries[i])) == Ok(s.summaries[i])
    {
      DecodePlanRunSummaryRoundTrip(s.summaries[i]);
    }
    DecodeArrayOfEncoded(s.summaries, EncodePlanRunSummary, PlanRunSummaryType, DecodePlanRunSummary);
  }

  // ---------------------------------------------------------- action result

  /** action_result.go. */
  datatype ActionResult = ActionResult(testsRef: Option<Reference>)

  /** `ActionResult.Decode`: a missing (or non-object) `testsRef` gives none;
      a present one goes through `DecodeObject`, so it must be a `Reference`. */
  function DecodeActionResult(m: Obj): (r: Result<ActionResult>)
    ensures ObjectField(m, "testsRef").None? ==> r == Ok(ActionResult(None))
    ensures ObjectField(m, "testsRef").Some? && !IsA(m.fields["testsRef"], ReferenceType) ==> r.Err?
    ensures ObjectField(m, "testsRef").Some? && IsA(m.fields["testsRef"], ReferenceType) ==>
      (r.Ok? <==> DecodeReference(m.fields["testsRef"]).Ok?) &&
      (r.Ok? ==> r.value.testsRef == Some(DecodeReference(m.fields["testsRef"]).value))
  {
    match ObjectField(m, "testsRef")
    case None => Ok(ActionResult(None))
    case Some(v) =>
      var ref :- DecodeObject(v, ReferenceType, DecodeReference);
      Ok(ActionResult(Some(ref)))
  }

  /** The same untagged reference node is accepted as an attachment's
      `payloadRef` (decoded directly) but rejected as `testsRef` (decoded
      through `DecodeObject`). */
  lemma TestsRefIsTypeChecked(x: Reference)
    ensures OptionalReference(HoldingStringTagged("payloadRef", x), "payloadRef") == Ok(Some(x))
    ensures DecodeActionResult(HoldingStringTagged("testsRef", x)).Err?
  {
    var node := Tagged(["String"], ReferenceFields(x));
    UntaggedReferenceDecodes(x, node);
    IsATagged(["String"], ReferenceFields(x), ReferenceType);
    assert !IsA(node, ReferenceType);
  }

  /** An object holding, under `key`, the fields of reference `x` tagged
      as a `String` rather than a `Reference`. */
  function HoldingStringTagged(key: string, x: Reference): (m: Obj)
    ensures ObjectField(m, key) == Some(Tagged(["String"], ReferenceFields(x)))
  {
    JObj(map[key := Tagged(["String"], ReferenceFields(x))])
  }

  /** A reference node tagged with another type still decodes directly. */
  lemma UntaggedReferenceDecodes(x: Reference, node: Obj)
    requires node == Tagged(["String"], ReferenceFields(x))
    ensures DecodeReference(node) == Ok(x)
  {
    DecodeReferenceRoundTrip(x);
    DecodeReferenceIgnoresType(EncodeReference(x), TypeTag(["String"]));
    assert JObj(EncodeReference(x).fields["_type" := TypeTag(["String"])]) == node;
  }

  // ------------------------------------------------------------- type info

  /** The name that unmarshalling into `typeInfo` yields: empty when `_type`
      or its `_name` is missing or null, an unmarshal error when either has
      the wrong JSON kind. */
  function TypeInfoName(j: Json): (r: Result<string>)
    ensures j.JObj? && "_type" !in j.fields ==> r == Ok("")
    ensures !j.JObj? && !j.JNull? ==> r.Err?
  {
    match j
    case JNull => Ok("")
    case JObj(fields) =>
      if "_type" !in fields then Ok("")
      else (
        match fields["_type"]
        case JNull => Ok("")
        case JObj(t) =>
          if "_name" !in t then Ok("")
          else (
            match t["_name"]
            case JNull => Ok("")
            case JStr(name) => Ok(name)
            case _ => Err(UnmarshalNameError))
        case _ => Err(UnmarshalTypeError))
    case _ => Err(UnmarshalTypeInfoError)
  }

  const UnmarshalNameError: string := "json: cannot unmarshal into Go struct field typeInfo._type._name of type string"
  const UnmarshalTypeError: string := "json: cannot unmarshal into Go struct field typeInfo._type"
  const UnmarshalTypeInfoError: string := "json: cannot unmarshal into Go value of type model.typeInfo"

  /** On a well-typed node the name `assertType` reads is the decoder's
      `typeName`, and a non-empty name read by `assertType` is always that. */
  lemma TypeInfoNameAgrees(j: Json)
    ensures j.JObj? && TypeName(j).Ok? ==> TypeInfoName(j) == TypeName(j)
    ensures TypeInfoName(j).Ok? && TypeInfoName(j).value != "" ==> j.JObj? && TypeName(j) == TypeInfoName(j)
  {
    if j.JObj? && "_type" in j.fields && j.fields["_type"].JObj? {
      var t: Obj := j.fields["_type"];
      assert ObjectField(j, "_type") == Some(t);
      if "_name" in t.fields && t.fields["_name"].JStr? {
        assert StringField(t, "_name") == Some(t.fields["_name"].s);
      }
    }
  }

  /** `assertType`: `parsed` is the outcome of `json.Unmarshal`; the node's own
      name must equal `expected` exactly. */
  function AssertType(parsed: Result<Json>, expected: string): (r: Result<()>)
    ensures parsed.Err? ==> r == Err(parsed.msg)
    ensures r.Ok? <==> parsed.Ok? && TypeInfoName(parsed.value) == Ok(expected)
    ensures parsed.Ok? && TypeInfoName(parsed.value).Ok? && TypeInfoName(parsed.value).value != expected ==>
      r == Err("underlying type is \"" + TypeInfoName(parsed.value).value + "\" (expected \"" + expected + "\")")
  {
    var j :- parsed;
    var name :- TypeInfoName(j);
    if name != expected then
      Err("underlying type is \"" + name + "\" (expected \"" + expected + "\")")
    else Ok(())
  }

  /** Unlike `DecodeObject`, `assertType` never consults supertypes. */
  lemma AssertTypeIgnoresSupertypes(names: seq<string>, fields: map<string, Json>)
    requires |names| >= 2 && names[0] != names[1]
    ensures IsA(Tagged(names, fields), names[1])
    ensures AssertType(Ok(Tagged(names, fields)), names[1]).Err?
  {
    IsATagged(names, fields, names[1]);
    TypesOfTagged(names, fields);
  }

  /** A document without `_type` has the empty name, which matches no
      non-empty expected name. */
  lemma AssertTypeWithoutType(fields: map<string, Json>, expected: string)
    requires "_type" !in fields && expected != ""
    ensures AssertType(Ok(JObj(fields)), expected) == Err("underlying type is \"\" (expected \"" + expected + "\")")
  {
  }
}

=== FILE: xctest.dfy ===
/** internal/parsers/xctest/xctest.go: turning the test summaries of an
    `.xcresult` bundle into results with step trees. `xcrun` (reading a
    summary or an attachment), JSON parsing, `strconv.ParseFloat` and time
    parsing are oracles; times and durations are opaque integers. The
    package globals `caseId`, `failures` and `processedFailures` become an
    explicit state threaded through the step walk and a read-only table. */
module XcTest {
  import opened Wrappers
  import opened Text
  import opened Results
  import opened StepLevels
  import opened FileSniff
  import Utils

  // ---------------------------------------------------------------- parser

  datatype Parser = Parser(path: string, level: StepLevel)

  /** `NewParser`: only a path ending in ".xcresult" is accepted. */
  function NewParser(path: string, level: string): (r: Result<Parser>)
    ensures r.Ok? <==> HasSuffix(path, ".xcresult")
    ensures r.Ok? ==> r.value == Parser(path, ParseStepLevel(level))
    ensures r.Err? ==> r.msg == "unsupported format: " + path
  {
    if !HasSuffix(path, ".xcresult") then Err("unsupported format: " + path)
    else Ok(Parser(path, ParseStepLevel(level)))
  }

  // ------------------------------------------------------------------ data

  const InternalStep := "com.apple.dt.xctest.activity-type.internal"
  const DeleteStep := "com.apple.dt.xctest.activity-type.deletedAttachment"
  const AttachmentStep := "com.apple.dt.xctest.activity-type.attachmentContainer"
  const QaseConfig := "Qase config"

  datatype XcAttachment = XcAttachment(filename: string, name: string, payloadId: string)

  /** One activity of a test. A missing `attachments` or `subactivities`
      list behaves exactly like an empty one; a missing
      `failureSummaryIDs` list does not (the activity's own attachments are
      collected only when the list is present). */
  datatype Activity = Activity(
    activityType: string,
    title: string,
    start: string,
    finish: string,
    attachments: seq<XcAttachment>,
    subactivities: seq<Activity>,
    failureSummaryIds: Option<seq<string>>)

  datatype FailureSummary = FailureSummary(
    uuid: string,
    lineNumber: string,
    message: string,
    attachments: seq<XcAttachment>)

  datatype ActionTestSummary = ActionTestSummary(
    activities: seq<Activity>,
    testStatus: string,
    failureSummaries: Option<seq<FailureSummary>>)

  /** A node of the test-plan tree: a test when it has a summary
      reference, a group otherwise. */
  datatype SubtestNode = SubtestNode(
    name: string,
    duration: string,
    identifierUrl: string,
    summaryRef: Option<string>,
    subtests: seq<SubtestNode>)

  datatype TestMeta = TestMeta(
    startTime: Option<int>,
    endTime: Option<int>,
    device: string,
    configuration: string,
    suite: string)

  const NoMeta := TestMeta(None, None, "", "", "")

  datatype XCTest = XCTest(
    name: string,
    action: ActionTestSummary,
    suites: seq<string>,
    signature: string,
    duration: int,
    metadata: TestMeta)

  /** The external collaborators: `summary(id)` is `getActionTestSummary`
      (an `xcrun` read and a JSON decode), `readAttachment(id)` exports an
      attachment's bytes, `isJson` is whether `json.Unmarshal` accepts
      bytes, `parseCaseId` decodes a `Qase config` payload, `parseDuration`
      is `strconv.ParseFloat`, and `seconds`/`millis` are `parseTime`
      followed by `Unix`/`UnixMilli`. */
  datatype Tool = Tool(
    summary: string -> Option<ActionTestSummary>,
    readAttachment: string -> Option<seq<byte>>,
    isJson: seq<byte> -> bool,
    parseCaseId: seq<byte> -> Option<int>,
    parseDuration: string -> Option<int>,
    seconds: string -> int,
    millis: string -> int)

  // ---------------------------------------------------------------- status

  /** `getStatus`: the four XCTest outcomes map to result statuses; every
      other string, the empty one included, counts as passed. */
  function GetStatus(s: string): (r: string)
    ensures r == "failed" <==> s == "Failure"
    ensures r == "invalid" <==> s == "Error"
    ensures r == "skipped" <==> s == "Skipped"
    ensures r == "passed" <==> s != "Failure" && s != "Error" && s != "Skipped"
    ensures IsResultStatus(r)
  {
    match s
    case "Success" => "passed"
    case "Failure" => "failed"
    case "Error" => "invalid"
    case "Skipped" => "skipped"
    case _ => "passed"
  }

  // ----------------------------------------------------------- attachments

  /** `getAttachment`: the payload is read through the tool and named by
      `AttachmentName`; a failed read is an error. */
  function GetAttachment(tool: Tool, a: XcAttachment): (r: Option<Attachment>)
    ensures r.Some? <==> tool.readAttachment(a.payloadId).Some?
    ensures r.Some? ==> var data := tool.readAttachment(a.payloadId).value;
      && r.value.content == Some(data)
      && r.value.filePath.None?
      && r.value.name == AttachmentName(a.filename, data, tool.isJson(data))
  {
    match tool.readAttachment(a.payloadId)
    case None => None
    case Some(data) => Some(Attachment(AttachmentName(a.filename, data, tool.isJson(data)), None, "", Some(data)))
  }

  /** The values `f` gives for the elements of `xs`, in order, skipping the
      elements it gives none for. */
  function FilterMap<A, B>(f: A -> Option<B>, xs: seq<A>): (r: seq<B>)
    ensures |r| <= |xs|
    ensures (forall k | 0 <= k < |xs| :: f(xs[k]).Some?) ==>
      |r| == |xs| && forall k | 0 <= k < |xs| :: r[k] == f(xs[k]).value
    ensures (forall k | 0 <= k < |xs| :: f(xs[k]).None?) ==> r == []
    decreases |xs|
  {
    if |xs| == 0 then []
    else
      var rest := FilterMap(f, xs[1..]);
      assert forall k | 1 <= k < |xs| :: xs[k] == xs[1..][k - 1];
      match f(xs[0])
      case None => rest
      case Some(y) => [y] + rest
  }

  /** Filtering a concatenation filters each part. */
  lemma {:induction false} FilterMapAppend<A, B>(f: A -> Option<B>, a: seq<A>, b: seq<A>)
    ensures FilterMap(f, a + b) == FilterMap(f, a) + FilterMap(f, b)
    decreases |a|
  {
    if |a| == 0 {
      assert a + b == b;
    } else {
      assert (a + b)[0] == a[0];
      assert (a + b)[1..] == a[1..] + b;
      FilterMapAppend(f, a[1..], b);
    }
  }

  /** `getAttachment` as a function of the attachment alone. */
  function Reader(tool: Tool): XcAttachment -> Option<Attachment> {
    a => GetAttachment(tool, a)
  }

  /** The attachments that can be read, in order; unreadable ones are
      skipped. */
  function Collect(tool: Tool, atts: seq<XcAttachment>): (r: seq<Attachment>)
    ensures |r| <= |atts|
    ensures (forall k | 0 <= k < |atts| :: GetAttachment(tool, atts[k]).Some?) ==>
      |r| == |atts| && forall k | 0 <= k < |atts| :: r[k] == GetAttachment(tool, atts[k]).value
    ensures (forall k | 0 <= k < |atts| :: GetAttachment(tool, atts[k]).None?) ==> r == []
  {
    FilterMap(Reader(tool), atts)
  }

  /** Collecting a concatenation collects each part. */
  lemma CollectAppend(tool: Tool, a: seq<XcAttachment>, b: seq<XcAttachment>)
    ensures Collect(tool, a + b) == Collect(tool, a) + Collect(tool, b)
  {
    FilterMapAppend(Reader(tool), a, b);
  }

  /** The attachment lists of the given activities, concatenated. */
  function TopAttachments(acts: seq<Activity>): seq<XcAttachment>
    decreases |acts|
  {
    if |acts| == 0 then [] else acts[0].attachments + TopAttachments(acts[1..])
  }

  /** `getTestLevelAttachments`: the readable attachments of the top-level
      activities, activity by activity; sub-activities are not searched. */
  function TestLevelAttachments(tool: Tool, acts: seq<Activity>): (r: seq<Attachment>)
    ensures r == Collect(tool, TopAttachments(acts))
    decreases |acts|
  {
    if |acts| == 0 then []
    else
      var rest := TestLevelAttachments(tool, acts[1..]);
      CollectAppend(tool, acts[0].attachments, TopAttachments(acts[1..]));
      Collect(tool, acts[0].attachments) + rest
  }

  // ------------------------------------------------------ failure linking

  /** The step comment for a failure. */
  function FailureComment(f: FailureSummary): string {
    "Line: " + f.lineNumber + "\n" + f.message
  }

  /** What an activity's failure ids contribute: whether any matched, the
      comment of the last match, the readable attachments of every match in
      order, and the matched ids (which become processed). */
  datatype Link = Link(failed: bool, comment: string, attachments: seq<Attachment>, matched: seq<string>)

  /** What the failure-id loop promises about its answer `r` for `ids`. */
  ghost predicate LinkSpec(failures: map<string, FailureSummary>, ids: seq<string>, r: Link) {
    LinkMatches(failures, ids, r) && LinkComment(failures, ids, r)
  }

  /** Which ids `r` matched: exactly the listed ids that are failures. */
  ghost predicate LinkMatches(failures: map<string, FailureSummary>, ids: seq<string>, r: Link) {
    && (r.failed <==> exists i | 0 <= i < |ids| :: ids[i] in failures)
    && (r.failed <==> |r.matched| > 0)
    && (forall k | 0 <= k < |r.matched| :: r.matched[k] in failures)
    && (forall x :: Utils.Contains(r.matched, x) <==> x in failures && Utils.Contains(ids, x))
    && (!r.failed ==> r == Link(false, "", [], []))
  }

  /** The comment of `r` is that of the last listed id that is a failure. */
  ghost predicate LinkComment(failures: map<string, FailureSummary>, ids: seq<string>, r: Link) {
    r.failed ==> exists i | 0 <= i < |ids| ::
      && ids[i] in failures && r.comment == FailureComment(failures[ids[i]])
      && forall j | i < j < |ids| :: ids[j] !in failures
  }

  /** The failure-id loop of `getSteps`. */
  function LinkFailures(tool: Tool, failures: map<string, FailureSummary>, ids: seq<string>): (r: Link)
    ensures r.failed <==> exists i | 0 <= i < |ids| :: ids[i] in failures
    ensures r.failed <==> |r.matched| > 0
    ensures forall k | 0 <= k < |r.matched| :: r.matched[k] in failures
    ensures forall x :: Utils.Contains(r.matched, x) <==> x in failures && Utils.Contains(ids, x)
    ensures r.failed ==> exists i | 0 <= i < |ids| ::
      && ids[i] in failures && r.comment == FailureComment(failures[ids[i]])
      && forall j | i < j < |ids| :: ids[j] !in failures
    ensures !r.failed ==> r == Link(false, "", [], [])
    decreases |ids|
  {
    if |ids| == 0 then Link(false, "", [], [])
    else
      var rest := LinkFailures(tool, failures, ids[1..]);
      var r := if ids[0] in failures then LinkFirst(tool, failures[ids[0]], ids[0], rest) else rest;
      LinkStep(tool, failures, ids, rest, r);
      r
  }

  /** A matched first id in front of what the remaining ids contribute:
      a later match's comment wins. */
  function LinkFirst(tool: Tool, f: FailureSummary, id: string, rest: Link): Link {
    Link(true, if rest.failed then rest.comment else FailureComment(f),
         Collect(tool, f.attachments) + rest.attachments, [id] + rest.matched)
  }

  lemma LinkStep(tool: Tool, failures: map<string, FailureSummary>, ids: seq<string>, rest: Link, r: Link)
    requires |ids| > 0 && LinkSpec(failures, ids[1..], rest)
    requires r == if ids[0] in failures then LinkFirst(tool, failures[ids[0]], ids[0], rest) else rest
    ensures LinkSpec(failures, ids, r)
  {
    LinkStepMatches(tool, failures, ids, rest, r);
    LinkStepComment(tool, failures, ids, rest, r);
  }

  lemma LinkStepMatches(tool: Tool, failures: map<string, FailureSummary>, ids: seq<string>, rest: Link, r: Link)
    requires |ids| > 0 && LinkMatches(failures, ids[1..], rest)
    requires r == if ids[0] in failures then LinkFirst(tool, failures[ids[0]], ids[0], rest) else rest
    ensures LinkMatches(failures, ids, r)
  {
    var tail := ids[1..];
    assert forall k | 1 <= k < |ids| :: ids[k] == tail[k - 1];
    assert forall x :: Utils.Contains(ids, x) <==> x == ids[0] || Utils.Contains(tail, x);
    if ids[0] in failures {
      assert r.matched == [ids[0]] + rest.matched;
      assert forall x :: Utils.Contains(r.matched, x) <==> x == ids[0] || Utils.Contains(rest.matched, x);
    }
  }

  lemma LinkStepComment(tool: Tool, failures: map<string, FailureSummary>, ids: seq<string>, rest: Link, r: Link)
    requires |ids| > 0 && LinkMatches(failures, ids[1..], rest) && LinkComment(failures, ids[1..], rest)
    requires r == if ids[0] in failures then LinkFirst(tool, failures[ids[0]], ids[0], rest) else rest
    ensures LinkComment(failures, ids, r)
  {
    var tail := ids[1..];
    if rest.failed {
      var i :| 0 <= i < |tail| && tail[i] in failures && rest.comment == FailureComment(failures[tail[i]])
        && forall j | i < j < |tail| :: tail[j] !in failures;
      assert ids[i + 1] == tail[i];
      assert forall j | i + 1 < j < |ids| :: ids[j] == tail[j - 1];
    } else if ids[0] in failures {
      assert forall j | 0 < j < |ids| :: ids[j] == tail[j - 1];
    }
  }

  /** `isFailureProcessed`: membership in the processed list. */
  function IsFailureProcessed(processed: seq<string>, f: string): (r: bool)
    ensures r <==> f in processed
  {
    Utils.Contains(processed, f)
  }

  // ------------------------------------------------------------ step walk

  /** The per-test state the source keeps in package globals: the case id
      read from the first `Qase config` attachment and the failure ids a
      step has claimed. */
  datatype DecodeState = DecodeState(caseId: Option<int>, processed: seq<string>)

  /** How the walk may change the state: a case id once set stays, and
      claimed failure ids are only appended, each one a known failure. */
  predicate Extends(failures: map<string, FailureSummary>, before: DecodeState, after: DecodeState) {
    && (before.caseId.Some? ==> after.caseId == before.caseId)
    && HasPrefix(after.processed, before.processed)
    && forall k | |before.processed| <= k < |after.processed| :: after.processed[k] in failures
  }

  lemma ExtendsTransitive(failures: map<string, FailureSummary>, a: DecodeState, b: DecodeState, c: DecodeState)
    requires Extends(failures, a, b) && Extends(failures, b, c)
    ensures Extends(failures, a, c)
  {
    assert c.processed[..|a.processed|] == c.processed[..|b.processed|][..|a.processed|];
    forall k | |a.processed| <= k < |c.processed|
      ensures c.processed[k] in failures
    {
      if k < |b.processed| {
        assert c.processed[k] == c.processed[..|b.processed|][k] == b.processed[k];
      }
    }
  }

  /** The fixed inputs of the walk: the tool, the visibility policy and the
      test's failures by id. */
  datatype Env = Env(tool: Tool, level: StepLevel, failures: map<string, FailureSummary>)

  /** `getSteps`' three results: steps, whether anything failed, and the
      attachments of hidden activities handed to the caller. */
  datatype StepsOut = StepsOut(steps: seq<Step>, failed: bool, attachments: seq<Attachment>)

  /** What one activity turns into: nothing (a `Qase config` carrier or an
      unreadable one), a hidden activity passing its failure and
      attachments up, or a step. */
  datatype Outcome = Skipped | Hidden(failed: bool, attachments: seq<Attachment>) | Shown(step: Step, failed: bool)

  datatype Walk = Walk(out: StepsOut, state: DecodeState)
  datatype Visit = Visit(outcome: Outcome, state: DecodeState)

  /** An attachment container holding exactly one attachment named
      `Qase config`. */
  predicate IsQaseConfig(v: Activity) {
    v.activityType == AttachmentStep && |v.attachments| == 1 && v.attachments[0].name == QaseConfig
  }

  /** Internal and deleted-attachment activities are candidates for hiding. */
  predicate IsHiddenType(t: string) {
    t == InternalStep || t == DeleteStep
  }

  /** Whether an activity of type `t` at `depth` is hidden: never under
      `All`, at every depth under `User`, at the top level only under
      `FirstLevel`. */
  predicate Pruned(level: StepLevel, t: string, depth: nat) {
    IsHiddenType(t) && level != All && (depth == 0 || (depth > 0 && level != FirstLevel))
  }

  /** The visibility policy as a table. */
  lemma PruningPolicy(t: string, depth: nat)
    ensures !Pruned(All, t, depth)
    ensures Pruned(User, t, depth) <==> IsHiddenType(t)
    ensures Pruned(FirstLevel, t, depth) <==> IsHiddenType(t) && depth == 0
  {
  }

  /** The case id carried by a `Qase config` activity, if its payload can
      be read and decoded. */
  function ReadCaseId(tool: Tool, v: Activity): Option<int>
    requires IsQaseConfig(v)
  {
    match tool.readAttachment(v.attachments[0].payloadId)
    case None => None
    case Some(data) => tool.parseCaseId(data)
  }

  /** The attachments an activity collects itself: those of its matched
      failures and then its own, but only when it has a failure-id list. */
  function OwnAttachments(tool: Tool, failures: map<string, FailureSummary>, v: Activity): seq<Attachment> {
    match v.failureSummaryIds
    case None => []
    case Some(ids) => LinkFailures(tool, failures, ids).attachments + Collect(tool, v.attachments)
  }

  function LinkOf(tool: Tool, failures: map<string, FailureSummary>, v: Activity): (r: Link)
    ensures r.failed == Linked(failures, v)
    ensures forall k | 0 <= k < |r.matched| :: r.matched[k] in failures
  {
    match v.failureSummaryIds
    case None => Link(false, "", [], [])
    case Some(ids) => LinkFailures(tool, failures, ids)
  }

  /** One iteration of the `getSteps` loop. */
  function VisitActivity(env: Env, v: Activity, depth: nat, st: DecodeState): (r: Visit)
    ensures r.outcome.Skipped? <==> IsQaseConfig(v)
    ensures r.outcome.Hidden? <==> !IsQaseConfig(v) && Pruned(env.level, v.activityType, depth)
    ensures Extends(env.failures, st, r.state)
    decreases v, 1
  {
    if IsQaseConfig(v) then
      var id := ReadCaseId(env.tool, v);
      Visit(Skipped, if st.caseId.None? && id.Some? then st.(caseId := id) else st)
    else
      var link := LinkOf(env.tool, env.failures, v);
      var own := OwnAttachments(env.tool, env.failures, v);
      var mid := st.(processed := st.processed + link.matched);
      assert Extends(env.failures, st, mid) by {
        assert mid.processed[..|st.processed|] == st.processed;
      }
      var sub := GetSteps(env, v.subactivities, depth + 1, mid);
      ExtendsTransitive(env.failures, st, mid, sub.state);
      var failed := link.failed || sub.out.failed;
      var atts := if |sub.out.steps| == 0 then own + sub.out.attachments else own;
      if Pruned(env.level, v.activityType, depth) then
        Visit(Hidden(failed, atts), sub.state)
      else
        var exec := StepExecution(
          if v.start != "" then Some(env.tool.seconds(v.start)) else None,
          if v.finish != "" then Some(env.tool.seconds(v.finish)) else None,
          if failed then "failed" else "passed",
          None, link.comment, atts);
        Visit(Shown(Step(v.title, exec, sub.out.steps), failed), sub.state)
  }

  /** A shown activity's step lists the attachments it collected itself
      and, only when none of its sub-activities became a step, those its
      hidden sub-activities passed up; otherwise the latter are lost. */
  lemma ShownAttachments(env: Env, v: Activity, depth: nat, st: DecodeState)
    ensures var o := VisitActivity(env, v, depth, st).outcome;
      && (o.Shown? ==> HasPrefix(o.step.execution.attachments, OwnAttachments(env.tool, env.failures, v)))
      && (o.Shown? && |o.step.steps| > 0 ==> o.step.execution.attachments == OwnAttachments(env.tool, env.failures, v))
      && (o.Shown? && v.failureSummaryIds.None? && |o.step.steps| > 0 ==> o.step.execution.attachments == [])
  {
  }

  /** Folding one activity's outcome into the results of the activities
      after it. */
  function Combine(o: Outcome, rest: StepsOut): StepsOut {
    match o
    case Skipped => rest
    case Hidden(f, a) => StepsOut(rest.steps, f || rest.failed, a + rest.attachments)
    case Shown(s, f) => StepsOut([s] + rest.steps, f || rest.failed, rest.attachments)
  }

  /** `getSteps`: the activities in order at `depth`. The first case id
      found is kept, and claimed failure ids are only ever appended. */
  function GetSteps(env: Env, acts: seq<Activity>, depth: nat, st: DecodeState): (r: Walk)
    ensures Extends(env.failures, st, r.state)
    ensures |r.out.steps| <= |acts|
    decreases acts, 0
  {
    if |acts| == 0 then Walk(StepsOut([], false, []), st)
    else
      var one := VisitActivity(env, acts[0], depth, st);
      var rest := GetSteps(env, acts[1..], depth, one.state);
      ExtendsTransitive(env.failures, st, one.state, rest.state);
      Walk(Combine(one.outcome, rest.out), rest.state)
  }

  // -------------------------------------------- the visible tree, declared

  /** A step stripped to what the policy decides: label, status, children. */
  datatype Shape = Shape(action: string, status: string, children: seq<Shape>)

  function ShapeOf(s: Step): Shape
    decreases s, 1
  {
    Shape(s.action, s.execution.status, ShapesOf(s.steps))
  }

  function ShapesOf(ss: seq<Step>): seq<Shape>
    decreases ss, 0
  {
    if |ss| == 0 then [] else [ShapeOf(ss[0])] + ShapesOf(ss[1..])
  }

  /** Some failure id of the activity is in the failure table. */
  predicate Linked(failures: map<string, FailureSummary>, v: Activity) {
    v.failureSummaryIds.Some? && exists i | 0 <= i < |v.failureSummaryIds.value| :: v.failureSummaryIds.value[i] in failures
  }

  /** An activity fails when it is not a `Qase config` carrier and one of
      its failure ids is known or one of its sub-activities fails, whether
      or not that sub-activity is shown. */
  function ActivityFailed(failures: map<string, FailureSummary>, v: Activity): bool
    decreases v, 1
  {
    !IsQaseConfig(v) && (Linked(failures, v) || AnyFailed(failures, v.subactivities))
  }

  function AnyFailed(failures: map<string, FailureSummary>, acts: seq<Activity>): bool
    decreases acts, 0
  {
    |acts| > 0 && (ActivityFailed(failures, acts[0]) || AnyFailed(failures, acts[1..]))
  }

  /** The step tree the policy promises: every activity that is neither a
      `Qase config` carrier nor hidden, in order, failed exactly when
      `ActivityFailed`, with the visible tree of its sub-activities below. */
  function Visible(level: StepLevel, failures: map<string, FailureSummary>, acts: seq<Activity>, depth: nat): seq<Shape>
    decreases acts, 0
  {
    if |acts| == 0 then []
    else VisibleOne(level, failures, acts[0], depth) + Visible(level, failures, acts[1..], depth)
  }

  function VisibleOne(level: StepLevel, failures: map<string, FailureSummary>, v: Activity, depth: nat): seq<Shape>
    decreases v, 1
  {
    if IsQaseConfig(v) || Pruned(level, v.activityType, depth) then []
    else [Shape(v.title, if ActivityFailed(failures, v) then "failed" else "passed",
                Visible(level, failures, v.subactivities, depth + 1))]
  }

  /** The steps `getSteps` builds have exactly the declared visible shape,
      and its failure flag is set exactly when some activity failed. */
  lemma {:induction false} GetStepsShape(env: Env, acts: seq<Activity>, depth: nat, st: DecodeState)
    ensures ShapesOf(GetSteps(env, acts, depth, st).out.steps) == Visible(env.level, env.failures, acts, depth)
    ensures GetSteps(env, acts, depth, st).out.failed == AnyFailed(env.failures, acts)
    decreases acts, 0
  {
    if |acts| > 0 {
      var one := VisitActivity(env, acts[0], depth, st);
      var rest := GetSteps(env, acts[1..], depth, one.state);
      VisitActivityShape(env, acts[0], depth, st);
      GetStepsShape(env, acts[1..], depth, one.state);
      var out := Combine(one.outcome, rest.out);
      assert GetSteps(env, acts, depth, st).out == out;
      match one.outcome
      case Skipped =>
      case Hidden(_, _) =>
      case Shown(s, _) =>
        assert out.steps == [s] + rest.out.steps;
        assert ([s] + rest.out.steps)[1..] == rest.out.steps;
    }
  }

  lemma {:induction false} VisitActivityShape(env: Env, v: Activity, depth: nat, st: DecodeState)
    ensures var o := VisitActivity(env, v, depth, st).outcome;
      && (o.Skipped? ==> VisibleOne(env.level, env.failures, v, depth) == [] && !ActivityFailed(env.failures, v))
      && (o.Hidden? ==> VisibleOne(env.level, env.failures, v, depth) == [] && o.failed == ActivityFailed(env.failures, v))
      && (o.Shown? ==> VisibleOne(env.level, env.failures, v, depth) == [ShapeOf(o.step)] && o.failed == ActivityFailed(env.failures, v))
    decreases v, 1
  {
    if !IsQaseConfig(v) {
      var link := LinkOf(env.tool, env.failures, v);
      assert link.failed == Linked(env.failures, v);
      var sub := GetSteps(env, v.subactivities, depth + 1, st.(processed := st.processed + link.matched));
      GetStepsShape(env, v.subactivities, depth + 1, st.(processed := st.processed + link.matched));
    }
  }

  /** The case id a list of activities carries: that of the first `Qase
      config` activity, depth first, whose payload decodes. The children of
      a `Qase config` activity are never visited. */
  function CaseIdIn(tool: Tool, acts: seq<Activity>): Option<int>
    decreases acts, 0
  {
    if |acts| == 0 then None
    else match CaseIdOf(tool, acts[0])
      case Some(id) => Some(id)
      case None => CaseIdIn(tool, acts[1..])
  }

  function CaseIdOf(tool: Tool, v: Activity): Option<int>
    decreases v, 1
  {
    if IsQaseConfig(v) then ReadCaseId(tool, v) else CaseIdIn(tool, v.subactivities)
  }

  /** First case id wins: the walk keeps a case id it starts with and
      otherwise ends with the first one found. */
  lemma {:induction false} GetStepsCaseId(env: Env, acts: seq<Activity>, depth: nat, st: DecodeState)
    ensures GetSteps(env, acts, depth, st).state.caseId ==
      if st.caseId.Some? then st.caseId else CaseIdIn(env.tool, acts)
    decreases acts, 0
  {
    if |acts| > 0 {
      var one := VisitActivity(env, acts[0], depth, st);
      VisitActivityCaseId(env, acts[0], depth, st);
      GetStepsCaseId(env, acts[1..], depth, one.state);
    }
  }

  lemma {:induction false} VisitActivityCaseId(env: Env, v: Activity, depth: nat, st: DecodeState)
    ensures VisitActivity(env, v, depth, st).state.caseId ==
      if st.caseId.Some? then st.caseId else CaseIdOf(env.tool, v)
    decreases v, 1
  {
    if !IsQaseConfig(v) {
      var link := LinkOf(env.tool, env.failures, v);
      GetStepsCaseId(env, v.subactivities, depth + 1, st.(processed := st.processed + link.matched));
    }
  }

  // ---------------------------------------------------------- test results

  /** `fs[i]` is the last failure summary with id `u`. */
  predicate LastWithId(fs: seq<FailureSummary>, u: string, i: int) {
    0 <= i < |fs| && fs[i].uuid == u && forall j | i < j < |fs| :: fs[j].uuid != u
  }

  /** What the failure table of `fs` holds: exactly the listed ids, each
      mapped to the last summary with that id. */
  ghost predicate FailureTableSpec(fs: seq<FailureSummary>, r: map<string, FailureSummary>) {
    && (forall u :: u in r <==> exists i | 0 <= i < |fs| :: fs[i].uuid == u)
    && (forall u | u in r :: exists i :: LastWithId(fs, u, i) && r[u] == fs[i])
  }

  /** The failure table: a later summary with the same id replaces an
      earlier one. */
  function FailureTable(fs: seq<FailureSummary>): (r: map<string, FailureSummary>)
    ensures forall u :: u in r <==> exists i | 0 <= i < |fs| :: fs[i].uuid == u
    ensures forall u | u in r :: exists i :: LastWithId(fs, u, i) && r[u] == fs[i]
    decreases |fs|
  {
    if |fs| == 0 then map[]
    else
      var t := FailureTable(fs[..|fs| - 1]);
      var last := fs[|fs| - 1];
      FailureTableStep(fs, t);
      t[last.uuid := last]
  }

  /** Entering the last summary keeps `FailureTableSpec`. */
  lemma FailureTableStep(fs: seq<FailureSummary>, t: map<string, FailureSummary>)
    requires |fs| > 0 && FailureTableSpec(fs[..|fs| - 1], t)
    ensures FailureTableSpec(fs, t[fs[|fs| - 1].uuid := fs[|fs| - 1]])
  {
    var prefix := fs[..|fs| - 1];
    var last := fs[|fs| - 1];
    var r := t[last.uuid := last];
    assert forall i | 0 <= i < |prefix| :: prefix[i] == fs[i];
    assert LastWithId(fs, last.uuid, |fs| - 1);
    forall u | u in r
      ensures exists i :: LastWithId(fs, u, i) && r[u] == fs[i]
    {
      if u != last.uuid {
        var i :| LastWithId(prefix, u, i) && t[u] == prefix[i];
        assert LastWithId(fs, u, i);
      }
    }
  }

  /** Each failure id once, in order of first appearance: the order in
      which the model visits the table (Go's map order is unspecified). */
  function FailureIds(fs: seq<FailureSummary>): (r: seq<string>)
    ensures forall u :: u in r <==> exists i | 0 <= i < |fs| :: fs[i].uuid == u
    ensures forall i, j | 0 <= i < j < |r| :: r[i] != r[j]
    decreases |fs|
  {
    if |fs| == 0 then []
    else
      var prefix := fs[..|fs| - 1];
      var u := fs[|fs| - 1].uuid;
      assert forall i | 0 <= i < |prefix| :: prefix[i] == fs[i];
      var ids := FailureIds(prefix);
      if u in ids then ids else ids + [u]
  }

  /** The final loop of `getResults`: the readable attachments of every
      failure no step claimed. */
  function UnclaimedAttachments(tool: Tool, table: map<string, FailureSummary>, ids: seq<string>, processed: seq<string>): (r: seq<Attachment>)
    ensures (forall k | 0 <= k < |ids| :: ids[k] in processed || ids[k] !in table) ==> r == []
    decreases |ids|
  {
    if |ids| == 0 then []
    else
      var rest := UnclaimedAttachments(tool, table, ids[1..], processed);
      if IsFailureProcessed(processed, ids[0]) || ids[0] !in table then rest
      else Collect(tool, table[ids[0]].attachments) + rest
  }

  /** One failure id: the readable attachments of its summary when it is
      in the table and no step claimed it, nothing otherwise. */
  lemma UnclaimedOne(tool: Tool, table: map<string, FailureSummary>, id: string, processed: seq<string>)
    ensures UnclaimedAttachments(tool, table, [id], processed) ==
      if id in processed || id !in table then [] else Collect(tool, table[id].attachments)
  {
    assert [id][1..] == [];
    if id !in processed && id in table {
      assert Collect(tool, table[id].attachments) + [] == Collect(tool, table[id].attachments);
    }
  }

  /** The failure ids contribute in their order: the attachments for
      `a + b` are those for `a` followed by those for `b`. */
  lemma {:induction false} UnclaimedAppend(tool: Tool, table: map<string, FailureSummary>, a: seq<string>, b: seq<string>, processed: seq<string>)
    ensures UnclaimedAttachments(tool, table, a + b, processed) ==
      UnclaimedAttachments(tool, table, a, processed) + UnclaimedAttachments(tool, table, b, processed)
    decreases |a|
  {
    if |a| == 0 {
      assert a + b == b;
    } else {
      assert (a + b)[0] == a[0];
      assert (a + b)[1..] == a[1..] + b;
      UnclaimedAppend(tool, table, a[1..], b, processed);
      var x := UnclaimedAttachments(tool, table, a[1..], processed);
      var y := UnclaimedAttachments(tool, table, b, processed);
      if !IsFailureProcessed(processed, a[0]) && a[0] in table {
        var c := Collect(tool, table[a[0]].attachments);
        assert c + (x + y) == (c + x) + y;
      }
    }
  }

  /** The stack trace: every failure message followed by a line feed. */
  function StackTrace(fs: seq<FailureSummary>): string
    decreases |fs|
  {
    if |fs| == 0 then "" else fs[0].message + "\n" + StackTrace(fs[1..])
  }

  function Messages(fs: seq<FailureSummary>): (r: seq<string>)
    ensures |r| == |fs| && forall k | 0 <= k < |fs| :: r[k] == fs[k].message
  {
    seq(|fs|, k requires 0 <= k < |fs| => fs[k].message)
  }

  /** The stack trace is the messages joined by line feeds, with a final
      line feed, claimed by a step or not. */
  lemma {:induction false} StackTraceIsJoin(fs: seq<FailureSummary>)
    ensures StackTrace(fs) == if |fs| == 0 then "" else Join(Messages(fs), "\n") + "\n"
    decreases |fs|
  {
    if |fs| > 1 {
      StackTraceIsJoin(fs[1..]);
      assert Messages(fs)[1..] == Messages(fs[1..]);
      assert Join(Messages(fs), "\n") == fs[0].message + "\n" + Join(Messages(fs[1..]), "\n");
    } else if |fs| == 1 {
      assert StackTrace(fs[1..]) == "";
    }
  }

  /** The step walk of one test, from a fresh state. */
  function TestWalk(tool: Tool, level: StepLevel, t: XCTest): Walk {
    var table := FailureTable(t.action.failureSummaries.GetOr([]));
    GetSteps(Env(tool, level, table), t.action.activities, 0, DecodeState(None, []))
  }

  /** `getResults` for one test. */
  function GetResult(tool: Tool, level: StepLevel, t: XCTest): (r: TestResult)
    ensures r.title == t.name && r.signature == Some(t.signature)
    ensures r.relations.suite == Some([t.metadata.suite] + t.suites)
    ensures r.execution.status == GetStatus(t.action.testStatus)
    ensures r.execution.duration == Some(t.duration)
    ensures r.execution.stackTrace.Some? <==> t.action.failureSummaries.Some?
    ensures t.action.failureSummaries.Some? ==> r.execution.stackTrace == Some(StackTrace(t.action.failureSummaries.value))
    ensures r.execution.startTime.Some? <==> |t.action.activities| > 0
    ensures r.testOpsId == CaseIdIn(tool, t.action.activities)
    ensures ShapesOf(r.steps) ==
      Visible(level, FailureTable(t.action.failureSummaries.GetOr([])), t.action.activities, 0)
    ensures r.params == map["Device" := t.metadata.device, "Configuration" := t.metadata.configuration]
    ensures r.stepType == "text" && !r.muted && r.fields == map[]
    ensures var fs := t.action.failureSummaries.GetOr([]);
      HasSuffix(r.attachments, UnclaimedAttachments(tool, FailureTable(fs), FailureIds(fs), TestWalk(tool, level, t).state.processed))
    ensures var fs := t.action.failureSummaries.GetOr([]);
      r.attachments == TestWalk(tool, level, t).out.attachments + TestLevelAttachments(tool, t.action.activities)
        + UnclaimedAttachments(tool, FailureTable(fs), FailureIds(fs), TestWalk(tool, level, t).state.processed)
  {
    var fs := t.action.failureSummaries.GetOr([]);
    var table := FailureTable(fs);
    var walk := TestWalk(tool, level, t);
    var acts := t.action.activities;
    GetStepsCaseId(Env(tool, level, table), acts, 0, DecodeState(None, []));
    GetStepsShape(Env(tool, level, table), acts, 0, DecodeState(None, []));
    var unclaimed := UnclaimedAttachments(tool, table, FailureIds(fs), walk.state.processed);
    var attachments := walk.out.attachments + TestLevelAttachments(tool, acts) + unclaimed;
    assert HasSuffix(attachments, unclaimed) by {
      assert attachments[|attachments| - |unclaimed|..] == unclaimed;
    }
    TestResult(
      t.name,
      Some(t.signature),
      walk.state.caseId,
      Execution(
        if |acts| > 0 then Some(tool.millis(acts[0].start)) else None,
        if |acts| > 0 then Some(tool.millis(acts[|acts| - 1].finish)) else None,
        GetStatus(t.action.testStatus),
        Some(t.duration),
        if t.action.failureSummaries.Some? then Some(StackTrace(fs)) else None,
        None),
      map[],
      attachments,
      walk.out.steps,
      "text",
      map["Device" := t.metadata.device, "Configuration" := t.metadata.configuration],
      [],
      Relation(Some([t.metadata.suite] + t.suites)),
      false,
      None, None, None, None)
  }

  /** With every step shown, no hidden activity passes attachments up. */
  lemma {:induction false} NothingHiddenUnderAll(env: Env, acts: seq<Activity>, depth: nat, st: DecodeState)
    requires env.level == All
    ensures GetSteps(env, acts, depth, st).out.attachments == []
    decreases |acts|
  {
    if |acts| > 0 {
      var one := VisitActivity(env, acts[0], depth, st);
      NothingHiddenUnderAll(env, acts[1..], depth, one.state);
    }
  }

  /** Under the "all" level the walk hands no attachments up, so a
      result's attachments (`GetResult`) are the test-level ones followed by
      those of the unclaimed failures. */
  lemma TestWalkUnderAll(tool: Tool, t: XCTest)
    ensures TestWalk(tool, All, t).out.attachments == []
  {
    var fs := t.action.failureSummaries.GetOr([]);
    NothingHiddenUnderAll(Env(tool, All, FailureTable(fs)), t.action.activities, 0, DecodeState(None, []));
  }

  /** `getResults`: one result per test, in order, each computed from a
      fresh case-id and failure state. */
  function GetResults(tool: Tool, level: StepLevel, tests: seq<XCTest>): (r: seq<TestResult>)
    ensures |r| == |tests|
    ensures forall k | 0 <= k < |tests| :: r[k] == GetResult(tool, level, tests[k])
  {
    seq(|tests|, k requires 0 <= k < |tests| => GetResult(tool, level, tests[k]))
  }

  /** A step claiming a failure keeps that failure's attachments out of the
      result-level list: a table whose every failure was claimed adds none. */
  lemma ClaimedFailuresAddNothing(tool: Tool, table: map<string, FailureSummary>, ids: seq<string>, processed: seq<string>)
    requires forall k | 0 <= k < |ids| :: ids[k] in processed
    ensures UnclaimedAttachments(tool, table, ids, processed) == []
  {
  }

  // ------------------------------------------------------------ test tree

  /** `getXCTestsFromSubtest` for one node: a node with a summary
      reference is a test (dropped if its summary cannot be read, with an
      unparsable duration read as 0) even if it has subtests; otherwise it
      is a group whose name is appended to the suite path of its subtests. */
  function TestsFromNode(tool: Tool, v: SubtestNode, suites: seq<string>): (r: seq<XCTest>)
    ensures v.summaryRef.Some? ==> |r| <= 1
    ensures v.summaryRef.Some? ==> forall k | 0 <= k < |r| :: r[k].suites == suites
    ensures v.summaryRef.None? ==> forall k | 0 <= k < |r| :: HasPrefix(r[k].suites, suites + [v.name])
    decreases v, 1
  {
    match v.summaryRef
    case Some(id) =>
      (match tool.summary(id)
       case None => []
       case Some(act) => [XCTest(v.name, act, suites, v.identifierUrl, tool.parseDuration(v.duration).GetOr(0), NoMeta)])
    case None => TestsFromSubtests(tool, v.subtests, suites + [v.name])
  }

  /** `getXCTestsFromSubtest`: the tests under the nodes, in order; every
      test's suite path starts with the path of the nodes' group. */
  function TestsFromSubtests(tool: Tool, nodes: seq<SubtestNode>, suites: seq<string>): (r: seq<XCTest>)
    ensures forall k | 0 <= k < |r| :: HasPrefix(r[k].suites, suites)
    decreases nodes, 0
  {
    if |nodes| == 0 then []
    else
      var first := TestsFromNode(tool, nodes[0], suites);
      var rest := TestsFromSubtests(tool, nodes[1..], suites);
      assert forall k | 0 <= k < |first| :: HasPrefix(first[k].suites, suites) by {
        forall k | 0 <= k < |first| ensures HasPrefix(first[k].suites, suites) {
          if nodes[0].summaryRef.None? {
            assert first[k].suites[..|suites|] == (suites + [nodes[0].name])[..|suites|];
          }
        }
      }
      var r := first + rest;
      assert forall k | 0 <= k < |r| :: r[k] == if k < |first| then first[k] else rest[k - |first|];
      r
  }

  /** A test node together with the names of the groups enclosing it. */
  datatype Leaf = Leaf(node: SubtestNode, suites: seq<string>)

  /** The test nodes under `nodes`, depth first, each with its group path;
      the tree's shape alone decides this list. */
  function Leaves(nodes: seq<SubtestNode>, suites: seq<string>): (r: seq<Leaf>)
    ensures forall k | 0 <= k < |r| :: r[k].node.summaryRef.Some? && HasPrefix(r[k].suites, suites)
    decreases nodes, 0
  {
    if |nodes| == 0 then []
    else LeavesOf(nodes[0], suites) + Leaves(nodes[1..], suites)
  }

  function LeavesOf(v: SubtestNode, suites: seq<string>): (r: seq<Leaf>)
    ensures forall k | 0 <= k < |r| :: r[k].node.summaryRef.Some? && HasPrefix(r[k].suites, suites)
    decreases v, 1
  {
    if v.summaryRef.Some? then [Leaf(v, suites)]
    else
      var r := Leaves(v.subtests, suites + [v.name]);
      assert forall k | 0 <= k < |r| :: HasPrefix(r[k].suites, suites) by {
        forall k | 0 <= k < |r| ensures HasPrefix(r[k].suites, suites) {
          assert r[k].suites[..|suites|] == (suites + [v.name])[..|suites|];
        }
      }
      r
  }

  /** The test for one leaf, if its summary can be read. */
  function FetchLeaf(tool: Tool, l: Leaf): seq<XCTest>
    requires l.node.summaryRef.Some?
  {
    match tool.summary(l.node.summaryRef.value)
    case None => []
    case Some(act) => [XCTest(l.node.name, act, l.suites, l.node.identifierUrl, tool.parseDuration(l.node.duration).GetOr(0), NoMeta)]
  }

  /** Fetching each leaf in turn; a failed fetch drops only that leaf. */
  function FetchLeaves(tool: Tool, ls: seq<Leaf>): (r: seq<XCTest>)
    requires forall k | 0 <= k < |ls| :: ls[k].node.summaryRef.Some?
    ensures |r| <= |ls|
    ensures (forall k | 0 <= k < |ls| :: tool.summary(ls[k].node.summaryRef.value).Some?) ==> |r| == |ls|
    decreases |ls|
  {
    if |ls| == 0 then [] else FetchLeaf(tool, ls[0]) + FetchLeaves(tool, ls[1..])
  }

  lemma {:induction false} FetchLeavesAppend(tool: Tool, a: seq<Leaf>, b: seq<Leaf>)
    requires forall k | 0 <= k < |a| :: a[k].node.summaryRef.Some?
    requires forall k | 0 <= k < |b| :: b[k].node.summaryRef.Some?
    ensures FetchLeaves(tool, a + b) == FetchLeaves(tool, a) + FetchLeaves(tool, b)
    decreases |a|
  {
    if |a| == 0 {
      assert a + b == b;
    } else {
      assert (a + b)[0] == a[0];
      assert (a + b)[1..] == a[1..] + b;
      FetchLeavesAppend(tool, a[1..], b);
    }
  }

  /** The tests found under a subtest list are exactly the fetched leaves,
      in depth-first order, each carrying the names of its enclosing groups
      as its suites. */
  lemma {:induction false} TestsAreFetchedLeaves(tool: Tool, nodes: seq<SubtestNode>, suites: seq<string>)
    ensures TestsFromSubtests(tool, nodes, suites) == FetchLeaves(tool, Leaves(nodes, suites))
    decreases nodes, 0
  {
    if |nodes| > 0 {
      TestsOfNodeAreFetchedLeaves(tool, nodes[0], suites);
      TestsAreFetchedLeaves(tool, nodes[1..], suites);
      FetchLeavesAppend(tool, LeavesOf(nodes[0], suites), Leaves(nodes[1..], suites));
    }
  }

  lemma {:induction false} TestsOfNodeAreFetchedLeaves(tool: Tool, v: SubtestNode, suites: seq<string>)
    ensures TestsFromNode(tool, v, suites) == FetchLeaves(tool, LeavesOf(v, suites))
    decreases v, 1
  {
    if v.summaryRef.Some? {
      assert FetchLeaves(tool, [Leaf(v, suites)]) == FetchLeaf(tool, Leaf(v, suites)) + FetchLeaves(tool, []);
    } else {
      TestsAreFetchedLeaves(tool, v.subtests, suites + [v.name]);
    }
  }
}
